=== FILE: README.md ===
# Gym enrollment: a Dafny model

This project models the core rules of a gym enrollment system in Dafny. The system has a Go
service layer over a relational store and a React client. The model has two halves.

**Server.**
- The store is a set of maps: users by id plus a username index, and activities by id. The
  inscription table is a sequence in primary-key order, so "the first matching row" has a meaning.
  Each table has an auto-increment counter.
- The services are modelled one module per file:
  - enrollment: the four ordered checks, the insert and the slot decrement;
  - activities: validation, the partial-update merge and the slot bound;
  - users: registration, the credential check and the partial update;
  - login: it issues a token.
- Other server modules:
  - the JWT middleware's decision pipeline, with signature checking as an oracle;
  - the admin gate;
  - the enrollment controller's mapping from error text to HTTP status;
  - the in-memory registration of the sports controller.
- The store refuses a duplicate username by itself, through its username index. Every other
  way a store write can fail (a lost connection, a constraint the map store does not keep) comes
  in as an explicit failure parameter. So each `if err != nil` branch of the code is a branch
  of the model.

**Client.**
- `localStorage` is a `map<string, string>`.
- JavaScript objects are insertion-ordered lists with unique keys.
- `JSON.stringify` and `JSON.parse` are a concrete codec for flat objects whose values are null,
  booleans, integers or strings.
  - The reader follows JSON's grammar for these values. It skips whitespace between tokens, reads
    every standard escape, and refuses leading zeros and raw control characters.
  - The writer escapes control characters as `JSON.stringify` does.
  - The round trip is proved, not assumed.
- Modelled parts:
  - the session provider: hydration, login, logout, the header merge, the user-id lookup and the
    admin flag;
  - the token helpers;
  - the login form's response handling;
  - the route table and its guard;
  - the main page's admin gating, enrollment messages, fallback request and list normalisation;
  - the activity form;
  - the day-name table.

**Cross-boundary properties.** A last module, `SessionFlow`, joins the two halves:
- what the login reply does to the client's session across a reload;
- how the enrollment refusals are worded on screen;
- how the stored day numbers are labelled.

**How the model is built.**
- Hashing is a concrete injective stand-in (a tag prepended to the password). Only its injectivity
  is used.
- Token signing and verification are function parameters.
- The server code cannot be built as a whole: some functions are defined twice in one package, and
  the record types disagree. So each service file is modelled in its own module. Each module uses
  the record fields that file's code reads.

**Where the model follows the code rather than the system's description.** The description says
authenticated requests use the token held in memory. The code's `authenticatedFetch` reads the token
from `localStorage` at call time (AuthContext.jsx:59-70), and `AuthContext.RequestHeaders` does the same.

## Model

| member | source | states |
|---|---|---|
| InscriptionService.Rejection | backend/services/inscripcion_services.go:51-72 | Enrollment checks, in order: user exists, activity exists, slots > 0, then no existing row with id > 0 for the same (user, activity) pair. The first failing check gives its fixed message; none fails exactly when all four hold |
| InscriptionService.CreateInscription | backend/services/inscripcion_services.go:50-116 | A rejection or a failed insert returns that error and leaves the store unchanged. Success appends exactly one row (next id, user, activity) and leaves users untouched. It returns the user's public fields and the activity with slots one lower. A failed slot write is ignored |
| InscriptionService.CreateInscriptionSlots | backend/services/inscripcion_services.go:85-92 | After a successful enrollment only the enrolled activity changes: its slot count drops by one, or stays the same when the slot write failed |
| InscriptionService.DuplicateCheckExact | backend/services/inscripcion_services.go:68-72 | Under the schema (ids positive), the duplicate check rejects exactly the pairs that already have an inscription row |
| InscriptionService.CreateInscriptionKeepsInvariants | backend/services/inscripcion_services.go:63-87 | Enrollment keeps the schema, never takes a slot count below zero, and never stores a (user, activity) pair twice |
| InscriptionService.CreateInscriptionKeepsSeats | backend/services/inscripcion_services.go:75-87 | When both writes succeed, free slots plus enrolments for the activity stay constant, and the enrolment count grows by exactly one |
| InscriptionService.CreateThenGet | backend/services/inscripcion_services.go:10-48 | Reading back the new inscription by id returns exactly the record enrollment returned |
| InscriptionService.GetInscriptionByID | backend/services/inscripcion_services.go:10-25 | Fails with the store's not-found error when the inscription, its user or its activity is missing. Otherwise returns the join of the first row with that id: its ids, its user and its activity |
| InscriptionService.Join | backend/services/inscripcion_services.go:128-158 | A row joins exactly when both its user and its activity exist. The joined record keeps the row's ids and carries the referenced user, without its hash, and the referenced activity, field for field |
| InscriptionService.JoinAll | backend/services/inscripcion_services.go:125-161 | The listing is no longer than the table. Every listed record comes from a row that joins, and every row that joins is listed |
| InscriptionService.JoinAllKeepsOrder | backend/services/inscripcion_services.go:126-159 | Rows in id order give a listing in id order: the listing keeps store order |
| InscriptionService.GetAllInscriptions | backend/services/inscripcion_services.go:119-162 | A scan failure is returned as is. Otherwise the loop builds exactly the joined listing, skipping rows whose user or activity is missing |
| ActivityService.GetActivityByID | backend/services/actividad_services.go:13-30 | Succeeds iff the id is stored, returning the stored record field for field. Otherwise fails with "activity not found with id N: record not found" |
| Domain.ActivityCopiesInverse | backend/services/actividad_services.go:84-113 | The record-to-activity and activity-to-record copies are inverse, so an activity and its stored row determine each other |
| ActivityService.ToDomain | backend/services/actividad_services.go:39-55 | The mapping keeps length and order and copies each of the nine fields one to one |
| ActivityService.ListActivities | backend/services/actividad_services.go:33-56 | A scan failure is wrapped with the operation's prefix. A successful scan yields a listing of the same length |
| ActivityService.Validation | backend/services/actividad_services.go:61-81 | Rejects, in order: empty name, profesor, categoria, description; the day check; slots <= 0; a missing start or end hour. The message is the first failing check's |
| ActivityService.DiaGuardNeverFires | backend/services/actividad_services.go:73-75 | The day guard as written (`<= 0 && > 7`) holds for no day. The `||` form rejects 0 and 8 and accepts 1 and 7 |
| ActivityService.InsertWith | backend/services/actividad_services.go:59-114 | A rejection or a failed insert leaves the store unchanged and gives the matching error. Success stores the activity under the next id and returns exactly what was stored |
| ActivityService.InsertActivity | backend/services/actividad_services.go:59-114 | As written: succeeds iff the text fields are non-empty, slots > 0 and the hours are given, whatever the day. The day error never occurs |
| ActivityService.InsertActivityIntended | backend/services/actividad_services.go:73-75 | With the day check using `||`: every stored activity has a day in 1..7, and an out-of-range day with valid names is refused with the day message |
| ActivityService.DayZeroAccepted | backend/services/actividad_services.go:73-75 | A concrete activity on day 0 is stored by the code as written and refused by the intended check |
| ActivityService.InsertThenGet | backend/services/actividad_services.go:96-113 | Reading the new id back returns exactly the created activity, and the store keeps its schema |
| ActivityService.Merge | backend/services/actividad_services.go:203-226 | Each field takes the patch's value only when the patch's value is non-empty (strings) or positive (slots, day). The id is kept |
| ActivityService.MergeLaws | backend/services/actividad_services.go:202-228 | Merging is idempotent. An all-empty patch changes nothing. A patch with every field set replaces the record |
| ActivityService.MergeNeverZeroesCupos | backend/services/actividad_services.go:212-214 | An update cannot set slots to zero or below. Non-negative slots stay non-negative |
| ActivityService.UpdateActivity | backend/services/actividad_services.go:195-229 | An unknown id fails with "activity not found: record not found" and writes nothing. A failed save writes nothing. Success saves the merged record |
| ActivityService.UpdateActivityKeepsInvariants | backend/services/actividad_services.go:195-229 | Updating keeps the schema and keeps slot counts non-negative |
| ActivityService.UpdateActivityIdempotent | backend/services/actividad_services.go:202-228 | Applying the same update twice gives the same store as applying it once |
| ActivityService.UpdateActivitySlots | backend/services/actividad_services.go:263-268 | Negative counts are refused with "slots cannot be negative" and nothing is written. Zero and positive counts are written to the activity (an unknown id changes nothing). Only that activity's slot count changes: users, inscriptions, counters, the other activities and the activity's other fields stay as they were |
| ActivityService.UpdateActivitySlotsKeepsInvariants | backend/services/actividad_services.go:263-268 | Writing slots keeps the schema and keeps slot counts non-negative |
| UserService.GetUserByID | backend/services/usuario_services.go:14-26 | Succeeds iff the id is stored, with the stored id and username and an empty password. Otherwise fails with "user not found with id N: record not found" |
| UserService.GetUserByUsername | backend/services/usuario_services.go:29-41 | On a well-formed store, succeeds iff the username is registered. The result is the stored user's id, username and admin flag, with an empty password. Otherwise fails with the wrapped not-found error |
| UserService.UsernameReadMatchesIdRead | backend/services/usuario_services.go:14-41 | On a well-formed store, reading a registered username answers exactly as reading the id its index holds |
| UserService.GetAllUsers | backend/services/usuario_services.go:104-121 | A scan failure is wrapped with "failed to get users". Otherwise every user is listed in order with its id, username and admin flag, and an empty password, name and token |
| UserService.ListedUsersReadable | backend/services/usuario_services.go:104-121 | When the scan returns rows of the users table, every listed user is exactly what GetUserByID answers for its id |
| UserService.Register | backend/services/usuario_services.go:53-81 | A taken username gives "username already exists" and inserts nothing. Success stores `hashPassword(password)`, never the plaintext, and returns the new id with an empty password |
| UserService.CreateUser | backend/services/usuario_services.go:44-81 | An empty username, then an empty password, is refused before any lookup. Any failure leaves the store unchanged. With both given, the result is registration with no name: a taken username is refused, and success stores the password's hash. The returned user has an empty password |
| UserService.CreateUserThenValidate | backend/services/usuario_services.go:44-101 | A created user is stored under its username with the password's hash and no name, and signs in with that password |
| UserService.CreateUserRefusesTaken | backend/services/usuario_services.go:44-81 | Creating a user whose username is taken gives "username already exists" and writes nothing |
| UserService.RegisterThenValidate | backend/services/usuario_services.go:84-101 | After a registration, the credential check with the same username and password succeeds and returns the registered user |
| UserService.RegisterThenGet | backend/services/usuario_services.go:14-82 | After a successful registration the new user is read back, by the id the store assigned and by username, with the registered fields and an empty name |
| UserService.ValidateUserCredentials | backend/services/usuario_services.go:84-101 | An unknown user and a wrong password give the same "invalid credentials". Success iff the stored hash verifies. The result is the stored user's id, username and admin flag, with an empty password and an empty token |
| UserService.ValidatedUserIsStoredUser | backend/services/usuario_services.go:29-101 | Accepted credentials return the same user as the read by that username |
| UserService.PatchUser | backend/services/usuario_services.go:131-138 | The username changes only if the new one is non-empty. The password is rehashed only if the new one is non-empty. The admin flag is always overwritten |
| UserService.UpdateUser | backend/services/usuario_services.go:124-141 | An unknown id fails with "user not found: record not found" and writes nothing. Otherwise the save's error is returned as it is, either a failure of the store or a username the index already holds for another user. Success iff the id is stored and the save goes through, and then the patched record is saved |
| UserService.UpdateUserThenValidate | backend/services/usuario_services.go:124-141 | After an update that set a password, that password verifies for the (possibly renamed) user and any other password fails |
| UserService.UpdateUserIdempotent | backend/services/usuario_services.go:131-140 | Repeating a successful update succeeds and changes nothing further |
| Passwords.HashInjective | backend/services/usuario_services.go:149-152 | Equal hashes come from equal passwords |
| Passwords.VerifyMeansSamePassword | backend/services/usuario_services.go:155-157 | A password verifies against its own hash, and against another's hash iff the two passwords are equal |
| LoginService.Login | backend/services/login_services.go:14-37 | An unknown username fails with the wrapped not-found error, and a wrong password with "invalid password". A signing failure also fails. Success copies id, name, username and admin flag and carries the issued token |
| LoginService.LoginFailuresDistinct | backend/services/login_services.go:16-24 | The unknown-user error and the wrong-password error can always be told apart |
| LoginService.CreateUser | backend/services/login_services.go:40-83 | Checks name, then username, then password for emptiness. Any failure writes nothing. With all three given, the result is registration with the name: a taken username is refused, and success stores the password's hash. Success keeps the name and returns an empty password |
| LoginService.CreateThenLogin | backend/services/login_services.go:14-83 | A user just created can log in with the same credentials and gets the created user with the issued token |
| LoginService.LoginAgreesWithValidate | backend/services/login_services.go:14-37 | When login succeeds the credential check also succeeds, for the same user id, but with an empty token |
| Jwt.ClaimsFor | backend/utils/jwt.go:27-34 | The claims carry issuer "backend" and subject "auth". For an id in the 64-bit range, the `jti` text parses back to the id |
| Jwt.GenerateJWT | backend/utils/jwt.go:21-46 | A signing failure is wrapped as "error signing token: …". Otherwise the signed text is returned |
| Jwt.BearerToken | backend/utils/jwt.go:54-60 | A token is found iff the header starts with "Bearer ". The prefix plus the token is the header |
| Jwt.ClaimedUserId | backend/utils/jwt.go:54-103 | No Bearer prefix gives 401 "Token no proporcionado o inválido". A failed verification gives "Token inválido". Non-map claims give "Claims inválidos". A missing or non-string jti gives "ID de usuario no encontrado". A non-decimal jti gives "ID de usuario inválido" |
| Jwt.JwtAuth | backend/utils/jwt.go:50-108 | Token failures abort with 401. A failed user lookup aborts with 500 "Error al obtener información del usuario" after user_id is set. Otherwise it sets user_id and is_admin and calls next |
| Jwt.AdminAuth | backend/utils/jwt.go:109-119 | Calls next iff is_admin is present and is the boolean true. Otherwise it aborts with 403 and the fixed message |
| Jwt.IssuedTokenPasses | backend/utils/jwt.go:21-106 | A token issued for a stored user, which verifies to its own claims, passes the middleware with that user's id |
| Jwt.AdminBehindJwt | backend/utils/jwt.go:84-117 | After the JWT middleware passes, the admin gate passes exactly for admin users |
| Jwt.AdminWithoutJwt | backend/utils/jwt.go:111-116 | With no is_admin key, or a non-boolean one, the admin gate refuses with 403 |
| Decimal.AtoiOfIntToString | backend/utils/jwt.go:33-83 | The decimal text of any 64-bit integer parses back to the same integer |
| InscriptionController.ResponseLosesNothing | backend/controllers/inscripcion_controller.go:160-182 | The response drops only the user's name, password and token. An inscription survives the round trip through the response iff those three are empty, and a response survives the reverse trip unchanged |
| InscriptionController.GetInscriptionByID | backend/controllers/inscripcion_controller.go:14-51 | A non-numeric id gives 400 before any lookup. A missing inscription gives 404 "Inscription not found". Otherwise 200 with the reply form of the service's record for that id |
| InscriptionController.GetInscriptionByUserAndActivity | backend/controllers/inscripcion_controller.go:52-95 | A bad user id gives 400 "Invalid user ID format", and then a bad activity id gives "Invalid activity ID format". With both parsed, a failed lookup gives 404 "Inscription not found", and a found one gives 200 with its reply form |
| InscriptionController.ErrorReply | backend/controllers/inscripcion_controller.go:133-156 | The two conflict errors give 409 and the two not-found errors give 404, each with its fixed text. Any other error gives 500 with its text as details |
| InscriptionController.CreateInscription | backend/controllers/inscripcion_controller.go:98-182 | A bind failure gives 400 with details. Otherwise the service's error goes through the mapping, or 201 with the converted result |
| InscriptionController.CreateInscriptionStatuses | backend/controllers/inscripcion_controller.go:132-182 | Every service rejection is a 404 or 409. A 500 happens only when the store insert failed. A 201 reports the activity with one slot fewer |
| InscriptionController.NonPositiveUserIdIs404 | backend/controllers/inscripcion_controller.go:113-124 | With the id check commented out, a non-positive user id reaches the service and comes back as 404 "User not found" |
| InscriptionController.GetInscriptionsByUserID | backend/controllers/inscripcion_controller.go:184-196 | 400 iff the id does not parse. Otherwise 501 with the parsed id under the key `user_id` |
| InscriptionController.DeleteInscription | backend/controllers/inscripcion_controller.go:223-236 | 400 iff the id does not parse. Otherwise 501 with the parsed id under the key `id` |
| InscriptionController.GetActivitiesByUser | backend/controllers/inscripcion_controller.go:198-203 | Always 501 |
| InscriptionController.GetMyActivities | backend/controllers/inscripcion_controller.go:205-212 | Always 501 |
| InscriptionController.GetInscriptions | backend/controllers/inscripcion_controller.go:214-221 | Always 501 |
| SportsController.RegisterUser | backend/controllers/acc_deportivascontroller.go:17-30 | The list grows by exactly the returned user, placed last. Its id is the old length + 1 and its password is the hash of the input. Every other field is unchanged |
| SportsController.RegisterKeepsIds | backend/controllers/acc_deportivascontroller.go:24-27 | When each stored user's id is its position + 1, that stays true after a registration |
| SportsController.RegisterAll | backend/controllers/acc_deportivascontroller.go:17-30 | n registrations from empty give ids 1..n, pairwise distinct, with hashed passwords |
| Json.ParseStringify | frontend/src/context/AuthContext.jsx:25-42 | Parsing the text written by the stringifier gives back the same value, for the model's unbounded integers |
| Json.ParseSpaced | frontend/src/context/AuthContext.jsx:25 | Whitespace before and after the stringifier's text is skipped, and the value is read back |
| Json.ParseOneMemberObject | frontend/src/context/AuthContext.jsx:25 | An object of one member with whitespace inside, around its colon or after its value, reads as that member |
| Json.ParseSpacedMemberExample | frontend/src/context/AuthContext.jsx:25 | `{"id": 1}` parses to the object with id 1 |
| Json.ParseRejectsLeadingZero | frontend/src/context/AuthContext.jsx:25 | `01` is a SyntaxError |
| Json.ParseRejectsRawNewline | frontend/src/context/AuthContext.jsx:25 | A string holding a raw line break is a SyntaxError |
| Json.ParseRejectsUndefinedText | frontend/src/context/AuthContext.jsx:25 | The text "undefined" is a SyntaxError |
| Json.Parse | frontend/src/context/AuthContext.jsx:25 | Empty or all-whitespace text is a SyntaxError |
| Json.Stringify | frontend/src/context/AuthContext.jsx:42 | The text is non-empty, never starts with whitespace, and starts with `{` exactly for an object |
| Json.StringifyNoControl | frontend/src/context/AuthContext.jsx:42 | The text never holds a raw control character: each one inside a string is escaped |
| Json.StringifyEscapesNewline | frontend/src/context/AuthContext.jsx:42 | A line break in a string is written as the two characters backslash and n, and read back as a line break |
| AuthContext.Hydrate | frontend/src/context/AuthContext.jsx:19-35 | Authenticated iff both keys hold non-empty text and the user parses. A parse failure removes both keys. Otherwise storage is untouched. loading ends false on every branch |
| AuthContext.AdminFlag | frontend/src/context/AuthContext.jsx:41 | The saved flag is is_admin when truthy and false otherwise |
| AuthContext.UserToSave | frontend/src/context/AuthContext.jsx:41 | The saved user has isAdmin set to that flag, overriding any previous value. Every other property is kept |
| AuthContext.Login | frontend/src/context/AuthContext.jsx:37-45 | Stores the token's string form and the serialised user, and becomes authenticated with that user. No other key changes |
| AuthContext.Logout | frontend/src/context/AuthContext.jsx:47-53 | Clears the user, becomes unauthenticated and removes exactly the two keys |
| AuthContext.LogoutIdempotent | frontend/src/context/AuthContext.jsx:47-53 | A second logout changes nothing |
| AuthContext.GetToken | frontend/src/context/AuthContext.jsx:55-57 | Returns what is stored under the token key |
| AuthContext.RequestHeaders | frontend/src/context/AuthContext.jsx:59-70 | Content-Type defaults to JSON and Authorization to "Bearer " + the stored token at call time. Caller headers override either. No other key is added |
| AuthContext.GetUserId | frontend/src/context/AuthContext.jsx:72-87 | The in-memory id when truthy. Otherwise the saved user's id. Null when nothing is saved or it does not parse, and storage is not cleared |
| AuthContext.GetUserIdAfterLogin | frontend/src/context/AuthContext.jsx:37-87 | Right after login, the answer is the id of the user data passed to login, whether that id is truthy or not |
| AuthContext.GetUserIdAfterReload | frontend/src/context/AuthContext.jsx:19-87 | After login and a reload, the answer is still that id, before and after the mount effect runs |
| AuthContext.IsAdmin | frontend/src/context/AuthContext.jsx:90-92 | The user's isAdmin, or false when there is no user |
| AuthContext.LoginThenHydrate | frontend/src/context/AuthContext.jsx:20-42 | After login with a non-empty token text, a fresh hydration restores exactly the saved user and leaves storage as it is |
| AuthContext.EmptyTokenLostOnReload | frontend/src/context/AuthContext.jsx:20-42 | After login with an empty token text, a fresh hydration is unauthenticated and touches nothing |
| AuthContext.LogoutThenHydrate | frontend/src/context/AuthContext.jsx:20-53 | After logout, hydration is unauthenticated |
| AuthContext.AdminFlagSurvivesReload | frontend/src/context/AuthContext.jsx:41-92 | The admin flag read after a reload equals the one set at login |
| AuthContext.FetchAfterLogin | frontend/src/context/AuthContext.jsx:39-66 | After login with token t, requests carry "Bearer t" |
| AuthContext.FetchAfterLogout | frontend/src/context/AuthContext.jsx:50-66 | After logout, requests carry "Bearer null" |
| AuthUtils.GetAuthToken | frontend/src/utils/authUtils.js:2 | Returns exactly the value under the token key, or nothing |
| AuthUtils.IsAuthenticated | frontend/src/utils/authUtils.js:2-3 | True iff a token is stored and it is not the empty string |
| AuthUtils.IgnoresUserKey | frontend/src/utils/authUtils.js:2-3 | Writing or removing the saved user never changes the answer |
| AuthUtils.DisagreesWithHydration | frontend/src/utils/authUtils.js:2-3 | With a token but no saved user, the helper says signed in while the provider's hydration does not |
| AuthUtils.HydrationImpliesAuthenticated | frontend/src/utils/authUtils.js:2-3 | Whenever hydration restores a session, the helper agrees |
| LoginView.SplitToken | frontend/src/components/Login/Login.jsx:32 | Destructuring throws exactly for an undefined or null user. Otherwise the token is split off and the rest is every other property |
| LoginView.HandleLogin | frontend/src/components/Login/Login.jsx:14-42 | The error is cleared first. A non-ok reply, a thrown error or a missing user sets "Credenciales incorrectas" and calls nothing. Success calls login with the user minus its token and then navigates to /pagina-principal |
| LoginView.Session | frontend/src/components/Login/Login.jsx:32-35 | The session after the handler is the provider's login applied to the split user, or unchanged on failure |
| LoginView.TokenNotSavedWithUser | frontend/src/components/Login/Login.jsx:32-35 | The token is never part of the saved user |
| AppRoutes.RouteFor | frontend/src/App.jsx:23-38 | / and /users are guarded, /login is not. /activities and every unmatched path redirect to / |
| AppRoutes.ProtectedRoute | frontend/src/App.jsx:9-17 | The placeholder iff loading. The child iff loaded and authenticated. Otherwise a redirect to /login |
| AppRoutes.Visit | frontend/src/App.jsx:9-38 | Redirects only ever lead to / or /login |
| AppRoutes.EveryPathSettles | frontend/src/App.jsx:9-38 | After at most two redirects every path shows a page or the placeholder |
| AppRoutes.LoadingLanding | frontend/src/App.jsx:12-14 | While loading, /login shows the form and every other path shows the placeholder |
| AppRoutes.UnauthenticatedLanding | frontend/src/App.jsx:16 | Signed out and loaded, every path ends on the login page |
| AppRoutes.AuthenticatedLanding | frontend/src/App.jsx:16-37 | Signed in, /users shows the user list, /login the form, and every other path the main page |
| AppRoutes.PostLoginPathIsHome | frontend/src/App.jsx:37 | /pagina-principal has no route of its own and lands on the main page |
| MainPage.RenderContent | frontend/src/components/PaginaPrincipal/PaginaPrincipal.jsx:171-258 | Loading shows only the spinner. The form and the user list appear iff the viewer is an admin. Non-admins get access denied. Unknown sections show "Sección no encontrada" |
| MainPage.SectionLoad | frontend/src/components/PaginaPrincipal/PaginaPrincipal.jsx:163-169 | Activities load on the activities section. Users load only on the users section for an admin |
| MainPage.NonAdminGated | frontend/src/components/PaginaPrincipal/PaginaPrincipal.jsx:163-249 | A non-admin never sees the form or the user list and never loads users |
| MainPage.SignedOutIsNotAdmin | frontend/src/components/PaginaPrincipal/PaginaPrincipal.jsx:166-247 | With no user, every admin part is hidden |
| MainPage.UsersLoadedIffShown | frontend/src/components/PaginaPrincipal/PaginaPrincipal.jsx:163-249 | Users are loaded exactly when the page shows them |
| MainPage.ServerOrDefault | frontend/src/components/PaginaPrincipal/PaginaPrincipal.jsx:81 | The server's error text when truthy, otherwise the default message |
| MainPage.RefusalMessage | frontend/src/components/PaginaPrincipal/PaginaPrincipal.jsx:71-81 | A 409 maps 'already inscribed' and 'no available slots' to their messages, and any other text to the server's. A 409 with no text is the TypeError. A 404 is "Usuario o actividad no encontrada". Anything else is the server's text or the default |
| MainPage.InscribeToActivity | frontend/src/components/PaginaPrincipal/PaginaPrincipal.jsx:53-87 | Returns true (and reloads) iff the reply is ok. Otherwise it returns false and sets the prefixed message |
| MainPage.FailuresArePrefixed | frontend/src/components/PaginaPrincipal/PaginaPrincipal.jsx:84 | Every failure message starts with "Error inscribiéndose a la actividad: " |
| MainPage.FallbackHeaders | frontend/src/components/PaginaPrincipal/PaginaPrincipal.jsx:21-32 | The caller's headers override the default Content-Type and Authorization |
| MainPage.FallbackMatchesProvider | frontend/src/components/PaginaPrincipal/PaginaPrincipal.jsx:21-32 | The page's fallback request sends the same headers as the provider's authenticated fetch |
| MainPage.InscribeRequestCarriesToken | frontend/src/components/PaginaPrincipal/PaginaPrincipal.jsx:55-60 | The enrollment request sends JSON and the stored bearer token |
| MainPage.Normalise | frontend/src/components/PaginaPrincipal/PaginaPrincipal.jsx:41 | A bare array is kept. A truthy `activities` field is unwrapped. Otherwise the envelope itself is kept |
| MainPage.NormaliseUnwraps | frontend/src/components/PaginaPrincipal/PaginaPrincipal.jsx:41 | A wrapped list and the bare list normalise to the same items |
| ActivityForm.ValidateForm | frontend/src/components/Activities/ActivityForm.jsx:30-55 | The error map's keys are exactly the failing fields, with fixed messages. Valid iff nombre, categoria, profesor and horario are non-blank after trim and cupos >= 1 |
| ActivityForm.UncheckedFields | frontend/src/components/Activities/ActivityForm.jsx:31-53 | The description and the day never affect validation |
| ActivityForm.InitialFormInvalid | frontend/src/components/Activities/ActivityForm.jsx:4-12 | The initial form fails on exactly the five checked fields |
| ActivityForm.ParseIntOrZero | frontend/src/components/Activities/ActivityForm.jsx:161 | Its own ensures states only that text with no digit gives 0. The value read from decimal text is stated by ParseIntOrZeroOfDecimal |
| ActivityForm.ParseIntOrZeroOfDecimal | frontend/src/components/Activities/ActivityForm.jsx:161 | A count typed as decimal text is read back exactly |
| ActivityForm.HandleInputChange | frontend/src/components/Activities/ActivityForm.jsx:16-28 | Only the named field changes. Its error, if set, becomes empty. Every other error is kept |
| ActivityForm.Submit | frontend/src/components/Activities/ActivityForm.jsx:57-80 | Submitted iff valid. Success resets the form and returns to the list. Failure keeps the data |
| ActivityForm.NonNumericCuposBlocksSubmit | frontend/src/components/Activities/ActivityForm.jsx:16-62 | Non-numeric count text becomes 0, so the form fails on cupos and is not sent |
| MyActivities.DayNamesInOrder | frontend/src/components/Activities/myactivities.jsx:4-15 | 1..7 name Lunes..Domingo in order, given as a number or as text |
| MyActivities.DayNameTotal | frontend/src/components/Activities/myactivities.jsx:5-14 | The label depends only on the key text. It is one of the seven names iff that text is "1".."7". It is an inherited prototype member iff the text names one, such as "toString". Otherwise it is 'Día inválido' |
| MyActivities.NumbersGetText | frontend/src/components/Activities/myactivities.jsx:14 | A number always gets a text label, never an inherited member |
| MyActivities.PrototypeKeyFound | frontend/src/components/Activities/myactivities.jsx:14 | The key "toString" finds the inherited function instead of the fallback text |
| MyActivities.OutOfRangeInvalid | frontend/src/components/Activities/myactivities.jsx:14 | Numbers outside 1..7 are labelled invalid |
| MyActivities.DayNameInjective | frontend/src/components/Activities/myactivities.jsx:5-13 | The seven names are distinct |
| SessionFlow.UserJson | backend/domain/usuario_domain.go:3-10 | The encoded user carries `token` and `is_admin` under their JSON tags |
| SessionFlow.SignedInWithToken | frontend/src/components/Login/Login.jsx:32-35 | Receiving a user reply saves the user without its `token` member and stores that token's text |
| SessionFlow.TokenSurvivesReload | frontend/src/context/AuthContext.jsx:19-45 | A reply whose token is non-empty signs in, a reload restores the same user, and the token helper agrees |
| SessionFlow.EmptyTokenForgotten | frontend/src/context/AuthContext.jsx:19-45 | A reply whose token is empty signs in on screen, but a reload restores no session and the token helper says signed out |
| SessionFlow.LoginReplyAsWritten | backend/controllers/login_controller.go:25-54 | POST /login answers 401 iff the credential check fails, and otherwise the checked user |
| SessionFlow.LoginReplyIntended | backend/services/login_services.go:14-37 | The same reply built from the token-issuing login |
| SessionFlow.AsWrittenLoginForgottenOnReload | backend/services/usuario_services.go:95-100 | The login appears to succeed, but the stored token is empty: a reload restores no session and the token helper says signed out |
| SessionFlow.IntendedLoginSurvivesReload | backend/services/login_services.go:25-36 | With an issued non-empty token, a reload restores the same user and the token helper agrees |
| SessionFlow.ReplyOf | backend/controllers/inscripcion_controller.go:133-156 | A 2xx reply is a success. Otherwise the page reads the body's error text |
| SessionFlow.RefusalsWordedOnScreen | backend/controllers/inscripcion_controller.go:135-150 | The duplicate and no-slots refusals reach the screen with their own Spanish messages, because the server's texts contain the substrings the page tests. Both 404s show one message |
| SessionFlow.NoSlotsNotMistaken | frontend/src/components/PaginaPrincipal/PaginaPrincipal.jsx:73-76 | The no-slots text does not contain 'already inscribed', so the page never mistakes it for a duplicate |
| SessionFlow.StoreFailureWordedOnScreen | backend/controllers/inscripcion_controller.go:152-156 | A store failure shows the controller's generic text, not the details |
| SessionFlow.IntendedDaysHaveNames | frontend/src/components/Activities/myactivities.jsx:5-14 | With the intended day check, every stored activity's day has a weekday name |
| SessionFlow.AsWrittenDayZeroUnnamed | backend/services/actividad_services.go:73-75 | As written, an activity on day 0 is stored and then labelled 'Día inválido' |

## Left out

- Database access: the ORM and SQL drivers are replaced by the map store. `First` returns the first matching row, and a missing row gives the store's "record not found". The scans used by the `Get*` listings are parameters, so their query filters (by category, teacher, day, free slots, name) are not modelled.
- Deletions: DeleteActivity and DeleteUser only pass through to the store.
- Store: the unique index on an activity's name (`gorm:"unique"` on `Nombre`) is not kept by the map store. A name clash on insert or save reaches the model only as the `insertError` or `writeError` parameter of that operation.
- Wiring: the router setup, CORS and the remaining controllers (activity, user, login) are request/response glue. The `/login` route is modelled only in SessionFlow.
- acc_deportivasservices.go: its GetActivityByID is a hard-coded stub, and its Login duplicates the login service.
- Cryptography and time: SHA-256, HS256 signing, token verification and expiry. Hashing is an injective stand-in. Signing and verification are function parameters.
- The pair lookup `GetInscriptionByUserAndActivity`: the controller calls a service function that does not exist in the code, so its result is a parameter. A store error other than not-found on the pair query is not modelled; it is treated like "no row".
- Go's nil slice versus empty slice for an empty listing.
- Request bodies: the bind step of the enrollment controller is a `Result` parameter. Gin's JSON binding rules are not modelled.
- InscriptionService.GetAllInscriptions: the loop's `continue` on a failed user or activity lookup is modelled as "the row is missing". A lookup that fails for another reason is not distinguished.
- Asynchrony: `fetch`, promise ordering, cross-tab storage events and the `document.cookie` write in logout.
- Json.Parse: reads only flat objects whose values are null, booleans, integers or strings. Model strings are sequences of Unicode scalar values, not UTF-16 code units. `JSON.parse` also accepts the following, which the model refuses:
  - nested objects and arrays;
  - numbers with a fraction or an exponent;
  - `\u` escapes of UTF-16 surrogates, including valid pairs.
- Json.Parse: numbers are unbounded integers. JavaScript reads them as doubles, which are exact only within ±2^53, so `JSON.parse("9007199254740993")` gives 9007199254740992 there and the exact value here.
- Json.Stringify: integers are written in plain decimal at every size. `JSON.stringify` writes numbers of magnitude 1e21 and above in exponent form (`1e+21`), which this reader refuses.
- Json.ParseStringify: the round trip is proved for unbounded integers. In JavaScript it holds for numbers only within ±2^53, and not at all from 1e21, because of the two lines above.
- AuthContext.Hydrate: stored user text outside that grammar counts as a parse failure, so both keys are removed where the code would restore the session. The client only ever saves flat objects in that grammar.
- Props: keys are kept in insertion order. JavaScript lists integer-like keys ("0", "1", …) first, in ascending order. No property read in the model depends on key order.
- MainPage.IncludesOnUndefined: the TypeError message is V8's wording. Other JavaScript engines word it differently.
- MyActivities.DayName: an inherited member is returned as the label `Inherited(key)`. How React renders such a value is not modelled.
- ActivityForm.ParseIntOrZero: reads leading blanks, a sign and leading decimal digits. It does not model the hexadecimal prefix `parseInt` accepts, because a number input never yields one.
- ActivityForm.ParseIntOrZero: the result is an exact integer. `parseInt` returns a double, so digit strings above 2^53 are rounded there and not in the model.
- AppRoutes.RouteFor: matches paths exactly. The router's case-insensitive and trailing-slash matching is not modelled.
- The import of `./components/users/UserList` against the directory `Users` is a build concern and is not modelled.
- MainPage.RefusalMessage: the error field is text or absent. A non-string error value, which throws a different TypeError, is not modelled.
- MainPage: the page always has the provider's authenticated fetch, so its fallback request is modelled only for its headers. The loaders for activities and users, and the create, update and delete calls, are network glue. Only their list normalisation and reload-on-success are kept.
- Presentation-only files: the error boundary, the activity and user lists, the landing page, the dashboard and the entry point.
- authService.js: its code is unreachable and references undefined names.

## Findings

| source | as written | input that shows it | evidently intended | confidence | as-written member | corrected member |
|---|---|---|---|---|---|---|
| backend/services/actividad_services.go:73-75 | The day check is `Dia <= 0 && Dia > 7`, which no day satisfies | An activity with valid fields and `Dia = 0` is stored | `Dia <= 0 \|\| Dia > 7`, so only days 1..7 are stored | high, not executed | ActivityService.InsertActivity, ActivityService.DayZeroAccepted, SessionFlow.AsWrittenDayZeroUnnamed | ActivityService.InsertActivityIntended, SessionFlow.IntendedDaysHaveNames |
| backend/services/usuario_services.go:95-100 | The `/login` route answers with the credential check's user, whose token is never set. The client stores the empty token, and its next hydration refuses it | A registered user logs in with the right password, then reloads the page | Answer with the token-issuing login, so the session survives a reload | high, not executed | SessionFlow.LoginReplyAsWritten, SessionFlow.AsWrittenLoginForgottenOnReload | SessionFlow.LoginReplyIntended, SessionFlow.IntendedLoginSurvivesReload |

=== FILE: activity_form.dfy ===
/** The new-activity form: field edits, the validator and the submit outcome. */
module ActivityForm {
  import opened Text
  import Decimal
  import Json

  datatype Field = Nombre | Categoria | Profesor | Dia | Horario | Cupos | Descripcion

  datatype FormData = FormData(nombre: string, categoria: string, profesor: string, dia: string,
                               horario: string, cupos: int, descripcion: string)

  /** The field errors shown under the inputs, keyed by field. */
  type Errors = map<Field, string>

  const Initial := FormData("", "", "", "Lunes", "", 0, "")

  const NombreRequired := "El nombre es requerido"
  const CategoriaRequired := "La categoría es requerida"
  const ProfesorRequired := "El profesor es requerido"
  const HorarioRequired := "El horario es requerido"
  const CuposTooLow := "Los cupos deben ser mayor a 0"

  /** A field that the validator rejects for this form. */
  predicate Fails(form: FormData, f: Field) {
    match f
    case Nombre => Blank(form.nombre)
    case Categoria => Blank(form.categoria)
    case Profesor => Blank(form.profesor)
    case Horario => Blank(form.horario)
    case Cupos => form.cupos < 1
    case _ => false
  }

  function Message(f: Field): string {
    match f
    case Nombre => NombreRequired
    case Categoria => CategoriaRequired
    case Profesor => ProfesorRequired
    case Horario => HorarioRequired
    case _ => CuposTooLow
  }

  /** The fields `validateForm` looks at, in the order it looks at them. */
  const Checked: seq<Field> := [Nombre, Categoria, Profesor, Horario, Cupos]

  /**
   * `validateForm`: the new error map, holding exactly the failing fields with their messages,
   * and the verdict that the map is empty.
   */
  function ValidateForm(form: FormData): (r: (Errors, bool))
    ensures forall f :: f in r.0 <==> Fails(form, f)
    ensures forall f :: f in r.0 ==> r.0[f] == Message(f)
    ensures r.1 <==> r.0 == map[]
    ensures r.1 <==> !Blank(form.nombre) && !Blank(form.categoria) && !Blank(form.profesor)
                     && !Blank(form.horario) && form.cupos >= 1
  {
    var errors := map f | f in Checked && Fails(form, f) :: Message(f);
    var ok := |errors| == 0;
    assert Fails(form, Nombre) ==> Nombre in errors;
    assert Fails(form, Categoria) ==> Categoria in errors;
    assert Fails(form, Profesor) ==> Profesor in errors;
    assert Fails(form, Horario) ==> Horario in errors;
    assert Fails(form, Cupos) ==> Cupos in errors;
    (errors, ok)
  }

  /** The description and the day are never checked. */
  lemma UncheckedFields(form: FormData, dia: string, descripcion: string)
    ensures ValidateForm(form.(dia := dia, descripcion := descripcion)) == ValidateForm(form)
  {
    var a := ValidateForm(form.(dia := dia, descripcion := descripcion)).0;
    var b := ValidateForm(form).0;
    assert forall f :: f in a <==> f in b;
    assert a == b;
  }

  /** The initial form is not submittable: every required field fails. */
  lemma InitialFormInvalid()
    ensures var (errors, ok) := ValidateForm(Initial);
            !ok && errors.Keys == {Nombre, Categoria, Profesor, Horario, Cupos}
  {
    var errors := ValidateForm(Initial).0;
    assert Fails(Initial, Nombre) && Fails(Initial, Cupos);
    assert !Fails(Initial, Dia) && !Fails(Initial, Descripcion);
    assert forall f :: f in errors <==> f in {Nombre, Categoria, Profesor, Horario, Cupos} by {
      assert forall f :: f in {Nombre, Categoria, Profesor, Horario, Cupos} <==> Fails(Initial, f);
    }
  }

  /** `parseInt(raw) || 0` on the number input: leading blanks, a sign, the leading digits. */
  function ParseIntOrZero(raw: string): (n: int)
    ensures (forall i :: 0 <= i < |raw| ==> !Decimal.IsDigit(raw[i])) ==> n == 0
  {
    var s := TrimStart(raw);
    var sign := if s != [] && s[0] == '-' then -1 else 1;
    var body := if s != [] && (s[0] == '-' || s[0] == '+') then s[1..] else s;
    var k := Json.DigitRun(body);
    if k == 0 then 0 else sign * Decimal.DigitsValue(body[..k])
  }

  lemma TrimStartKeeps(s: string)
    requires s != [] && !IsWhitespace(s[0])
    ensures TrimStart(s) == s
  {
  }

  lemma ReadAllDigits(m: nat)
    ensures var d := Decimal.NatToString(m);
            Json.DigitRun(d) == |d| && Decimal.DigitsValue(d[..|d|]) == m
  {
    var d := Decimal.NatToString(m);
    Json.DigitRunAppend(d, []);
    assert d + [] == d;
    assert d[..|d|] == d;
    Decimal.DigitsValueOfNatToString(m);
  }

  /** The count the browser hands over as decimal text is read back exactly. */
  lemma ParseIntOrZeroOfDecimal(n: int)
    ensures ParseIntOrZero(Decimal.IntToString(n)) == n
  {
    var s := Decimal.IntToString(n);
    if n < 0 {
      var d := Decimal.NatToString(-n);
      assert s == "-" + d;
      TrimStartKeeps(s);
      assert s[1..] == d;
      ReadAllDigits(-n);
      assert Json.DigitRun(s[1..]) == |d| > 0;
      assert ParseIntOrZero(s) == -1 * Decimal.DigitsValue(d[..|d|]);
    } else {
      var d := Decimal.NatToString(n);
      assert s == d;
      assert Decimal.IsDigit(d[0]);
      TrimStartKeeps(s);
      ReadAllDigits(n);
      assert Json.DigitRun(s) == |d| > 0;
      assert ParseIntOrZero(s) == Decimal.DigitsValue(d[..|d|]);
    }
  }

  /** The state a field edit produces. */
  datatype FormState = FormState(data: FormData, errors: Errors)

  function Set(form: FormData, f: Field, raw: string): FormData {
    match f
    case Nombre => form.(nombre := raw)
    case Categoria => form.(categoria := raw)
    case Profesor => form.(profesor := raw)
    case Dia => form.(dia := raw)
    case Horario => form.(horario := raw)
    case Cupos => form.(cupos := ParseIntOrZero(raw))
    case Descripcion => form.(descripcion := raw)
  }

  /** Reading one field of the form, with the count as its input text is irrelevant here. */
  predicate SameExcept(a: FormData, b: FormData, f: Field) {
    (f != Nombre ==> a.nombre == b.nombre) && (f != Categoria ==> a.categoria == b.categoria)
    && (f != Profesor ==> a.profesor == b.profesor) && (f != Dia ==> a.dia == b.dia)
    && (f != Horario ==> a.horario == b.horario) && (f != Cupos ==> a.cupos == b.cupos)
    && (f != Descripcion ==> a.descripcion == b.descripcion)
  }

  /**
   * An input's `onChange` into `handleInputChange`: only that field changes, and its error, if
   * one is showing, is blanked (the key stays with an empty message); other errors stay.
   */
  function HandleInputChange(st: FormState, f: Field, raw: string): (r: FormState)
    ensures SameExcept(r.data, st.data, f)
    ensures f == Cupos ==> r.data.cupos == ParseIntOrZero(raw)
    ensures f != Cupos ==> Set(st.data, f, raw) == r.data
    ensures r.errors.Keys == st.errors.Keys
    ensures forall g :: g in st.errors && g != f ==> r.errors[g] == st.errors[g]
    ensures f in st.errors ==> r.errors[f] == ""
  {
    var data := Set(st.data, f, raw);
    if f in st.errors && st.errors[f] != "" then FormState(data, st.errors[f := ""])
    else FormState(data, st.errors)
  }

  /** What submitting did: whether `onSubmit` was called, the state after, whether `onCancel` ran. */
  datatype SubmitOutcome = SubmitOutcome(submitted: bool, state: FormState, cancelled: bool)

  /**
   * `handleSubmit`, with `succeeded` the answer of `onSubmit`: an invalid form is never sent;
   * a sent form that succeeds resets and returns to the list; a failed one keeps its data.
   */
  function Submit(st: FormState, succeeded: bool): (r: SubmitOutcome)
    ensures r.submitted <==> ValidateForm(st.data).1
    ensures r.state.errors == ValidateForm(st.data).0
    ensures r.cancelled <==> r.submitted && succeeded
    ensures r.cancelled ==> r.state.data == Initial
    ensures !r.cancelled ==> r.state.data == st.data
  {
    var (errors, ok) := ValidateForm(st.data);
    if !ok then SubmitOutcome(false, FormState(st.data, errors), false)
    else if succeeded then SubmitOutcome(true, FormState(Initial, errors), true)
    else SubmitOutcome(true, FormState(st.data, errors), false)
  }

  /** Typing something that is not a number into the count leaves a form that cannot be sent. */
  lemma NonNumericCuposBlocksSubmit(st: FormState, raw: string, succeeded: bool)
    requires forall i :: 0 <= i < |raw| ==> !Decimal.IsDigit(raw[i])
    ensures var st1 := HandleInputChange(st, Cupos, raw);
            st1.data.cupos == 0 && Cupos in ValidateForm(st1.data).0 && !Submit(st1, succeeded).submitted
  {
  }
}

=== FILE: activity_service.dfy ===
/**
 * The activity service: reads that copy rows into records, creation with field validation,
 * the partial-update merge, and the slot write with its lower bound.
 */
module ActivityService {
  import opened Wrappers
  import opened Store
  import opened Domain
  import Decimal

  const NameEmpty := "activity name cannot be empty"
  const ProfesorEmpty := "profesor cannot be empty"
  const CategoriaEmpty := "categoria cannot be empty"
  const DescriptionEmpty := "description cannot be empty"
  const DiaInvalid := "dia cannot be empty or less than 1"
  const CuposNotPositive := "cupos must be greater than 0"
  const HoursRequired := "hora_inicio and hora_fin are required"
  const SlotsNegative := "slots cannot be negative"


  // ---------------------------------------------------------------- reads

  function GetActivityByID(db: Db, id: int): (r: Result<Activity, string>)
    ensures r.Success? <==> id in db.activities
    ensures r.Success? ==> RecordOf(r.value) == db.activities[id]
    ensures r.Failure? ==> r.error == "activity not found with id " + Decimal.IntToString(id) + ": " + RecordNotFound
  {
    match ActivityById(db, id)
    case None => Failure("activity not found with id " + Decimal.IntToString(id) + ": " + RecordNotFound)
    case Some(rec) =>
      ActivityCopiesInverse(rec, ActivityOf(rec));
      Success(ActivityOf(rec))
  }

  /** The loop every list read runs: one record per row, in row order. */
  method ToDomain(rows: seq<ActivityRec>) returns (r: seq<Activity>)
    ensures |r| == |rows|
    ensures forall i :: 0 <= i < |rows| ==> RecordOf(r[i]) == rows[i]
  {
    r := [];
    for i := 0 to |rows|
      invariant |r| == i
      invariant forall k :: 0 <= k < i ==> RecordOf(r[k]) == rows[k]
    {
      ActivityCopiesInverse(rows[i], ActivityOf(rows[i]));
      r := r + [ActivityOf(rows[i])];
    }
  }

  /**
   * `GetActivities`, `GetActivitiesByCategory`, `GetActivitiesByProfesor`, `GetActivitiesByDay`,
   * `GetActivitiesWithAvailableSlots` and `SearchActivitiesByName` share this shape: the query's
   * rows (or its error) come in as `scan`, and an error is wrapped under the operation's prefix.
   */
  method ListActivities(prefix: string, scan: Result<seq<ActivityRec>, string>) returns (r: Result<seq<Activity>, string>)
    ensures scan.Failure? ==> r == Failure(prefix + ": " + scan.error)
    ensures scan.Success? ==> r.Success? && |r.value| == |scan.value|
                              && forall i :: 0 <= i < |scan.value| ==> RecordOf(r.value[i]) == scan.value[i]
  {
    if scan.Failure? {
      return Failure(prefix + ": " + scan.error);
    }
    var items := ToDomain(scan.value);
    return Success(items);
  }

  const GetActivitiesPrefix := "failed to get activities"
  const ByCategoryPrefix := "failed to get activities by category"
  const ByProfesorPrefix := "failed to get activities by profesor"
  const ByDayPrefix := "failed to get activities by day"
  const WithSlotsPrefix := "failed to get activities with available slots"
  const SearchPrefix := "failed to search activities by name"

  // ---------------------------------------------------------------- InsertActivity

  /** The day check as written: a day cannot be both at most 0 and above 7, so it never fires. */
  predicate DiaRejectedAsWritten(dia: int) {
    dia <= 0 && dia > 7
  }

  /** The day check its message describes: a day outside 1..7. */
  predicate DiaRejectedIntended(dia: int) {
    dia <= 0 || dia > 7
  }

  lemma DiaGuardNeverFires(dia: int)
    ensures !DiaRejectedAsWritten(dia)
    ensures DiaRejectedIntended(0) && DiaRejectedIntended(8) && !DiaRejectedIntended(1) && !DiaRejectedIntended(7)
  {
  }

  /** The checks creation makes, in order, with the day check passed in; `None` when all pass. */
  function Validation(a: Activity, diaRejected: int -> bool): (r: Option<string>)
    ensures r.None? <==> a.name != "" && a.profesor != "" && a.categoria != "" && a.description != ""
                         && !diaRejected(a.dia) && a.cupos > 0 && a.horaInicio != "" && a.horaFin != ""
    ensures a.name == "" ==> r == Some(NameEmpty)
    ensures a.name != "" && a.profesor == "" ==> r == Some(ProfesorEmpty)
    ensures a.name != "" && a.profesor != "" && a.categoria == "" ==> r == Some(CategoriaEmpty)
    ensures a.name != "" && a.profesor != "" && a.categoria != "" && a.description == "" ==> r == Some(DescriptionEmpty)
    ensures (a.name != "" && a.profesor != "" && a.categoria != "" && a.description != ""
             && !diaRejected(a.dia) && a.cupos <= 0) ==> r == Some(CuposNotPositive)
    ensures (a.name != "" && a.profesor != "" && a.categoria != "" && a.description != ""
             && diaRejected(a.dia)) ==> r == Some(DiaInvalid)
    ensures r == Some(DiaInvalid) ==> diaRejected(a.dia)
    ensures (a.name != "" && a.profesor != "" && a.categoria != "" && a.description != ""
             && !diaRejected(a.dia) && a.cupos > 0 && (a.horaInicio == "" || a.horaFin == ""))
            ==> r == Some(HoursRequired)
    ensures r.Some? ==> r.value in {NameEmpty, ProfesorEmpty, CategoriaEmpty, DescriptionEmpty,
                                    DiaInvalid, CuposNotPositive, HoursRequired}
  {
    if a.name == "" then Some(NameEmpty)
    else if a.profesor == "" then Some(ProfesorEmpty)
    else if a.categoria == "" then Some(CategoriaEmpty)
    else if a.description == "" then Some(DescriptionEmpty)
    else if diaRejected(a.dia) then Some(DiaInvalid)
    else if a.cupos <= 0 then Some(CuposNotPositive)
    else if a.horaInicio == "" || a.horaFin == "" then Some(HoursRequired)
    else None
  }

  /** Creation with a given day check: validate, then insert; `insertError` is the store's refusal. */
  function InsertWith(db: Db, a: Activity, insertError: Option<string>, diaRejected: int -> bool): (r: Outcome<Activity>)
    ensures r.result.Failure? ==> r.db == db
    ensures Validation(a, diaRejected).Some? ==> r.result == Failure(Validation(a, diaRejected).value)
    ensures Validation(a, diaRejected).None? && insertError.Some?
            ==> r.result == Failure("failed to create activity: " + insertError.value)
    ensures r.result.Success? <==> Validation(a, diaRejected).None? && insertError.None?
    ensures r.result.Success? ==>
              && r.result.value == a.(id := db.nextActivityId)
              && r.db.activities == db.activities[db.nextActivityId := RecordOf(r.result.value)]
              && r.db.users == db.users && r.db.inscriptions == db.inscriptions
  {
    match Validation(a, diaRejected)
    case Some(e) => Outcome(Failure(e), db)
    case None =>
      if insertError.Some? then Outcome(Failure("failed to create activity: " + insertError.value), db)
      else
        var (created, db1) := Store.InsertActivity(db, RecordOf(a.(id := 0)));
        ActivityCopiesInverse(created, a.(id := db.nextActivityId));
        Outcome(Success(ActivityOf(created)), db1)
  }

  /** `InsertActivity` as written: no day is ever refused. */
  function InsertActivity(db: Db, a: Activity, insertError: Option<string>): (r: Outcome<Activity>)
    ensures r.result.Success? <==> a.name != "" && a.profesor != "" && a.categoria != "" && a.description != ""
                                   && a.cupos > 0 && a.horaInicio != "" && a.horaFin != "" && insertError.None?
    ensures r.result != Failure(DiaInvalid)
    ensures (a.name != "" && a.profesor != "" && a.categoria != "" && a.description != "" && a.cupos > 0
             && (a.horaInicio == "" || a.horaFin == "")) ==> r.result == Failure(HoursRequired)
  {
    DiaGuardNeverFires(a.dia);
    var r := InsertWith(db, a, insertError, DiaRejectedAsWritten);
    assert r.result.Failure? && Validation(a, DiaRejectedAsWritten).None? ==> r.result.error[0] == 'f' != DiaInvalid[0];
    r
  }

  /** `InsertActivity` with the day check its message describes: only days 1..7 are stored. */
  function InsertActivityIntended(db: Db, a: Activity, insertError: Option<string>): (r: Outcome<Activity>)
    ensures r.result.Success? ==> 1 <= r.result.value.dia <= 7
    ensures (a.dia < 1 || a.dia > 7) && a.name != "" && a.profesor != "" && a.categoria != "" && a.description != ""
            ==> r.result == Failure(DiaInvalid)
  {
    InsertWith(db, a, insertError, DiaRejectedIntended)
  }

  /** A day the as-written check lets through although its own message says it should not. */
  lemma DayZeroAccepted(db: Db)
    ensures var a := Activity(0, "Yoga", "Ana", "Fitness", 10, "Stretching", 0, "08:00", "09:00");
            && InsertActivity(db, a, None).result.Success?
            && InsertActivity(db, a, None).result.value.dia == 0
            && InsertActivityIntended(db, a, None).result == Failure(DiaInvalid)
  {
  }

  /** What creation returns is what a read of the new id gives back, and the store keeps its schema. */
  lemma InsertThenGet(db: Db, a: Activity, insertError: Option<string>)
    requires Wf(db)
    requires InsertActivity(db, a, insertError).result.Success?
    ensures var r := InsertActivity(db, a, insertError);
            && GetActivityByID(r.db, r.result.value.id) == r.result
            && Wf(r.db)
  {
    var r := InsertActivity(db, a, insertError);
    InsertActivityKeepsWf(db, RecordOf(a.(id := 0)));
    ActivityCopiesInverse(r.db.activities[r.result.value.id], r.result.value);
  }

  // ---------------------------------------------------------------- UpdateActivity

  /** The partial update: every given field wins; empty strings and non-positive numbers mean "keep". */
  function Merge(cur: ActivityRec, patch: Activity): (m: ActivityRec)
    ensures m.id == cur.id
    ensures m.nombre == (if patch.name != "" then patch.name else cur.nombre)
    ensures m.profesor == (if patch.profesor != "" then patch.profesor else cur.profesor)
    ensures m.categoria == (if patch.categoria != "" then patch.categoria else cur.categoria)
    ensures m.cupos == (if patch.cupos > 0 then patch.cupos else cur.cupos)
    ensures m.descripcion == (if patch.description != "" then patch.description else cur.descripcion)
    ensures m.dia == (if patch.dia > 0 then patch.dia else cur.dia)
    ensures m.horaInicio == (if patch.horaInicio != "" then patch.horaInicio else cur.horaInicio)
    ensures m.horaFin == (if patch.horaFin != "" then patch.horaFin else cur.horaFin)
  {
    ActivityRec(cur.id,
                if patch.name != "" then patch.name else cur.nombre,
                if patch.profesor != "" then patch.profesor else cur.profesor,
                if patch.categoria != "" then patch.categoria else cur.categoria,
                if patch.cupos > 0 then patch.cupos else cur.cupos,
                if patch.description != "" then patch.description else cur.descripcion,
                if patch.dia > 0 then patch.dia else cur.dia,
                if patch.horaInicio != "" then patch.horaInicio else cur.horaInicio,
                if patch.horaFin != "" then patch.horaFin else cur.horaFin)
  }

  /** A patch that sets nothing. */
  function EmptyPatch(id: int): Activity {
    Activity(id, "", "", "", 0, "", 0, "", "")
  }

  /** Applying a patch twice is applying it once; an empty patch is no change; a full patch replaces all but the id. */
  lemma MergeLaws(cur: ActivityRec, patch: Activity)
    ensures Merge(Merge(cur, patch), patch) == Merge(cur, patch)
    ensures Merge(cur, EmptyPatch(patch.id)) == cur
    ensures patch.name != "" && patch.profesor != "" && patch.categoria != "" && patch.cupos > 0
            && patch.description != "" && patch.dia > 0 && patch.horaInicio != "" && patch.horaFin != ""
            ==> Merge(cur, patch) == RecordOf(patch).(id := cur.id)
  {
  }

  /** The merge never writes a slot count of 0 or less over the current one. */
  lemma MergeNeverZeroesCupos(cur: ActivityRec, patch: Activity)
    ensures Merge(cur, patch).cupos <= 0 ==> Merge(cur, patch).cupos == cur.cupos
    ensures cur.cupos >= 0 ==> Merge(cur, patch).cupos >= 0
  {
  }

  /** `UpdateActivity`: an unknown id fails and writes nothing; otherwise the merged row is saved. */
  function UpdateActivity(db: Db, patch: Activity, saveError: Option<string>): (r: Outcome<()>)
    ensures patch.id !in db.activities ==> r == Outcome(Failure("activity not found: " + RecordNotFound), db)
    ensures r.result.Failure? ==> r.db == db
    ensures patch.id in db.activities && saveError.Some? ==> r.result == Failure(saveError.value)
    ensures r.result.Success? <==> patch.id in db.activities && saveError.None?
    ensures r.result.Success? ==> r.db == SaveActivity(db, Merge(db.activities[patch.id], patch))
  {
    match ActivityById(db, patch.id)
    case None => Outcome(Failure("activity not found: " + RecordNotFound), db)
    case Some(cur) =>
      if saveError.Some? then Outcome(Failure(saveError.value), db)
      else Outcome(Success(()), SaveActivity(db, Merge(cur, patch)))
  }

  /** Under the schema an update rewrites exactly the patched row and keeps non-negative slot counts. */
  lemma UpdateActivityKeepsInvariants(db: Db, patch: Activity, saveError: Option<string>)
    requires Wf(db) && SlotsNonNegative(db)
    ensures var r := UpdateActivity(db, patch, saveError);
            && Wf(r.db) && SlotsNonNegative(r.db) && r.db.activities.Keys == db.activities.Keys
            && (forall id :: id in db.activities && id != patch.id ==> r.db.activities[id] == db.activities[id])
  {
    if patch.id in db.activities {
      assert db.activities[patch.id].id == patch.id;
      MergeNeverZeroesCupos(db.activities[patch.id], patch);
    }
  }

  /** Repeating a successful update changes nothing further. */
  lemma UpdateActivityIdempotent(db: Db, patch: Activity)
    requires Wf(db) && patch.id in db.activities
    ensures var once := UpdateActivity(db, patch, None).db;
            UpdateActivity(once, patch, None).db == once
  {
    var cur := db.activities[patch.id];
    assert cur.id == patch.id;
    MergeLaws(cur, patch);
    var once := UpdateActivity(db, patch, None).db;
    assert once.activities[patch.id] == Merge(cur, patch);
  }

  // ---------------------------------------------------------------- UpdateActivitySlots

  /** A negative count is refused before the store is touched; 0 is allowed. */
  function UpdateActivitySlots(db: Db, id: int, slots: int, writeError: Option<string>): (r: Outcome<()>)
    ensures slots < 0 ==> r == Outcome(Failure(SlotsNegative), db)
    ensures r.result.Failure? ==> r.db == db
    ensures r.result.Success? <==> slots >= 0 && writeError.None?
    ensures r.result.Success? && id in db.activities ==> id in r.db.activities && r.db.activities[id].cupos == slots
    ensures r.result.Success? && id !in db.activities ==> r.db == db
    ensures r.result.Success? ==> r.db == SetSlots(db, id, slots)
    ensures r.result.Success? ==> r.db.(activities := db.activities) == db
                                  && r.db.activities.Keys == db.activities.Keys
                                  && forall k :: k in db.activities && k != id ==> r.db.activities[k] == db.activities[k]
    ensures r.result.Success? && id in db.activities ==> r.db.activities[id] == db.activities[id].(cupos := slots)
  {
    if slots < 0 then Outcome(Failure(SlotsNegative), db)
    else if writeError.Some? then Outcome(Failure(writeError.value), db)
    else Outcome(Success(()), SetSlots(db, id, slots))
  }

  lemma UpdateActivitySlotsKeepsInvariants(db: Db, id: int, slots: int, writeError: Option<string>)
    requires Wf(db) && SlotsNonNegative(db)
    ensures Wf(UpdateActivitySlots(db, id, slots, writeError).db)
    ensures SlotsNonNegative(UpdateActivitySlots(db, id, slots, writeError).db)
  {
  }
}

=== FILE: app_routes.dfy ===
/** The client's route table and its authentication guard. */
module AppRoutes {
  const LoginPath := "/login"
  const HomePath := "/"
  const UsersPath := "/users"
  const ActivitiesPath := "/activities"

  datatype Page = LoginPage | MainPage | UserListPage

  /** A route's element: a page shown as is, a page behind the guard, or a redirect. */
  datatype Element = Plain(page: Page) | Guarded(page: Page) | GoTo(path: string)

  /** What is on screen: the loading placeholder, a page, or a pending redirect. */
  datatype Screen = Placeholder | Render(page: Page) | Redirect(to: string)

  /** The `<Routes>` table: exact paths first, the catch-all last. */
  function RouteFor(path: string): (e: Element)
    ensures e.Guarded? <==> path == HomePath || path == UsersPath
    ensures e.Plain? <==> path == LoginPath
    ensures e.GoTo? ==> e.path == HomePath
    ensures e == Guarded(UserListPage) <==> path == UsersPath
    ensures e == Plain(LoginPage) <==> path == LoginPath
  {
    if path == LoginPath then Plain(LoginPage)
    else if path == HomePath then Guarded(MainPage)
    else if path == ActivitiesPath then GoTo(HomePath)
    else if path == UsersPath then Guarded(UserListPage)
    else GoTo(HomePath)
  }

  /** `ProtectedRoute`: the placeholder while loading, else the child or a redirect to the login. */
  function ProtectedRoute(loading: bool, authenticated: bool, child: Page): (s: Screen)
    ensures s == Render(child) <==> !loading && authenticated
    ensures s == Placeholder <==> loading
    ensures s.Redirect? ==> s.to == LoginPath
  {
    if loading then Placeholder
    else if authenticated then Render(child)
    else Redirect(LoginPath)
  }

  /** The screen one route produces. */
  function Show(path: string, loading: bool, authenticated: bool): (s: Screen)
    ensures RouteFor(path).Plain? ==> s == Render(RouteFor(path).page)
    ensures RouteFor(path).GoTo? ==> s == Redirect(RouteFor(path).path)
  {
    match RouteFor(path)
    case Plain(p) => Render(p)
    case Guarded(p) => ProtectedRoute(loading, authenticated, p)
    case GoTo(to) => Redirect(to)
  }

  /** Following redirects for at most `hops` steps. */
  function Visit(path: string, loading: bool, authenticated: bool, hops: nat): (s: Screen)
    ensures s.Redirect? ==> s.to == HomePath || s.to == LoginPath
    ensures !Show(path, loading, authenticated).Redirect? ==> s == Show(path, loading, authenticated)
    decreases hops
  {
    var s := Show(path, loading, authenticated);
    if hops == 0 then s
    else match s
      case Redirect(to) => Visit(to, loading, authenticated, hops - 1)
      case _ => s
  }

  /** Two redirects are enough: every path settles on a page or the placeholder. */
  lemma EveryPathSettles(path: string, loading: bool, authenticated: bool)
    ensures !Visit(path, loading, authenticated, 2).Redirect?
  {
  }

  /** While the session is being restored, only the login page is reachable; the rest wait. */
  lemma LoadingLanding(path: string, authenticated: bool)
    ensures Visit(path, true, authenticated, 2) == if path == LoginPath then Render(LoginPage) else Placeholder
  {
  }

  /** Without a session, every path ends on the login page. */
  lemma UnauthenticatedLanding(path: string)
    ensures Visit(path, false, false, 2) == Render(LoginPage)
  {
  }

  /** With a session, `/users` shows the user list, `/login` the form, everything else the main page. */
  lemma AuthenticatedLanding(path: string)
    ensures Visit(path, false, true, 2) ==
              if path == LoginPath then Render(LoginPage)
              else if path == UsersPath then Render(UserListPage)
              else Render(MainPage)
  {
  }

  /** The path the login form navigates to has no route of its own and falls back to the main page. */
  lemma PostLoginPathIsHome()
    ensures RouteFor("/pagina-principal") == GoTo(HomePath)
    ensures Visit("/pagina-principal", false, true, 2) == Render(MainPage)
  {
  }
}

=== FILE: auth_context.dfy ===
/**
 * The client's session provider: the state it holds (`user`, `isAuthenticated`, `loading`) and
 * the copy it keeps in `localStorage`. Each operation is a transition from (state, storage) to
 * (state, storage); React's state setters are the fields written.
 */
module AuthContext {
  import opened Wrappers
  import opened Props
  import opened Json
  import opened LocalStorage

  /** `user` is any JSON value; `null` is `Scalar(Null)`. */
  datatype AuthState = AuthState(user: Json, isAuthenticated: bool, loading: bool)

  const NoUser := Scalar(Null)

  /** The state before the mount effect has run. */
  const Initial := AuthState(NoUser, false, true)

  /**
   * The mount effect, run on the initial state: both keys must be truthy, then the saved user
   * must parse; a parse failure removes both keys. Loading ends in every branch.
   */
  function Hydrate(storage: Storage): (r: (AuthState, Storage))
    ensures !r.0.loading
    ensures r.0.isAuthenticated <==> Stored(GetItem(storage, TokenKey)) && Stored(GetItem(storage, UserKey))
                                     && Parse(storage[UserKey]).Some?
    ensures r.0.isAuthenticated ==> r.0.user == Parse(storage[UserKey]).value && r.1 == storage
    ensures !r.0.isAuthenticated ==> r.0.user == NoUser
    ensures !(Stored(GetItem(storage, TokenKey)) && Stored(GetItem(storage, UserKey))) ==> r.1 == storage
    ensures (Stored(GetItem(storage, TokenKey)) && Stored(GetItem(storage, UserKey)) && Parse(storage[UserKey]).None?)
            ==> r.1 == storage - {TokenKey, UserKey}
  {
    var token := GetItem(storage, TokenKey);
    var saved := GetItem(storage, UserKey);
    if Stored(token) && Stored(saved) then
      match Parse(saved.value)
      case Some(u) => (AuthState(u, true, false), storage)
      case None =>
        assert RemoveItem(RemoveItem(storage, TokenKey), UserKey) == storage - {TokenKey, UserKey};
        (Initial.(loading := false), RemoveItem(RemoveItem(storage, TokenKey), UserKey))
    else (Initial.(loading := false), storage)
  }

  /** `userData.is_admin || false`. */
  function AdminFlag(userData: Fields): (p: Prim)
    ensures TruthyValue(Get(userData, "is_admin")) ==> Some(p) == Get(userData, "is_admin")
    ensures !TruthyValue(Get(userData, "is_admin")) ==> p == Bool(false)
  {
    var v := Get(userData, "is_admin");
    if TruthyValue(v) then v.value else Bool(false)
  }

  /** The object `login` saves: the user data with `isAdmin` set from `is_admin`. */
  function UserToSave(userData: Fields): (u: Fields)
    ensures Get(u, "isAdmin") == Some(AdminFlag(userData))
    ensures forall k :: k != "isAdmin" ==> Get(u, k) == Get(userData, k)
  {
    Put(userData, "isAdmin", AdminFlag(userData))
  }

  /** `login(userData, token)`: the token is stored as `String(token)`, the user as its JSON text. */
  function Login(st: AuthState, storage: Storage, userData: Fields, token: Option<Prim>): (r: (AuthState, Storage))
    ensures r.0 == AuthState(Obj(UserToSave(userData)), true, st.loading)
    ensures GetItem(r.1, TokenKey) == Some(ToJsString(token))
    ensures GetItem(r.1, UserKey) == Some(Stringify(Obj(UserToSave(userData))))
    ensures forall k :: k != TokenKey && k != UserKey ==> GetItem(r.1, k) == GetItem(storage, k)
  {
    var s1 := SetItem(storage, TokenKey, ToJsString(token));
    var u := UserToSave(userData);
    (AuthState(Obj(u), true, st.loading), SetItem(s1, UserKey, Stringify(Obj(u))))
  }

  /** `logout()`: both keys go, the user is cleared; loading is untouched. */
  function Logout(st: AuthState, storage: Storage): (r: (AuthState, Storage))
    ensures r.0 == AuthState(NoUser, false, st.loading)
    ensures TokenKey !in r.1 && UserKey !in r.1
    ensures forall k :: k != TokenKey && k != UserKey ==> GetItem(r.1, k) == GetItem(storage, k)
  {
    (AuthState(NoUser, false, st.loading), RemoveItem(RemoveItem(storage, TokenKey), UserKey))
  }

  lemma LogoutIdempotent(st: AuthState, storage: Storage)
    ensures var (st1, s1) := Logout(st, storage);
            Logout(st1, s1) == (st1, s1)
  {
    var (st1, s1) := Logout(st, storage);
    assert s1 - {TokenKey} - {UserKey} == s1;
  }

  /** `getToken()`: read storage, not the state. */
  function GetToken(storage: Storage): (r: Option<string>)
    ensures r == GetItem(storage, TokenKey)
  {
    GetItem(storage, TokenKey)
  }

  /**
   * The headers `authenticatedFetch` sends: JSON content type and the bearer token read from
   * storage at call time, with the caller's headers taking precedence.
   */
  function RequestHeaders(storage: Storage, callerHeaders: Object<string>): (h: Object<string>)
    ensures Get(h, "Content-Type") == if "Content-Type" in Keys(callerHeaders) then Get(callerHeaders, "Content-Type")
                                      else Some("application/json")
    ensures Get(h, "Authorization") == if "Authorization" in Keys(callerHeaders) then Get(callerHeaders, "Authorization")
                                       else Some("Bearer " + TemplateText(GetToken(storage)))
    ensures Keys(h) == {"Content-Type", "Authorization"} + Keys(callerHeaders)
  {
    var bearer := "Bearer " + TemplateText(GetToken(storage));
    var defaults := Put(Put([], "Content-Type", "application/json"), "Authorization", bearer);
    Spread(defaults, callerHeaders)
  }

  /**
   * `getUserId()`: the in-memory user's id when truthy; otherwise the saved user's `id` (possibly
   * `undefined`); `null` when nothing is saved or the saved text does not parse, in which case
   * storage is left as it is. `None` is `undefined`.
   */
  function GetUserId(st: AuthState, storage: Storage): (r: Option<Prim>)
    ensures st.user.Obj? && TruthyValue(Get(st.user.fields, "id")) ==> r == Get(st.user.fields, "id")
    ensures !(st.user.Obj? && TruthyValue(Get(st.user.fields, "id"))) && !Stored(GetItem(storage, UserKey))
            ==> r == Some(Null)
    ensures (!(st.user.Obj? && TruthyValue(Get(st.user.fields, "id"))) && Stored(GetItem(storage, UserKey))
             && Parse(storage[UserKey]) == None) ==> r == Some(Null)
    ensures (!(st.user.Obj? && TruthyValue(Get(st.user.fields, "id"))) && Stored(GetItem(storage, UserKey))
             && Parse(storage[UserKey]).Some? && Parse(storage[UserKey]).value.Obj?)
            ==> r == Get(Parse(storage[UserKey]).value.fields, "id")
  {
    if st.user.Obj? && TruthyValue(Get(st.user.fields, "id")) then Get(st.user.fields, "id")
    else
      var saved := GetItem(storage, UserKey);
      if !Stored(saved) then Some(Null)
      else match Parse(saved.value)
        case None => Some(Null)
        // reading `.id` of a parsed `null` throws, and the handler answers null
        case Some(Scalar(Null)) => Some(Null)
        case Some(Scalar(_)) => None
        case Some(Obj(fs)) => Get(fs, "id")
  }

  /** `isAdmin()`: `user.isAdmin` when there is a (truthy) user, `false` otherwise; `None` is `undefined`. */
  function IsAdmin(st: AuthState): (r: Option<Prim>)
    ensures !JsonTruthy(st.user) ==> r == Some(Bool(false))
    ensures st.user.Obj? ==> r == Get(st.user.fields, "isAdmin")
  {
    if !JsonTruthy(st.user) then Some(Bool(false))
    else match st.user
      case Obj(fs) => Get(fs, "isAdmin")
      case Scalar(_) => None
  }

  // ---------------------------------------------------------------- how the operations compose

  /**
   * Login then reload: with a non-empty stored token text, a fresh mount restores exactly the
   * user that was saved, and storage is not touched.
   */
  lemma LoginThenHydrate(st: AuthState, storage: Storage, userData: Fields, token: Option<Prim>)
    requires ToJsString(token) != ""
    ensures var (_, s1) := Login(st, storage, userData, token);
            Hydrate(s1) == (AuthState(Obj(UserToSave(userData)), true, false), s1)
  {
    var (_, s1) := Login(st, storage, userData, token);
    var u := Obj(UserToSave(userData));
    ParseStringify(u);
    assert Stringify(u)[0] == '{';
  }

  /** Login with an empty token text: a reload loses the session and leaves storage as it is. */
  lemma EmptyTokenLostOnReload(st: AuthState, storage: Storage, userData: Fields, token: Option<Prim>)
    requires ToJsString(token) == ""
    ensures var (_, s1) := Login(st, storage, userData, token);
            Hydrate(s1) == (AuthState(NoUser, false, false), s1)
  {
  }

  /** Logout then reload: nothing to restore. */
  lemma LogoutThenHydrate(st: AuthState, storage: Storage)
    ensures var (_, s1) := Logout(st, storage);
            Hydrate(s1) == (AuthState(NoUser, false, false), s1)
  {
  }

  /** The admin flag saved at login is what `isAdmin()` reports, before and after a reload. */
  lemma AdminFlagSurvivesReload(st: AuthState, storage: Storage, userData: Fields, token: Option<Prim>)
    requires ToJsString(token) != ""
    ensures var (st1, s1) := Login(st, storage, userData, token);
            && IsAdmin(st1) == Some(AdminFlag(userData))
            && IsAdmin(Hydrate(s1).0) == Some(AdminFlag(userData))
  {
    LoginThenHydrate(st, storage, userData, token);
  }

  /** After login, `getUserId()` answers the id of the user data passed in, from memory or from storage. */
  lemma GetUserIdAfterLogin(st: AuthState, storage: Storage, userData: Fields, token: Option<Prim>)
    ensures var (st1, s1) := Login(st, storage, userData, token);
            GetUserId(st1, s1) == Get(userData, "id")
  {
    var (st1, s1) := Login(st, storage, userData, token);
    SavedUserId(storage, userData, token);
  }

  /**
   * After login and a reload, `getUserId()` still answers the saved id, whether the mount effect
   * has run yet or not.
   */
  lemma GetUserIdAfterReload(st: AuthState, storage: Storage, userData: Fields, token: Option<Prim>)
    requires ToJsString(token) != ""
    ensures var (_, s1) := Login(st, storage, userData, token);
            && GetUserId(Initial, s1) == Get(userData, "id")
            && GetUserId(Hydrate(s1).0, s1) == Get(userData, "id")
  {
    var (_, s1) := Login(st, storage, userData, token);
    SavedUserId(storage, userData, token);
    LoginThenHydrate(st, storage, userData, token);
  }

  /** The id read back from the text login saved is the id of the user data. */
  lemma SavedUserId(storage: Storage, userData: Fields, token: Option<Prim>)
    ensures var s1 := SetItem(SetItem(storage, TokenKey, ToJsString(token)), UserKey, Stringify(Obj(UserToSave(userData))));
            && Stored(GetItem(s1, UserKey))
            && Parse(s1[UserKey]) == Some(Obj(UserToSave(userData)))
            && Get(UserToSave(userData), "id") == Get(userData, "id")
  {
    ParseStringify(Obj(UserToSave(userData)));
  }

  /** Requests sent after login carry the token that login stored. */
  lemma FetchAfterLogin(st: AuthState, storage: Storage, userData: Fields, t: string)
    ensures var (_, s1) := Login(st, storage, userData, Some(Str(t)));
            Get(RequestHeaders(s1, []), "Authorization") == Some("Bearer " + t)
  {
    var (_, s1) := Login(st, storage, userData, Some(Str(t)));
    LoginStoresToken(st, storage, userData, t);
    BearerOfStoredToken(s1, t);
  }

  lemma LoginStoresToken(st: AuthState, storage: Storage, userData: Fields, t: string)
    ensures GetItem(Login(st, storage, userData, Some(Str(t))).1, TokenKey) == Some(t)
  {
    var token := Some(Str(t));
    assert ToJsString(token) == t;
    var r := Login(st, storage, userData, token);
    assert GetItem(r.1, TokenKey) == Some(ToJsString(token));
  }

  lemma BearerOfStoredToken(storage: Storage, t: string)
    requires GetItem(storage, TokenKey) == Some(t)
    ensures Get(RequestHeaders(storage, []), "Authorization") == Some("Bearer " + t)
  {
    var empty: Object<string> := [];
    assert "Authorization" !in Keys(empty);
  }

  /** Requests sent after logout carry the text "null" where the token was. */
  lemma FetchAfterLogout(st: AuthState, storage: Storage)
    ensures var (_, s2) := Logout(st, storage);
            Get(RequestHeaders(s2, []), "Authorization") == Some("Bearer null")
  {
    var (_, s2) := Logout(st, storage);
    var empty: Object<string> := [];
    assert "Authorization" !in Keys(empty);
    assert GetToken(s2) == None;
    assert Get(RequestHeaders(s2, empty), "Authorization") == Some("Bearer " + "null");
    assert "Bearer " + "null" == "Bearer null";
  }
}

=== FILE: auth_utils.dfy ===
/** The stand-alone token helpers: they read `localStorage` and write nothing. */
module AuthUtils {
  import opened Wrappers
  import opened LocalStorage
  import AuthContext

  /** `getAuthToken()`: exactly what is stored under the token key. */
  function GetAuthToken(storage: Storage): (r: Option<string>)
    ensures r.Some? <==> TokenKey in storage
    ensures r.Some? ==> r.value == storage[TokenKey]
  {
    GetItem(storage, TokenKey)
  }

  /** `isAuthenticated()`: a token is stored and is not the empty string. */
  function IsAuthenticated(storage: Storage): (r: bool)
    ensures r <==> TokenKey in storage && storage[TokenKey] != ""
  {
    Stored(GetAuthToken(storage))
  }

  /** The saved user plays no part in the answer. */
  lemma IgnoresUserKey(storage: Storage, saved: string)
    ensures IsAuthenticated(storage[UserKey := saved]) == IsAuthenticated(storage)
    ensures IsAuthenticated(storage - {UserKey}) == IsAuthenticated(storage)
  {
    assert GetAuthToken(storage[UserKey := saved]) == GetAuthToken(storage);
    assert GetAuthToken(storage - {UserKey}) == GetAuthToken(storage);
  }

  /** Unlike the provider's mount check, which also wants a saved user that parses. */
  lemma DisagreesWithHydration()
    ensures var storage := map[TokenKey := "t"];
            IsAuthenticated(storage) && !AuthContext.Hydrate(storage).0.isAuthenticated
  {
    var storage := map[TokenKey := "t"];
    assert GetItem(storage, UserKey) == None;
  }

  /** Whenever the provider restores a session, this helper agrees. */
  lemma HydrationImpliesAuthenticated(storage: Storage)
    requires AuthContext.Hydrate(storage).0.isAuthenticated
    ensures IsAuthenticated(storage)
  {
  }
}

=== FILE: decimal.dfy ===
/** Decimal text for integers: Go's `fmt.Sprintf("%d", n)` and `strconv.Atoi` on a 64-bit platform. */
module Decimal {
  import opened Wrappers

  const MinInt64: int := -0x8000_0000_0000_0000
  const MaxInt64: int := 0x7FFF_FFFF_FFFF_FFFF

  predicate IsDigit(c: char) {
    '0' <= c <= '9'
  }

  predicate AllDigits(s: string) {
    forall i :: 0 <= i < |s| ==> IsDigit(s[i])
  }

  function DigitChar(d: nat): (c: char)
    requires d < 10
    ensures IsDigit(c)
  {
    (d + '0' as int) as char
  }

  function DigitValue(c: char): (d: nat)
    requires IsDigit(c)
    ensures d < 10
    ensures DigitChar(d) == c
  {
    c as int - '0' as int
  }

  /** The shortest decimal text of `n`: at least one digit, no sign. */
  function NatToString(n: nat): (s: string)
    ensures 1 <= |s| && AllDigits(s)
    ensures n < 10 <==> |s| == 1
    ensures |s| > 1 ==> s[0] != '0'
  {
    if n < 10 then [DigitChar(n)] else NatToString(n / 10) + [DigitChar(n % 10)]
  }

  /** The value of a run of digits read left to right (the empty run is 0). */
  function DigitsValue(s: string): nat
    requires AllDigits(s)
  {
    if s == [] then 0 else DigitsValue(s[..|s| - 1]) * 10 + DigitValue(s[|s| - 1])
  }

  /** `fmt.Sprintf("%d", n)`: a minus sign for negative values, then the digits of |n|. */
  function IntToString(n: int): (s: string)
  {
    if n < 0 then "-" + NatToString(-n) else NatToString(n)
  }

  /** An optional `+`/`-` sign followed by one or more digits, read without any width limit. */
  function ParseDecimal(s: string): (r: Option<int>)
    ensures r.Some? <==> (|s| > 0 && (AllDigits(s) || ((s[0] == '+' || s[0] == '-') && |s| > 1 && AllDigits(s[1..]))))
  {
    if |s| > 0 && (s[0] == '+' || s[0] == '-') then
      if |s| > 1 && AllDigits(s[1..]) then
        var v: int := DigitsValue(s[1..]);
        Some(if s[0] == '-' then -v else v)
      else None
    else if |s| > 0 && AllDigits(s) then Some(DigitsValue(s))
    else None
  }

  /** `strconv.Atoi` with Go's 64-bit `int`: a syntax error or an out-of-range value is an error. */
  function Atoi(s: string): (r: Option<int>)
    ensures r.Some? ==> MinInt64 <= r.value <= MaxInt64
    ensures r.Some? ==> ParseDecimal(s) == r
    ensures ParseDecimal(s).Some? && MinInt64 <= ParseDecimal(s).value <= MaxInt64 ==> r.Some?
  {
    match ParseDecimal(s)
    case Some(v) => if MinInt64 <= v <= MaxInt64 then Some(v) else None
    case None => None
  }

  lemma {:induction false} DigitsValueOfNatToString(n: nat)
    ensures DigitsValue(NatToString(n)) == n
  {
    if n >= 10 {
      var s := NatToString(n / 10);
      var t := s + [DigitChar(n % 10)];
      assert t[..|t| - 1] == s;
      DigitsValueOfNatToString(n / 10);
    }
  }

  /** Reading back what `IntToString` wrote gives the same integer, for every integer. */
  lemma ParseDecimalOfIntToString(n: int)
    ensures ParseDecimal(IntToString(n)) == Some(n)
  {
    var s := IntToString(n);
    if n < 0 {
      var m := NatToString(-n);
      assert s == "-" + m;
      assert s[1..] == m;
      assert s[0] == '-';
      DigitsValueOfNatToString(-n);
      assert DigitsValue(s[1..]) == -n;
    } else {
      assert s == NatToString(n);
      assert IsDigit(s[0]);
      DigitsValueOfNatToString(n);
    }
  }

  /** The JWT `jti` round trip: `Atoi` recovers every 64-bit integer from its `%d` text. */
  lemma AtoiOfIntToString(n: int)
    requires MinInt64 <= n <= MaxInt64
    ensures Atoi(IntToString(n)) == Some(n)
  {
    ParseDecimalOfIntToString(n);
  }

  /** Distinct integers have distinct decimal texts. */
  lemma IntToStringInjective(a: int, b: int)
    requires IntToString(a) == IntToString(b)
    ensures a == b
  {
    ParseDecimalOfIntToString(a);
    ParseDecimalOfIntToString(b);
  }
}

=== FILE: domain.dfy ===
/** The records the services hand to controllers, and the row ⇄ record copies they all repeat. */
module Domain {
  import opened Store

  datatype User = User(id: int, name: string, username: string, password: string, isAdmin: bool, token: string)

  datatype Activity = Activity(
    id: int, name: string, profesor: string, categoria: string, cupos: int,
    description: string, dia: int, horaInicio: string, horaFin: string)

  datatype Inscripcion = Inscripcion(id: int, usuarioId: int, actividadId: int, usuario: User, actividad: Activity)

  /** Row to record, field for field. */
  function ActivityOf(rec: ActivityRec): Activity {
    Activity(rec.id, rec.nombre, rec.profesor, rec.categoria, rec.cupos,
             rec.descripcion, rec.dia, rec.horaInicio, rec.horaFin)
  }

  /** Record to row, field for field. */
  function RecordOf(a: Activity): ActivityRec {
    ActivityRec(a.id, a.name, a.profesor, a.categoria, a.cupos,
                a.description, a.dia, a.horaInicio, a.horaFin)
  }

  /** The two copies are inverse: no field is lost or swapped in either direction. */
  lemma ActivityCopiesInverse(rec: ActivityRec, a: Activity)
    ensures RecordOf(ActivityOf(rec)) == rec
    ensures ActivityOf(RecordOf(a)) == a
    ensures ActivityOf(rec) == a <==> rec == RecordOf(a)
  {
  }

  /** The user fields the services expose: id, username and the admin flag; never a password or token. */
  function PublicUserOf(rec: UserRec): User {
    User(rec.id, "", rec.username, "", rec.isAdmin, "")
  }
}

=== FILE: inscription_controller.dfy ===
/**
 * The enrollment HTTP handlers: path-id parsing, the mapping of service errors to status codes,
 * the response copy, and the handlers that only answer 501.
 */
module InscriptionController {
  import opened Wrappers
  import opened Store
  import opened Domain
  import Decimal
  import InscriptionService

  const InvalidId := "Invalid ID format"
  const InvalidUserId := "Invalid user ID format"
  const InvalidActivityId := "Invalid activity ID format"
  const InscriptionNotFound := "Inscription not found"
  const InvalidRequest := "Invalid request data"
  const CreateFailed := "Failed to create inscription"

  datatype UserResponse = UserResponse(id: int, username: string, isAdmin: bool)

  datatype InscripcionResponse = InscripcionResponse(
    id: int, usuarioId: int, actividadId: int, usuario: UserResponse, actividad: Activity)

  /** A JSON reply body. A 501 reply may carry the parsed id under a key of its own. */
  datatype Body =
    | ErrorBody(error: string)
    | ErrorDetails(error: string, details: string)
    | NotImplemented(message: string, idField: Option<(string, int)>)
    | InscriptionBody(inscription: InscripcionResponse)

  datatype Response = Response(status: int, body: Body)

  /** The reply copy of a service record: the user is cut down to id, username and admin flag. */
  function ResponseOf(i: Inscripcion): InscripcionResponse {
    InscripcionResponse(i.id, i.usuarioId, i.actividadId,
                        UserResponse(i.usuario.id, i.usuario.username, i.usuario.isAdmin), i.actividad)
  }

  /** A service record rebuilt from a reply, with the fields the reply does not carry left empty. */
  function InscripcionOf(r: InscripcionResponse): Inscripcion {
    Inscripcion(r.id, r.usuarioId, r.actividadId,
                User(r.usuario.id, "", r.usuario.username, "", r.usuario.isAdmin, ""), r.actividad)
  }

  /** The reply loses nothing the service put in a record: the user's other fields are always empty there. */
  lemma ResponseLosesNothing(i: Inscripcion, r: InscripcionResponse)
    ensures InscripcionOf(ResponseOf(i)) == i
            <==> i.usuario.name == "" && i.usuario.password == "" && i.usuario.token == ""
    ensures ResponseOf(InscripcionOf(r)) == r
  {
  }

  // ---------------------------------------------------------------- reads

  function GetInscriptionByID(idParam: string, db: Db): (r: Response)
    ensures Decimal.Atoi(idParam).None? ==> r == Response(400, ErrorBody(InvalidId))
    ensures r.status == 404 <==> Decimal.Atoi(idParam).Some?
                                 && InscriptionService.GetInscriptionByID(db, Decimal.Atoi(idParam).value).Failure?
    ensures r.status == 404 ==> r.body == ErrorBody(InscriptionNotFound)
    ensures r.status == 200 ==> r.body.InscriptionBody? && r.body.inscription.id == Decimal.Atoi(idParam).value
    ensures r.status == 200 ==> r.body == InscriptionBody(ResponseOf(
              InscriptionService.GetInscriptionByID(db, Decimal.Atoi(idParam).value).value))
    ensures r.status in {200, 400, 404}
  {
    match Decimal.Atoi(idParam)
    case None => Response(400, ErrorBody(InvalidId))
    case Some(id) =>
      match InscriptionService.GetInscriptionByID(db, id)
      case Failure(_) => Response(404, ErrorBody(InscriptionNotFound))
      case Success(i) => Response(200, InscriptionBody(ResponseOf(i)))
  }

  /**
   * `GetInscriptionByUserAndActivity`: both ids are parsed, the user's first, before the lookup;
   * the lookup itself is passed in.
   */
  function GetInscriptionByUserAndActivity(usuarioParam: string, actividadParam: string,
                                           lookup: (int, int) -> Result<Inscripcion, string>): (r: Response)
    ensures Decimal.Atoi(usuarioParam).None? ==> r == Response(400, ErrorBody(InvalidUserId))
    ensures Decimal.Atoi(usuarioParam).Some? && Decimal.Atoi(actividadParam).None?
            ==> r == Response(400, ErrorBody(InvalidActivityId))
    ensures r.status == 200 <==> Decimal.Atoi(usuarioParam).Some? && Decimal.Atoi(actividadParam).Some?
                                 && lookup(Decimal.Atoi(usuarioParam).value, Decimal.Atoi(actividadParam).value).Success?
    ensures r.status != 200 ==> r.body.ErrorBody?
    ensures Decimal.Atoi(usuarioParam).Some? && Decimal.Atoi(actividadParam).Some?
            && lookup(Decimal.Atoi(usuarioParam).value, Decimal.Atoi(actividadParam).value).Failure?
            ==> r == Response(404, ErrorBody(InscriptionNotFound))
    ensures Decimal.Atoi(usuarioParam).Some? && Decimal.Atoi(actividadParam).Some?
            && lookup(Decimal.Atoi(usuarioParam).value, Decimal.Atoi(actividadParam).value).Success?
            ==> r == Response(200, InscriptionBody(ResponseOf(
                  lookup(Decimal.Atoi(usuarioParam).value, Decimal.Atoi(actividadParam).value).value)))
  {
    match Decimal.Atoi(usuarioParam)
    case None => Response(400, ErrorBody(InvalidUserId))
    case Some(u) =>
      match Decimal.Atoi(actividadParam)
      case None => Response(400, ErrorBody(InvalidActivityId))
      case Some(a) =>
        match lookup(u, a)
        case Failure(_) => Response(404, ErrorBody(InscriptionNotFound))
        case Success(i) => Response(200, InscriptionBody(ResponseOf(i)))
  }

  // ---------------------------------------------------------------- CreateInscription

  /** How an enrollment error becomes a reply: the four known texts by exact match, anything else 500. */
  function ErrorReply(e: string): (r: Response)
    ensures e == InscriptionService.AlreadyInscribed ==> r == Response(409, ErrorBody("User is already inscribed in this activity"))
    ensures e == InscriptionService.NoSlots ==> r == Response(409, ErrorBody("Activity has no available slots"))
    ensures e == InscriptionService.UserNotFound ==> r == Response(404, ErrorBody("User not found"))
    ensures e == InscriptionService.ActivityNotFound ==> r == Response(404, ErrorBody("Activity not found"))
    ensures r.status == 500 <==> e !in {InscriptionService.AlreadyInscribed, InscriptionService.NoSlots,
                                        InscriptionService.UserNotFound, InscriptionService.ActivityNotFound}
    ensures r.status == 500 ==> r.body == ErrorDetails(CreateFailed, e)
  {
    if e == "user already inscribed in this activity" then Response(409, ErrorBody("User is already inscribed in this activity"))
    else if e == "activity has no available slots" then Response(409, ErrorBody("Activity has no available slots"))
    else if e == "user not found" then Response(404, ErrorBody("User not found"))
    else if e == "activity not found" then Response(404, ErrorBody("Activity not found"))
    else Response(500, ErrorDetails(CreateFailed, e))
  }

  /**
   * `CreateInscription`: a body that does not bind is a 400; every bound pair, whatever its sign,
   * goes to the service, whose error is mapped by `ErrorReply`; success is a 201 with the copy.
   */
  function CreateInscription(bind: Result<(int, int), string>, db: Db,
                             insertError: Option<string>, slotError: Option<string>): (r: (Response, Db))
    ensures bind.Failure? ==> r == (Response(400, ErrorDetails(InvalidRequest, bind.error)), db)
    ensures bind.Success? ==>
              var s := InscriptionService.CreateInscription(db, bind.value.0, bind.value.1, insertError, slotError);
              && r.1 == s.db
              && (s.result.Failure? ==> r.0 == ErrorReply(s.result.error))
              && (s.result.Success? ==> r.0 == Response(201, InscriptionBody(ResponseOf(s.result.value))))
  {
    match bind
    case Failure(e) => (Response(400, ErrorDetails(InvalidRequest, e)), db)
    case Success((usuarioId, actividadId)) =>
      var s := InscriptionService.CreateInscription(db, usuarioId, actividadId, insertError, slotError);
      match s.result
      case Failure(e) => (ErrorReply(e), s.db)
      case Success(i) => (Response(201, InscriptionBody(ResponseOf(i))), s.db)
  }

  /**
   * Every rejection the service makes has its own reply; none of them is a 500. A store failure is
   * the only way to a 500, and a 201 reports the activity with one slot fewer.
   */
  lemma CreateInscriptionStatuses(bind: Result<(int, int), string>, db: Db,
                                  insertError: Option<string>, slotError: Option<string>)
    requires bind.Success?
    ensures var (u, a) := bind.value;
            var r := CreateInscription(bind, db, insertError, slotError).0;
            && (InscriptionService.Rejection(db, u, a).Some? ==> r.status in {404, 409})
            && (r.status == 500 ==> InscriptionService.Rejection(db, u, a).None? && insertError.Some?)
            && (r.status == 201 ==> r.body.inscription.actividad.cupos == db.activities[a].cupos - 1)
  {
  }

  /** The commented-out id check means a non-positive user id reaches the service and comes back as 404. */
  lemma NonPositiveUserIdIs404(db: Db, usuarioId: int, actividadId: int,
                               insertError: Option<string>, slotError: Option<string>)
    requires Wf(db) && usuarioId <= 0
    ensures CreateInscription(Success((usuarioId, actividadId)), db, insertError, slotError)
            == (Response(404, ErrorBody("User not found")), db)
  {
  }

  // ---------------------------------------------------------------- handlers not implemented yet

  function GetInscriptionsByUserID(idParam: string): (r: Response)
    ensures Decimal.Atoi(idParam).None? <==> r == Response(400, ErrorBody(InvalidId))
    ensures Decimal.Atoi(idParam).Some? ==> r.status == 501 && r.body.NotImplemented?
                                            && r.body.idField == Some(("user_id", Decimal.Atoi(idParam).value))
  {
    match Decimal.Atoi(idParam)
    case None => Response(400, ErrorBody(InvalidId))
    case Some(id) => Response(501, NotImplemented("GetInscriptionsByUserID service method not implemented yet", Some(("user_id", id))))
  }

  function DeleteInscription(idParam: string): (r: Response)
    ensures Decimal.Atoi(idParam).None? <==> r == Response(400, ErrorBody(InvalidId))
    ensures Decimal.Atoi(idParam).Some? ==> r.status == 501 && r.body.NotImplemented?
                                            && r.body.idField == Some(("id", Decimal.Atoi(idParam).value))
  {
    match Decimal.Atoi(idParam)
    case None => Response(400, ErrorBody(InvalidId))
    case Some(id) => Response(501, NotImplemented("DeleteInscription service method not implemented yet", Some(("id", id))))
  }

  function GetActivitiesByUser(): (r: Response)
    ensures r.status == 501 && r.body.NotImplemented? && r.body.idField.None?
  {
    Response(501, NotImplemented("GetActivitiesByUser service method not implemented yet", None))
  }

  function GetMyActivities(): (r: Response)
    ensures r.status == 501 && r.body.NotImplemented? && r.body.idField.None?
  {
    Response(501, NotImplemented("GetMyActivities service method not implemented yet", None))
  }

  function GetInscriptions(): (r: Response)
    ensures r.status == 501 && r.body.NotImplemented? && r.body.idField.None?
  {
    Response(501, NotImplemented("GetAllInscriptions service method not implemented yet", None))
  }
}

=== FILE: inscription_service.dfy ===
/**
 * The enrollment service: reading one inscription with its user and activity, enrolling a user
 * in an activity, and listing every inscription. Store failures that the store model cannot
 * produce by itself (a failed insert, a failed slot write, a failed scan) are parameters.
 */
module InscriptionService {
  import opened Wrappers
  import opened Store
  import opened Domain

  const UserNotFound := "user not found"
  const ActivityNotFound := "activity not found"
  const NoSlots := "activity has no available slots"
  const AlreadyInscribed := "user already inscribed in this activity"


  /** Every inscription row joins to a user row and an activity row that exist. */
  predicate Joinable(db: Db, row: InscriptionRec) {
    row.usuarioId in db.users && row.actividadId in db.activities
  }

  /** The inscription record built from a row and the rows it references. */
  function Join(db: Db, row: InscriptionRec): (r: Option<Inscripcion>)
    ensures r.Some? <==> Joinable(db, row)
    ensures r.Some? ==> r.value.id == row.id && r.value.usuarioId == row.usuarioId
                        && r.value.actividadId == row.actividadId
    ensures r.Some? ==> r.value.usuario == PublicUserOf(db.users[row.usuarioId])
                        && r.value.actividad == ActivityOf(db.activities[row.actividadId])
  {
    if Joinable(db, row) then
      Some(Inscripcion(row.id, row.usuarioId, row.actividadId,
                       PublicUserOf(db.users[row.usuarioId]), ActivityOf(db.activities[row.actividadId])))
    else None
  }

  /** At most one inscription per (user, activity) pair. */
  ghost predicate PairsUnique(rows: seq<InscriptionRec>) {
    forall i, j :: 0 <= i < j < |rows| ==>
      !(rows[i].usuarioId == rows[j].usuarioId && rows[i].actividadId == rows[j].actividadId)
  }

  /** How many inscriptions an activity has. */
  function CountFor(rows: seq<InscriptionRec>, actividadId: int): (n: nat)
    ensures n <= |rows|
    ensures n == 0 <==> forall i :: 0 <= i < |rows| ==> rows[i].actividadId != actividadId
  {
    if rows == [] then 0
    else (if rows[0].actividadId == actividadId then 1 else 0) + CountFor(rows[1..], actividadId)
  }

  lemma {:induction false} CountForAppend(rows: seq<InscriptionRec>, row: InscriptionRec, actividadId: int)
    ensures CountFor(rows + [row], actividadId)
            == CountFor(rows, actividadId) + (if row.actividadId == actividadId then 1 else 0)
  {
    if rows != [] {
      assert (rows + [row])[1..] == rows[1..] + [row];
      CountForAppend(rows[1..], row, actividadId);
    }
  }

  /** Free slots plus taken slots: the capacity an activity was created with. */
  ghost function Seats(db: Db, actividadId: int): int
    requires actividadId in db.activities
  {
    db.activities[actividadId].cupos + CountFor(db.inscriptions, actividadId)
  }

  // ---------------------------------------------------------------- GetInscriptionByID

  /** Any missing piece (the inscription, its user, its activity) fails with the store's error. */
  function GetInscriptionByID(db: Db, id: int): (r: Result<Inscripcion, string>)
    ensures r.Failure? ==> r.error == RecordNotFound
    ensures r.Success? <==> FirstWithId(db.inscriptions, id).Some?
                            && Joinable(db, FirstWithId(db.inscriptions, id).value)
    ensures r.Success? ==> r.value.id == id
                           && InscriptionRec(id, r.value.usuarioId, r.value.actividadId) in db.inscriptions
    ensures r.Success? ==> Some(r.value) == Join(db, FirstWithId(db.inscriptions, id).value)
  {
    match FirstWithId(db.inscriptions, id)
    case None => Failure(RecordNotFound)
    case Some(row) =>
      if row.usuarioId !in db.users then Failure(RecordNotFound)
      else if row.actividadId !in db.activities then Failure(RecordNotFound)
      else Success(Join(db, row).value)
  }

  // ---------------------------------------------------------------- CreateInscription

  /** The four checks enrollment makes, in the order it makes them; `None` when all pass. */
  function Rejection(db: Db, usuarioId: int, actividadId: int): (r: Option<string>)
    ensures r.None? <==> usuarioId in db.users && actividadId in db.activities
                         && db.activities[actividadId].cupos > 0
                         && !(FirstWithPair(db.inscriptions, usuarioId, actividadId).Some?
                              && FirstWithPair(db.inscriptions, usuarioId, actividadId).value.id > 0)
    ensures usuarioId !in db.users ==> r == Some(UserNotFound)
    ensures usuarioId in db.users && actividadId !in db.activities ==> r == Some(ActivityNotFound)
    ensures usuarioId in db.users && actividadId in db.activities && db.activities[actividadId].cupos <= 0
            ==> r == Some(NoSlots)
  {
    if usuarioId !in db.users then Some(UserNotFound)
    else if actividadId !in db.activities then Some(ActivityNotFound)
    else if db.activities[actividadId].cupos <= 0 then Some(NoSlots)
    else
      var existing := FirstWithPair(db.inscriptions, usuarioId, actividadId);
      if existing.Some? && existing.value.id > 0 then Some(AlreadyInscribed)
      else None
  }

  /**
   * Enrolls a user. A rejection or a failed insert leaves the store as it was; after the insert,
   * a failed slot write is ignored and the call still succeeds.
   */
  function CreateInscription(db: Db, usuarioId: int, actividadId: int,
                             insertError: Option<string>, slotError: Option<string>): (r: Outcome<Inscripcion>)
    ensures r.result.Failure? ==> r.db == db
    ensures Rejection(db, usuarioId, actividadId).Some?
            ==> r.result == Failure(Rejection(db, usuarioId, actividadId).value)
    ensures Rejection(db, usuarioId, actividadId).None? && insertError.Some?
            ==> r.result == Failure(insertError.value)
    ensures r.result.Success? <==> Rejection(db, usuarioId, actividadId).None? && insertError.None?
    ensures r.result.Success? ==>
              && r.db.users == db.users
              && r.db.inscriptions == db.inscriptions + [InscriptionRec(db.nextInscriptionId, usuarioId, actividadId)]
              && r.result.value.id == db.nextInscriptionId
              && r.result.value.actividad == ActivityOf(db.activities[actividadId]).(cupos := db.activities[actividadId].cupos - 1)
              && r.result.value.usuario == PublicUserOf(db.users[usuarioId])
  {
    match Rejection(db, usuarioId, actividadId)
    case Some(e) => Outcome(Failure(e), db)
    case None =>
      if insertError.Some? then Outcome(Failure(insertError.value), db)
      else
        var (row, db1) := InsertInscription(db, usuarioId, actividadId);
        var activity := db.activities[actividadId];
        var newSlots := activity.cupos - 1;
        var db2 := if slotError.None? then SetSlots(db1, activity.id, newSlots) else db1;
        var user := db.users[usuarioId];
        Outcome(Success(Inscripcion(row.id, row.usuarioId, row.actividadId,
                                    PublicUserOf(user), ActivityOf(activity.(cupos := newSlots)))),
                db2)
  }

  /**
   * Under the schema (the activity row sits under its own id) the slot write hits the enrolled
   * activity: its count drops by one, unless the write failed, and no other activity changes.
   */
  lemma CreateInscriptionSlots(db: Db, usuarioId: int, actividadId: int,
                               insertError: Option<string>, slotError: Option<string>)
    requires Wf(db)
    requires CreateInscription(db, usuarioId, actividadId, insertError, slotError).result.Success?
    ensures var r := CreateInscription(db, usuarioId, actividadId, insertError, slotError);
            && r.db.activities.Keys == db.activities.Keys
            && (forall id :: id in db.activities && id != actividadId ==> r.db.activities[id] == db.activities[id])
            && r.db.activities[actividadId]
               == db.activities[actividadId].(cupos := if slotError.None? then db.activities[actividadId].cupos - 1
                                                       else db.activities[actividadId].cupos)
  {
    assert db.activities[actividadId].id == actividadId;
  }

  /** Under the schema, the duplicate check rejects exactly the pairs already enrolled. */
  lemma DuplicateCheckExact(db: Db, usuarioId: int, actividadId: int)
    requires Wf(db) && usuarioId in db.users && actividadId in db.activities
    requires db.activities[actividadId].cupos > 0
    ensures Rejection(db, usuarioId, actividadId) == Some(AlreadyInscribed)
            <==> exists i :: 0 <= i < |db.inscriptions| && db.inscriptions[i].usuarioId == usuarioId
                                                     && db.inscriptions[i].actividadId == actividadId
  {
    var existing := FirstWithPair(db.inscriptions, usuarioId, actividadId);
    if existing.Some? {
      var i :| 0 <= i < |db.inscriptions| && db.inscriptions[i] == existing.value;
      assert existing.value.id > 0;
    }
  }

  /** Enrollment keeps the schema, never drives a slot count negative, and never enrolls a pair twice. */
  lemma CreateInscriptionKeepsInvariants(db: Db, usuarioId: int, actividadId: int,
                                         insertError: Option<string>, slotError: Option<string>)
    requires Wf(db) && SlotsNonNegative(db) && PairsUnique(db.inscriptions)
    ensures Wf(CreateInscription(db, usuarioId, actividadId, insertError, slotError).db)
    ensures SlotsNonNegative(CreateInscription(db, usuarioId, actividadId, insertError, slotError).db)
    ensures PairsUnique(CreateInscription(db, usuarioId, actividadId, insertError, slotError).db.inscriptions)
  {
    var r := CreateInscription(db, usuarioId, actividadId, insertError, slotError);
    if r.result.Success? {
      InsertInscriptionKeepsWf(db, usuarioId, actividadId);
      var rows := r.db.inscriptions;
      var n := |db.inscriptions|;
      assert FirstWithPair(db.inscriptions, usuarioId, actividadId).None?;
      forall i, j | 0 <= i < j < |rows|
        ensures !(rows[i].usuarioId == rows[j].usuarioId && rows[i].actividadId == rows[j].actividadId)
      {
        if j == n {
          assert rows[i] == db.inscriptions[i];
        } else {
          assert rows[i] == db.inscriptions[i] && rows[j] == db.inscriptions[j];
        }
      }
    }
  }

  /** A completed enrollment moves one slot from free to taken: the activity's capacity is kept. */
  lemma CreateInscriptionKeepsSeats(db: Db, usuarioId: int, actividadId: int, insertError: Option<string>)
    requires Wf(db) && actividadId in db.activities
    requires CreateInscription(db, usuarioId, actividadId, insertError, None).result.Success?
    ensures Seats(CreateInscription(db, usuarioId, actividadId, insertError, None).db, actividadId)
            == Seats(db, actividadId)
    ensures CountFor(CreateInscription(db, usuarioId, actividadId, insertError, None).db.inscriptions, actividadId)
            == CountFor(db.inscriptions, actividadId) + 1
  {
    CreateInscriptionSlots(db, usuarioId, actividadId, insertError, None);
    CountForAppend(db.inscriptions, InscriptionRec(db.nextInscriptionId, usuarioId, actividadId), actividadId);
  }

  /** When the slot write succeeds, reading the new inscription back gives exactly what enrollment returned. */
  lemma CreateThenGet(db: Db, usuarioId: int, actividadId: int, insertError: Option<string>)
    requires Wf(db)
    requires CreateInscription(db, usuarioId, actividadId, insertError, None).result.Success?
    ensures var r := CreateInscription(db, usuarioId, actividadId, insertError, None);
            GetInscriptionByID(r.db, r.result.value.id) == r.result
  {
    var r := CreateInscription(db, usuarioId, actividadId, insertError, None);
    var id := db.nextInscriptionId;
    assert r.db.inscriptions == db.inscriptions + [InscriptionRec(id, usuarioId, actividadId)];
    assert FirstWithId(db.inscriptions, id).None?;
    FirstWithIdAppend(db.inscriptions, InscriptionRec(id, usuarioId, actividadId), id);
    assert db.activities[actividadId].id == actividadId;
  }

  lemma {:induction false} FirstWithIdAppend(rows: seq<InscriptionRec>, row: InscriptionRec, id: int)
    requires FirstWithId(rows, id).None? && row.id == id
    ensures FirstWithId(rows + [row], id) == Some(row)
  {
    if rows != [] {
      assert (rows + [row])[1..] == rows[1..] + [row];
      FirstWithIdAppend(rows[1..], row, id);
    }
  }

  // ---------------------------------------------------------------- GetAllInscriptions

  /** The rows that join, joined, in store order. */
  function JoinAll(db: Db, rows: seq<InscriptionRec>): (r: seq<Inscripcion>)
    ensures |r| <= |rows|
    ensures forall k :: 0 <= k < |r| ==> exists i :: 0 <= i < |rows| && Join(db, rows[i]) == Some(r[k])
    ensures forall i :: 0 <= i < |rows| && Joinable(db, rows[i]) ==> Join(db, rows[i]).value in r
  {
    if rows == [] then []
    else
      var rest := JoinAll(db, rows[1..]);
      match Join(db, rows[0])
      case None => rest
      case Some(x) => [x] + rest
  }

  lemma {:induction false} JoinAllAppend(db: Db, rows: seq<InscriptionRec>, row: InscriptionRec)
    ensures JoinAll(db, rows + [row])
            == JoinAll(db, rows) + (if Joinable(db, row) then [Join(db, row).value] else [])
  {
    if rows == [] {
      assert JoinAll(db, [row][1..]) == [];
    } else {
      assert (rows + [row])[1..] == rows[1..] + [row];
      JoinAllAppend(db, rows[1..], row);
    }
  }

  /** If the rows come in increasing id order, so does the list built from them. */
  lemma {:induction false} JoinAllKeepsOrder(db: Db, rows: seq<InscriptionRec>)
    requires forall i, j :: 0 <= i < j < |rows| ==> rows[i].id < rows[j].id
    ensures forall k, l :: 0 <= k < l < |JoinAll(db, rows)| ==> JoinAll(db, rows)[k].id < JoinAll(db, rows)[l].id
  {
    if rows != [] {
      var tail := rows[1..];
      JoinAllKeepsOrder(db, tail);
      JoinAllIdsAbove(db, tail, rows[0].id);
      var rest := JoinAll(db, tail);
      var out := JoinAll(db, rows);
      assert out == rest || (|out| == |rest| + 1 && out[1..] == rest && out[0].id == rows[0].id);
    }
  }

  /** Rows whose ids all exceed a bound join to records whose ids all exceed it. */
  lemma {:induction false} JoinAllIdsAbove(db: Db, rows: seq<InscriptionRec>, bound: int)
    requires forall i :: 0 <= i < |rows| ==> bound < rows[i].id
    ensures forall k :: 0 <= k < |JoinAll(db, rows)| ==> bound < JoinAll(db, rows)[k].id
  {
    if rows != [] {
      JoinAllIdsAbove(db, rows[1..], bound);
    }
  }

  /** The listing: the scan's error, or every inscription whose user and activity both still exist. */
  method GetAllInscriptions(db: Db, scanError: Option<string>) returns (r: Result<seq<Inscripcion>, string>)
    ensures scanError.Some? ==> r == Failure(scanError.value)
    ensures scanError.None? ==> r == Success(JoinAll(db, db.inscriptions))
  {
    if scanError.Some? {
      return Failure(scanError.value);
    }
    var rows := db.inscriptions;
    var result: seq<Inscripcion> := [];
    var i := 0;
    while i < |rows|
      invariant 0 <= i <= |rows|
      invariant result == JoinAll(db, rows[..i])
    {
      var row := rows[i];
      assert rows[..i + 1] == rows[..i] + [row];
      JoinAllAppend(db, rows[..i], row);
      if row.usuarioId in db.users && row.actividadId in db.activities {
        var user := db.users[row.usuarioId];
        var activity := db.activities[row.actividadId];
        result := result + [Inscripcion(row.id, row.usuarioId, row.actividadId, PublicUserOf(user), ActivityOf(activity))];
      }
      i := i + 1;
    }
    assert rows[..i] == rows;
    return Success(result);
  }
}

=== FILE: json.dfy ===
/**
 * The JSON values the client stores and reads back (`JSON.stringify` / `JSON.parse`): flat
 * objects whose properties are null, booleans, integers or strings. `Parse` is partial: text
 * outside this grammar is the `SyntaxError` branch of `JSON.parse`.
 */
module Json {
  import opened Wrappers
  import opened Decimal
  import opened Props
  import opened Text

  datatype Prim = Null | Bool(b: bool) | Num(n: int) | Str(s: string)

  type Fields = Object<Prim>

  datatype Json = Scalar(p: Prim) | Obj(fields: Fields)

  /** JavaScript truthiness of a primitive (`null`, `false`, `0` and `""` are falsy). */
  predicate Truthy(p: Prim) {
    match p
    case Null => false
    case Bool(b) => b
    case Num(n) => n != 0
    case Str(s) => s != ""
  }

  /** Truthiness of a property read, where `None` is `undefined`. */
  predicate TruthyValue(v: Option<Prim>) {
    v.Some? && Truthy(v.value)
  }

  /** Truthiness of a whole value: every object is truthy. */
  predicate JsonTruthy(j: Json) {
    j.Obj? || Truthy(j.p)
  }

  /** `String(v)`, the text `localStorage.setItem` stores for a value. */
  function ToJsString(v: Option<Prim>): string {
    match v
    case None => "undefined"
    case Some(Null) => "null"
    case Some(Bool(b)) => if b then "true" else "false"
    case Some(Num(n)) => IntToString(n)
    case Some(Str(s)) => s
  }

  // ---------------------------------------------------------------- characters

  /** The four characters JSON allows between tokens. */
  predicate IsJsonSpace(c: char) {
    c == ' ' || c == '\t' || c == '\n' || c == '\r'
  }

  predicate AllSpace(s: string) {
    forall i :: 0 <= i < |s| ==> IsJsonSpace(s[i])
  }

  /** U+0000 through U+001F: characters a JSON string may not hold unescaped. */
  predicate IsControl(c: char) {
    c < ' '
  }

  predicate NoControl(s: string) {
    forall i :: 0 <= i < |s| ==> !IsControl(s[i])
  }

  /** The value of a hex digit of either case. */
  function HexValue(c: char): (r: Option<nat>)
    ensures r.Some? ==> r.value < 16
    ensures r.Some? <==> IsDigit(c) || 'a' <= c <= 'f' || 'A' <= c <= 'F'
  {
    if IsDigit(c) then Some(c as int - '0' as int)
    else if 'a' <= c <= 'f' then Some(c as int - 'a' as int + 10)
    else if 'A' <= c <= 'F' then Some(c as int - 'A' as int + 10)
    else None
  }

  /** The lower-case hex digit `JSON.stringify` writes in a `\u00XX` escape. */
  function HexDigit(d: nat): (c: char)
    requires d < 16
    ensures HexValue(c) == Some(d)
  {
    if d < 10 then (d + '0' as int) as char else (d - 10 + 'a' as int) as char
  }

  /** The value of the four hex digits of a `\uXXXX` escape. */
  function HexCode(s: string): (r: Option<nat>)
    ensures r.Some? ==> |s| >= 4 && r.value < 0x1_0000
    ensures r.Some? <==> |s| >= 4 && HexValue(s[0]).Some? && HexValue(s[1]).Some?
                                   && HexValue(s[2]).Some? && HexValue(s[3]).Some?
  {
    if |s| < 4 then None
    else
      match (HexValue(s[0]), HexValue(s[1]), HexValue(s[2]), HexValue(s[3]))
      case (Some(a), Some(b), Some(c), Some(d)) =>
        assert (a * 16 + b) * 16 + c <= 0xFFF;
        Some(((a * 16 + b) * 16 + c) * 16 + d)
      case _ => None
  }

  // ---------------------------------------------------------------- writing

  /**
   * How `JSON.stringify` writes one character of a string: `"` and `\` behind a backslash, the
   * five control characters with a short escape by letter, the other control characters as
   * `\u00xx`, everything else as itself.
   */
  function EscapeChar(c: char): (r: string)
    ensures |r| > 0
    ensures r == [c] <==> c != '"' && c != '\\' && !IsControl(c)
  {
    if c == '"' then "\\\""
    else if c == '\\' then "\\\\"
    else if c == '\U{8}' then "\\b"
    else if c == '\U{C}' then "\\f"
    else if c == '\n' then "\\n"
    else if c == '\r' then "\\r"
    else if c == '\t' then "\\t"
    else if IsControl(c) then ['\\', 'u', '0', '0', HexDigit(c as int / 16), HexDigit(c as int % 16)]
    else [c]
  }

  function Escape(s: string): (r: string)
    ensures |r| >= |s|
  {
    if s == [] then [] else EscapeChar(s[0]) + Escape(s[1..])
  }

  function Quote(s: string): (r: string)
    ensures |r| >= 2 && r[0] == '"'
  {
    "\"" + Escape(s) + "\""
  }

  function PrimText(p: Prim): (r: string)
    ensures |r| > 0
    ensures r[0] == 'n' || r[0] == 't' || r[0] == 'f' || r[0] == '"' || r[0] == '-' || IsDigit(r[0])
  {
    match p
    case Null => "null"
    case Bool(b) => if b then "true" else "false"
    case Num(n) => IntToString(n)
    case Str(s) => Quote(s)
  }

  function MemberText(m: (string, Prim)): (r: string)
    ensures |r| > 0 && r[0] == '"'
  {
    Quote(m.0) + ":" + PrimText(m.1)
  }

  function MembersText(fs: seq<(string, Prim)>): (r: string)
    ensures fs != [] <==> r != []
    ensures fs != [] ==> r[0] == '"'
  {
    if fs == [] then ""
    else if |fs| == 1 then MemberText(fs[0])
    else MemberText(fs[0]) + "," + MembersText(fs[1..])
  }

  /** `JSON.stringify`: no whitespace between tokens (`StringifyNoControl`: no raw control character either). */
  function Stringify(j: Json): (r: string)
    ensures |r| > 0 && !IsJsonSpace(r[0])
    ensures j.Obj? <==> r[0] == '{'
  {
    match j
    case Scalar(p) => PrimText(p)
    case Obj(fs) => "{" + MembersText(fs) + "}"
  }

  // ---------------------------------------------------------------- reading

  /** Drops the whitespace JSON allows before and after a token. */
  function SkipSpace(s: string): (r: string)
    ensures |r| <= |s|
    ensures r == [] || !IsJsonSpace(r[0])
  {
    if s != [] && IsJsonSpace(s[0]) then SkipSpace(s[1..]) else s
  }

  /** The character a two-character escape `\x` stands for. */
  function ShortEscape(c: char): Option<char> {
    match c
    case '"' => Some('"')
    case '\\' => Some('\\')
    case '/' => Some('/')
    case 'b' => Some('\U{8}')
    case 'f' => Some('\U{C}')
    case 'n' => Some('\n')
    case 'r' => Some('\r')
    case 't' => Some('\t')
    case _ => None
  }

  /**
   * The characters of a string after its opening quote, through the closing quote. A raw control
   * character, an unknown escape, or a `\u` escape of a UTF-16 surrogate is a `SyntaxError`.
   */
  function ParseStringBody(s: string, acc: string): (r: Option<(string, string)>)
    ensures r.Some? ==> |r.value.1| < |s|
    decreases |s|
  {
    if s == [] || IsControl(s[0]) then None
    else if s[0] == '"' then Some((acc, s[1..]))
    else if s[0] != '\\' then ParseStringBody(s[1..], acc + [s[0]])
    else if |s| < 2 then None
    else if s[1] == 'u' then
      match HexCode(s[2..])
      case None => None
      case Some(v) => if 0xD800 <= v < 0xE000 then None else ParseStringBody(s[6..], acc + [v as char])
    else
      match ShortEscape(s[1])
      case None => None
      case Some(c) => ParseStringBody(s[2..], acc + [c])
  }

  function ParseString(s: string): (r: Option<(string, string)>)
    ensures r.Some? ==> |r.value.1| < |s|
    ensures r.Some? ==> s[0] == '"'
  {
    if |s| > 0 && s[0] == '"' then ParseStringBody(s[1..], "") else None
  }

  /** The number of leading digits of `s`. */
  function DigitRun(s: string): (k: nat)
    ensures k <= |s| && AllDigits(s[..k])
    ensures k < |s| ==> !IsDigit(s[k])
  {
    if s != [] && IsDigit(s[0]) then
      var k := DigitRun(s[1..]) + 1;
      assert s[..k] == [s[0]] + s[1..][..k - 1];
      k
    else 0
  }

  /** An optional minus sign, then `0` or digits not starting with `0`; the text after is returned. */
  function ParseNumber(s: string): (r: Option<(int, string)>)
    ensures r.Some? ==> |r.value.1| < |s|
    ensures r.Some? <==> (|s| > 0 && IsDigit(s[0])) || (|s| > 1 && s[0] == '-' && IsDigit(s[1]))
  {
    var neg := |s| > 0 && s[0] == '-';
    var t := if neg then s[1..] else s;
    if t == [] || !IsDigit(t[0]) then None
    else
      var k := IntegerRun(t);
      var v: int := DigitsValue(t[..k]);
      Some((if neg then -v else v, t[k..]))
  }

  /** The digits of an unsigned integer at the front of `t`: a lone `0`, or a run not starting with `0`. */
  function IntegerRun(t: string): (k: nat)
    requires t != [] && IsDigit(t[0])
    ensures 0 < k <= |t| && AllDigits(t[..k])
  {
    if t[0] == '0' then 1 else DigitRun(t)
  }

  function ParsePrim(s: string): (r: Option<(Prim, string)>)
    ensures r.Some? ==> |r.value.1| < |s|
  {
    if HasPrefix(s, "null") then Some((Null, s[4..]))
    else if HasPrefix(s, "true") then Some((Bool(true), s[4..]))
    else if HasPrefix(s, "false") then Some((Bool(false), s[5..]))
    else if |s| > 0 && s[0] == '"' then
      match ParseString(s)
      case Some((x, rest)) => Some((Str(x), rest))
      case None => None
    else
      match ParseNumber(s)
      case Some((n, rest)) => Some((Num(n), rest))
      case None => None
  }

  /** One `"key": value` member and the whitespace after it. */
  function ParseMember(s: string): (r: Option<((string, Prim), string)>)
    ensures r.Some? ==> |r.value.1| < |s|
    ensures r.Some? ==> r.value.1 == [] || !IsJsonSpace(r.value.1[0])
  {
    match ParseString(s)
    case None => None
    case Some((k, r1)) =>
      var c := SkipSpace(r1);
      if |c| > 0 && c[0] == ':' then
        match ParsePrim(SkipSpace(c[1..]))
        case None => None
        case Some((v, r2)) => Some(((k, v), SkipSpace(r2)))
      else None
  }

  /** The members of an object after its `{`, through the closing `}`; a repeated key keeps the last value. */
  function ParseMembers(s: string, acc: Fields): (r: Option<(Fields, string)>)
    ensures r.Some? ==> |r.value.1| < |s|
    decreases |s|
  {
    match ParseMember(s)
    case None => None
    case Some((m, r2)) =>
      if |r2| > 0 && r2[0] == ',' then ParseMembers(SkipSpace(r2[1..]), Put(acc, m.0, m.1))
      else if |r2| > 0 && r2[0] == '}' then Some((Put(acc, m.0, m.1), r2[1..]))
      else None
  }

  function ParseValue(s: string): (r: Option<(Json, string)>)
    ensures r.Some? ==> |r.value.1| < |s|
  {
    if |s| > 0 && s[0] == '{' then
      var t := SkipSpace(s[1..]);
      if |t| > 0 && t[0] == '}' then Some((Obj([]), t[1..]))
      else
        match ParseMembers(t, [])
        case Some((fs, rest)) => Some((Obj(fs), rest))
        case None => None
    else
      match ParsePrim(s)
      case Some((p, rest)) => Some((Scalar(p), rest))
      case None => None
  }

  /**
   * `JSON.parse`: one value with optional whitespace around it. `None` is the thrown `SyntaxError`,
   * which is also what empty or all-blank text gives.
   */
  function Parse(s: string): (r: Option<Json>)
    ensures AllSpace(s) ==> r.None?
  {
    SkipSpaceBlank(s);
    match ParseValue(SkipSpace(s))
    case Some((j, rest)) => if SkipSpace(rest) == [] then Some(j) else None
    case None => None
  }

  lemma {:induction false} SkipSpaceOver(w: string, t: string)
    requires AllSpace(w)
    requires t == [] || !IsJsonSpace(t[0])
    ensures SkipSpace(w + t) == t
  {
    if w == [] {
      assert w + t == t;
    } else {
      assert (w + t)[1..] == w[1..] + t;
      SkipSpaceOver(w[1..], t);
    }
  }

  lemma SkipSpaceBlank(s: string)
    ensures AllSpace(s) ==> SkipSpace(s) == []
  {
    if AllSpace(s) {
      SkipSpaceOver(s, []);
      assert s + [] == s;
    }
  }

  /** What `SkipSpace` drops is a run of whitespace at the front, and only that. */
  lemma {:induction false} SkipSpaceDropsSpace(s: string)
    ensures var r := SkipSpace(s); r == s[|s| - |r|..] && AllSpace(s[..|s| - |r|])
  {
    if s != [] && IsJsonSpace(s[0]) {
      var r := SkipSpace(s[1..]);
      SkipSpaceDropsSpace(s[1..]);
      assert s[1..][|s| - 1 - |r|..] == s[|s| - |r|..];
      assert forall i :: 1 <= i < |s| - |r| ==> s[i] == s[1..][..|s| - 1 - |r|][i - 1];
    } else {
      assert s[..0] == [];
    }
  }

  // ---------------------------------------------------------------- no raw control characters

  lemma NoControlAppend(a: string, b: string)
    requires NoControl(a) && NoControl(b)
    ensures NoControl(a + b)
  {
    assert forall i :: |a| <= i < |a + b| ==> (a + b)[i] == b[i - |a|];
  }

  lemma EscapeCharNoControl(c: char)
    ensures NoControl(EscapeChar(c))
  {
  }

  lemma {:induction false} EscapeNoControl(x: string)
    ensures NoControl(Escape(x))
  {
    if x != [] {
      EscapeCharNoControl(x[0]);
      EscapeNoControl(x[1..]);
      NoControlAppend(EscapeChar(x[0]), Escape(x[1..]));
    }
  }

  lemma PrimTextNoControl(p: Prim)
    ensures NoControl(PrimText(p))
  {
    match p
    case Str(x) =>
      EscapeNoControl(x);
      NoControlAppend("\"", Escape(x));
      NoControlAppend("\"" + Escape(x), "\"");
    case Num(n) =>
      var d := NatToString(if n < 0 then -n else n);
      assert forall i :: 0 <= i < |d| ==> IsDigit(d[i]);
      if n < 0 {
        NoControlAppend("-", d);
      }
    case _ =>
  }

  lemma MemberTextNoControl(m: (string, Prim))
    ensures NoControl(MemberText(m))
  {
    PrimTextNoControl(Str(m.0));
    PrimTextNoControl(m.1);
    NoControlAppend(Quote(m.0), ":");
    NoControlAppend(Quote(m.0) + ":", PrimText(m.1));
  }

  lemma {:induction false} MembersTextNoControl(fs: seq<(string, Prim)>)
    ensures NoControl(MembersText(fs))
  {
    if fs != [] {
      MemberTextNoControl(fs[0]);
      if |fs| > 1 {
        MembersTextNoControl(fs[1..]);
        NoControlAppend(MemberText(fs[0]), ",");
        NoControlAppend(MemberText(fs[0]) + ",", MembersText(fs[1..]));
      }
    }
  }

  /** `JSON.stringify` never writes a raw control character: every one inside a string is escaped. */
  lemma StringifyNoControl(j: Json)
    ensures NoControl(Stringify(j))
  {
    match j
    case Scalar(p) => PrimTextNoControl(p);
    case Obj(fs) =>
      MembersTextNoControl(fs);
      NoControlAppend("{", MembersText(fs));
      NoControlAppend("{" + MembersText(fs), "}");
  }

  // ---------------------------------------------------------------- round trip

  /** Reading back the escape of one character gives that character. */
  lemma EscapeCharRead(c: char, tail: string, acc: string)
    ensures ParseStringBody(EscapeChar(c) + tail, acc) == ParseStringBody(tail, acc + [c])
  {
    var e := EscapeChar(c);
    var s := e + tail;
    if |e| == 1 {
      assert s[1..] == tail;
    } else if |e| == 2 {
      assert s[2..] == tail;
    } else {
      var v := c as int;
      var h := s[2..];
      assert h[..4] == ['0', '0', HexDigit(v / 16), HexDigit(v % 16)];
      assert HexCode(h) == Some(v);
      assert s[6..] == tail;
    }
  }

  lemma {:induction false} ParseStringBodyOfEscape(x: string, acc: string, rest: string)
    ensures ParseStringBody(Escape(x) + "\"" + rest, acc) == Some((acc + x, rest))
  {
    if x == [] {
      ParseStringBodyClose(acc, rest);
      assert acc + x == acc;
    } else {
      var tail := Escape(x[1..]) + "\"" + rest;
      Regroup(EscapeChar(x[0]), Escape(x[1..]), "\"");
      Regroup(EscapeChar(x[0]), Escape(x[1..]) + "\"", rest);
      EscapeCharRead(x[0], tail, acc);
      ParseStringBodyOfEscape(x[1..], acc + [x[0]], rest);
      ShiftFirst(acc, x);
    }
  }

  lemma ParseStringBodyClose(acc: string, rest: string)
    ensures ParseStringBody(Escape([]) + "\"" + rest, acc) == Some((acc, rest))
  {
    var s := "\"" + rest;
    assert Escape([]) + "\"" + rest == s;
    assert s[1..] == rest;
  }

  lemma ParseStringOfQuote(x: string, rest: string)
    ensures ParseString(Quote(x) + rest) == Some((x, rest))
  {
    var s := Quote(x) + rest;
    assert s[1..] == Escape(x) + "\"" + rest;
    ParseStringBodyOfEscape(x, "", rest);
    assert "" + x == x;
  }

  lemma {:induction false} DigitRunAppend(d: string, rest: string)
    requires AllDigits(d)
    requires rest == [] || !IsDigit(rest[0])
    ensures DigitRun(d + rest) == |d|
  {
    if d != [] {
      assert (d + rest)[1..] == d[1..] + rest;
      DigitRunAppend(d[1..], rest);
    }
  }

  /** Text that cannot continue a number: the end, or a character that is not a digit. */
  predicate Delimited(rest: string) {
    rest == [] || !IsDigit(rest[0])
  }

  lemma ParseNumberOfIntToString(n: int, rest: string)
    requires Delimited(rest)
    ensures ParseNumber(IntToString(n) + rest) == Some((n, rest))
  {
    var m: nat := if n < 0 then -n else n;
    var t := NatToString(m) + rest;
    var s := IntToString(n) + rest;
    IntegerRunOfNatToString(m, rest);
    if n < 0 {
      assert s == "-" + t;
      assert s[1..] == t;
    } else {
      assert s == t;
    }
  }

  lemma IntegerRunOfNatToString(m: nat, rest: string)
    requires Delimited(rest)
    ensures var d, t := NatToString(m), NatToString(m) + rest;
            IsDigit(t[0]) && IntegerRun(t) == |d| && DigitsValue(t[..|d|]) == m && t[|d|..] == rest
  {
    var d := NatToString(m);
    var t := d + rest;
    DigitsValueOfNatToString(m);
    assert t[0] == d[0];
    assert t[..|d|] == d;
    assert t[|d|..] == rest;
    if d[0] != '0' {
      DigitRunAppend(d, rest);
    }
  }

  lemma ParsePrimOfPrimText(p: Prim, rest: string)
    requires Delimited(rest)
    ensures ParsePrim(PrimText(p) + rest) == Some((p, rest))
  {
    match p
    case Null => ParseLiteral("null", Null, rest);
    case Bool(b) =>
      if b {
        ParseLiteral("true", Bool(true), rest);
      } else {
        ParseLiteral("false", Bool(false), rest);
      }
    case Num(n) => ParsePrimNum(n, rest);
    case Str(x) => ParsePrimStr(x, rest);
  }

  lemma ParseLiteral(lit: string, p: Prim, rest: string)
    requires (lit, p) == ("null", Null) || (lit, p) == ("true", Bool(true)) || (lit, p) == ("false", Bool(false))
    ensures ParsePrim(lit + rest) == Some((p, rest))
  {
    var s := lit + rest;
    assert s[..|lit|] == lit;
    assert s[|lit|..] == rest;
    if lit == "false" {
      assert s[..4] == "fals";
    }
  }

  lemma ParsePrimNum(n: int, rest: string)
    requires Delimited(rest)
    ensures ParsePrim(IntToString(n) + rest) == Some((Num(n), rest))
  {
    var s := IntToString(n) + rest;
    var t := IntToString(n);
    assert t[0] == '-' || IsDigit(t[0]);
    assert s[0] == t[0];
    assert !HasPrefix(s, "null") && !HasPrefix(s, "true") && !HasPrefix(s, "false") by {
      if |s| >= 4 {
        assert s[..4][0] == s[0];
      }
    }
    ParseNumberOfIntToString(n, rest);
  }

  lemma ParsePrimStr(x: string, rest: string)
    ensures ParsePrim(Quote(x) + rest) == Some((Str(x), rest))
  {
    var s := Quote(x) + rest;
    assert s[0] == '"';
    assert !HasPrefix(s, "null") && !HasPrefix(s, "true") && !HasPrefix(s, "false") by {
      if |s| >= 4 {
        assert s[..4][0] == s[0];
      }
    }
    ParseStringOfQuote(x, rest);
  }

  /** A member followed by the comma or brace that ends it. */
  lemma ParseMemberOfMemberText(m: (string, Prim), after: string)
    requires |after| > 0 && (after[0] == ',' || after[0] == '}')
    ensures ParseMember(MemberText(m) + after) == Some((m, after))
  {
    assert MemberText(m) + after == Quote(m.0) + ([] + (":" + ([] + (PrimText(m.1) + ([] + after)))));
    ParseMemberSpaced(m, [], [], [], after);
  }

  /** A member with whitespace around its colon and after its value, as other writers may leave it. */
  lemma ParseMemberSpaced(m: (string, Prim), w1: string, w2: string, w3: string, after: string)
    requires AllSpace(w1) && AllSpace(w2) && AllSpace(w3)
    requires |after| > 0 && (after[0] == ',' || after[0] == '}')
    ensures ParseMember(Quote(m.0) + (w1 + (":" + (w2 + (PrimText(m.1) + (w3 + after))))))
         == Some((m, after))
  {
    var value := PrimText(m.1) + (w3 + after);
    var colon := ":" + (w2 + value);
    ParseStringOfQuote(m.0, w1 + colon);
    SkipSpaceOver(w1, colon);
    assert colon[1..] == w2 + value;
    SkipSpaceOver(w2, value);
    ParsePrimOfPrimText(m.1, w3 + after);
    SkipSpaceOver(w3, after);
  }

  lemma ParseMembersStep(s: string, acc: Fields, m: (string, Prim), r2: string)
    requires ParseMember(s) == Some((m, r2))
    ensures |r2| > 0 && r2[0] == ',' ==> ParseMembers(s, acc) == ParseMembers(SkipSpace(r2[1..]), Put(acc, m.0, m.1))
    ensures |r2| > 0 && r2[0] == '}' ==> ParseMembers(s, acc) == Some((Put(acc, m.0, m.1), r2[1..]))
  {
  }

  /** The last member of an object text, followed by the closing brace. */
  lemma ParseMembersLast(m: (string, Prim), acc: Fields, rest: string)
    requires m.0 !in Keys(acc)
    ensures ParseMembers(MemberText(m) + "}" + rest, acc) == Some((Put(acc, m.0, m.1), rest))
  {
    var after := "}" + rest;
    assert MemberText(m) + "}" + rest == MemberText(m) + after;
    ParseMemberOfMemberText(m, after);
    ParseMembersStep(MemberText(m) + after, acc, m, after);
    assert after[1..] == rest;
  }

  /** A member followed by a comma: the parser records it and goes on after the comma. */
  lemma ParseMembersNext(m: (string, Prim), acc: Fields, more: string)
    requires more == [] || !IsJsonSpace(more[0])
    ensures ParseMembers(MemberText(m) + "," + more, acc) == ParseMembers(more, Put(acc, m.0, m.1))
  {
    var after := "," + more;
    assert MemberText(m) + "," + more == MemberText(m) + after;
    ParseMemberOfMemberText(m, after);
    ParseMembersStep(MemberText(m) + after, acc, m, after);
    assert after[1..] == more;
  }

  /** The text of two or more members is the first member, a comma, and the text of the rest. */
  lemma MembersTextCons(fs: seq<(string, Prim)>, rest: string)
    requires |fs| > 1
    ensures MembersText(fs) + "}" + rest == MemberText(fs[0]) + "," + (MembersText(fs[1..]) + "}" + rest)
  {
    var head, tail := MemberText(fs[0]) + ",", MembersText(fs[1..]);
    assert MembersText(fs) == head + tail;
    Regroup(head + tail, "}", rest);
    Regroup(head, tail, "}" + rest);
    Regroup(tail, "}", rest);
  }

  lemma Regroup<T>(a: seq<T>, b: seq<T>, c: seq<T>)
    ensures (a + b) + c == a + (b + c)
  {
  }

  /** Moving the first element of `b` to the end of `a` keeps the concatenation. */
  lemma ShiftFirst<T>(a: seq<T>, b: seq<T>)
    requires b != []
    ensures (a + [b[0]]) + b[1..] == a + b
  {
    assert b == [b[0]] + b[1..];
  }

  lemma {:induction false} ParseMembersOfMembersText(fs: seq<(string, Prim)>, acc: Fields, rest: string)
    requires fs != []
    requires UniqueKeys(acc + fs)
    ensures ParseMembers(MembersText(fs) + "}" + rest, acc) == Some((acc + fs, rest))
    decreases |fs|
  {
    UniqueSplit(acc, fs);
    var next: Fields := acc + [fs[0]];
    assert Put(acc, fs[0].0, fs[0].1) == next;
    if |fs| == 1 {
      assert MembersText(fs) == MemberText(fs[0]);
      ParseMembersLast(fs[0], acc, rest);
      assert acc + fs == next by { assert fs == [fs[0]]; }
    } else {
      var more := MembersText(fs[1..]) + "}" + rest;
      assert more[0] == '"';
      MembersTextCons(fs, rest);
      ParseMembersNext(fs[0], acc, more);
      ShiftFirst(acc, fs);
      ParseMembersOfMembersText(fs[1..], next, rest);
    }
  }

  lemma {:induction false} UniqueSplit(acc: seq<(string, Prim)>, fs: seq<(string, Prim)>)
    requires fs != []
    requires UniqueKeys(acc + fs)
    ensures UniqueKeys(acc)
    ensures fs[0].0 !in Keys(acc)
    ensures UniqueKeys(acc + [fs[0]])
  {
    if acc == [] {
      assert acc + fs == fs;
      assert [fs[0]][1..] == [];
    } else {
      assert (acc + fs)[1..] == acc[1..] + fs;
      UniqueSplit(acc[1..], fs);
      KeysAppend(acc[1..], fs);
      KeysAppend(acc[1..], [fs[0]]);
      assert (acc + [fs[0]])[1..] == acc[1..] + [fs[0]];
    }
  }

  lemma {:induction false} KeysAppend(a: seq<(string, Prim)>, b: seq<(string, Prim)>)
    ensures Keys(a + b) == Keys(a) + Keys(b)
  {
    if a != [] {
      assert (a + b)[1..] == a[1..] + b;
      KeysAppend(a[1..], b);
    } else {
      assert a + b == b;
    }
  }

  /** The text of a value, followed by anything that cannot continue a number, reads back as that value. */
  lemma ParseValueOfStringify(j: Json, rest: string)
    requires Delimited(rest)
    ensures ParseValue(Stringify(j) + rest) == Some((j, rest))
  {
    match j
    case Scalar(p) => ParseValueOfPrimText(p, rest);
    case Obj(fs) => ParseValueOfObjectText(fs, rest);
  }

  lemma ParseValueOfPrimText(p: Prim, rest: string)
    requires Delimited(rest)
    ensures ParseValue(PrimText(p) + rest) == Some((Scalar(p), rest))
  {
    assert (PrimText(p) + rest)[0] == PrimText(p)[0];
    ParsePrimOfPrimText(p, rest);
  }

  lemma ParseValueOfObjectText(fs: Fields, rest: string)
    ensures ParseValue(Stringify(Obj(fs)) + rest) == Some((Obj(fs), rest))
  {
    if fs == [] {
      ParseValueOfEmptyObject(rest);
    } else {
      var t := MembersText(fs) + "}" + rest;
      assert Stringify(Obj(fs)) + rest == "{" + t;
      ParseObjectMembers(fs, rest);
      ParseValueOfMembers(t, fs, rest);
    }
  }

  lemma ParseValueOfEmptyObject(rest: string)
    ensures ParseValue("{}" + rest) == Some((Obj([]), rest))
  {
    var s := "{}" + rest;
    assert s[1..] == "}" + rest;
    assert s[1..][1..] == rest;
  }

  lemma ParseObjectMembers(fs: Fields, rest: string)
    requires fs != []
    ensures ParseMembers(MembersText(fs) + "}" + rest, []) == Some((fs, rest))
  {
    assert [] + fs == fs;
    ParseMembersOfMembersText(fs, [], rest);
  }

  /** An object whose first member starts right after the brace. */
  lemma ParseValueOfMembers(t: string, fs: Fields, rest: string)
    requires t != [] && t[0] == '"'
    requires ParseMembers(t, []) == Some((fs, rest))
    ensures ParseValue("{" + t) == Some((Obj(fs), rest))
  {
    var s := "{" + t;
    assert s[1..] == t;
    assert SkipSpace(t) == t;
    assert !(t[0] == '}');
  }

  /** `JSON.parse` reads past whitespace around the text `JSON.stringify` wrote and gives the value back. */
  lemma ParseSpaced(j: Json, before: string, after: string)
    requires AllSpace(before) && AllSpace(after)
    ensures Parse(before + Stringify(j) + after) == Some(j)
  {
    var text := Stringify(j);
    assert before + text + after == before + (text + after);
    assert (text + after)[0] == text[0];
    SkipSpaceOver(before, text + after);
    ParseValueOfStringify(j, after);
    SkipSpaceOver(after, []);
    assert after + [] == after;
  }

  /** `JSON.parse(JSON.stringify(v))` gives `v` back, for every value of the model. */
  lemma ParseStringify(j: Json)
    ensures Parse(Stringify(j)) == Some(j)
  {
    ParseSpaced(j, [], []);
    assert [] + Stringify(j) + [] == Stringify(j);
  }

  // ---------------------------------------------------------------- examples

  /** Text another writer spaced out is read like the compact form. */
  lemma ParseSpacedMemberExample()
    ensures Parse("{\"id\": 1}") == Some(Obj([("id", Num(1))]))
  {
    var m := ("id", Num(1));
    assert Escape("id") == "id";
    assert "{\"id\": 1}" == "{" + (Quote(m.0) + ([] + (":" + (" " + (PrimText(m.1) + ([] + "}"))))));
    ParseOneMemberObject(m, [], " ", []);
  }

  /** An object of one member with whitespace inside reads as that member. */
  lemma ParseOneMemberObject(m: (string, Prim), w1: string, w2: string, w3: string)
    requires AllSpace(w1) && AllSpace(w2) && AllSpace(w3)
    ensures Parse("{" + (Quote(m.0) + (w1 + (":" + (w2 + (PrimText(m.1) + (w3 + "}")))))))
         == Some(Obj(Put([], m.0, m.1)))
    ensures Put([], m.0, m.1) == [m]
  {
    var t := Quote(m.0) + (w1 + (":" + (w2 + (PrimText(m.1) + (w3 + "}")))));
    var s := "{" + t;
    assert s[1..] == t;
    ParseMemberSpaced(m, w1, w2, w3, "}");
    ParseMembersStep(t, [], m, "}");
    assert "}"[1..] == [];
    assert Put([], m.0, m.1) == [m];
  }

  /** A number may not start with a redundant zero. */
  lemma ParseRejectsLeadingZero()
    ensures Parse("01") == None
  {
    assert "01"[..1] == "0";
    assert "01"[1..] == "1";
  }

  /** A line break inside a string must be escaped. */
  lemma ParseRejectsRawNewline()
    ensures Parse("\"a\nb\"") == None
  {
    assert "\"a\nb\""[1..] == "a\nb\"";
    assert "a\nb\""[1..] == "\nb\"";
  }

  /** A line break is written as `\n` and read back. */
  lemma StringifyEscapesNewline()
    ensures Stringify(Scalar(Str("a\nb"))) == "\"a\\nb\""
    ensures Parse("\"a\\nb\"") == Some(Scalar(Str("a\nb")))
  {
    EscapeNewline();
    ParseStringify(Scalar(Str("a\nb")));
  }

  lemma EscapeNewline()
    ensures Escape("a\nb") == "a\\nb"
  {
    var x := "a\nb";
    assert EscapeChar(x[1]) == "\\n";
    assert Escape(x[2..]) == "b";
    assert Escape(x) == "a" + ("\\n" + "b");
  }

  /** `JSON.parse("undefined")` throws: the decoder is partial. */
  lemma ParseRejectsUndefinedText()
    ensures Parse("undefined") == None
  {
    assert DigitRun("undefined") == 0;
  }
}

=== FILE: jwt.dfy ===
/**
 * Token issue and the two request guards. Signing and verification (HS256, expiry, not-before)
 * are oracles passed in; what is modelled is which claims a token carries and what the guards
 * decide from a verified token's claims, in the order they decide it.
 */
module Jwt {
  import opened Wrappers
  import opened Store
  import opened Text
  import Decimal

  const Issuer := "backend"
  const Subject := "auth"
  const BearerPrefix := "Bearer "
  const UserIdKey := "user_id"
  const IsAdminKey := "is_admin"

  const NoToken := "Token no proporcionado o inválido"
  const BadToken := "Token inválido"
  const BadClaims := "Claims inválidos"
  const BadUserId := "ID de usuario inválido en token"
  const NoUserId := "ID de usuario no encontrado en token"
  const LookupFailed := "Error al obtener información del usuario"
  const AdminRequired := "Acceso denegado. Se requiere rol de administrador."

  /** The registered claims a token is issued with; the token id (`jti`) carries the user id. */
  datatype Claims = Claims(issuer: string, subject: string, id: string)

  /** A claim value as the verifier decodes it. */
  datatype ClaimValue = ClaimString(s: string) | ClaimNumber(n: int) | ClaimOther

  /** The verification oracle's answer: invalid, valid with claims of another shape, or a claim map. */
  datatype Verdict = Invalid | OtherClaims | MapClaims(claims: map<string, ClaimValue>)

  /** A request-context value. */
  datatype CtxValue = CtxInt(i: int) | CtxBool(b: bool)

  /** What a guard does with the request: abort it with a status and message, or pass it on. */
  datatype Decision = Abort(status: int, message: string, keys: map<string, CtxValue>) | Next(keys: map<string, CtxValue>)

  /** The claims issued for a user. */
  function ClaimsFor(userId: int): (c: Claims)
    ensures c.issuer == Issuer && c.subject == Subject
    ensures Decimal.MinInt64 <= userId <= Decimal.MaxInt64 ==> Decimal.Atoi(c.id) == Some(userId)
  {
    if Decimal.MinInt64 <= userId <= Decimal.MaxInt64 then
      Decimal.AtoiOfIntToString(userId);
      Claims(Issuer, Subject, Decimal.IntToString(userId))
    else
      Claims(Issuer, Subject, Decimal.IntToString(userId))
  }

  /** How the issued claims read back once the token is verified. */
  function ClaimMap(c: Claims): map<string, ClaimValue> {
    map["iss" := ClaimString(c.issuer), "sub" := ClaimString(c.subject), "jti" := ClaimString(c.id)]
  }

  /** `GenerateJWT`: sign the user's claims; a signing failure is wrapped. */
  function GenerateJWT(userId: int, sign: Claims -> Result<string, string>): (r: Result<string, string>)
    ensures sign(ClaimsFor(userId)).Failure? ==> r == Failure("error signing token: " + sign(ClaimsFor(userId)).error)
    ensures sign(ClaimsFor(userId)).Success? ==> r == sign(ClaimsFor(userId))
  {
    match sign(ClaimsFor(userId))
    case Failure(e) => Failure("error signing token: " + e)
    case Success(token) => Success(token)
  }

  /** The token in an `Authorization` header: `None` unless the header starts with the Bearer prefix. */
  function BearerToken(header: string): (r: Option<string>)
    ensures r.Some? <==> HasPrefix(header, BearerPrefix)
    ensures r.Some? ==> BearerPrefix + r.value == header
  {
    if header == "" || !HasPrefix(header, BearerPrefix) then None
    else Some(TrimPrefix(header, BearerPrefix))
  }

  /**
   * The stages before the user lookup: header, verification, claim shape, `jti`, decimal parse.
   * A failure is the 401 message of the first stage that refuses.
   */
  function ClaimedUserId(header: string, verify: string -> Verdict): (r: Result<int, string>)
    ensures !HasPrefix(header, BearerPrefix) ==> r == Failure(NoToken)
    ensures HasPrefix(header, BearerPrefix) && verify(header[|BearerPrefix|..]) == Invalid ==> r == Failure(BadToken)
    ensures HasPrefix(header, BearerPrefix) && verify(header[|BearerPrefix|..]) == OtherClaims ==> r == Failure(BadClaims)
    ensures r.Failure? ==> r.error in {NoToken, BadToken, BadClaims, NoUserId, BadUserId}
    ensures HasPrefix(header, BearerPrefix) && verify(header[|BearerPrefix|..]).MapClaims?
            && !("jti" in verify(header[|BearerPrefix|..]).claims
                 && verify(header[|BearerPrefix|..]).claims["jti"].ClaimString?)
            ==> r == Failure(NoUserId)
    ensures HasPrefix(header, BearerPrefix) && verify(header[|BearerPrefix|..]).MapClaims?
            && "jti" in verify(header[|BearerPrefix|..]).claims
            && verify(header[|BearerPrefix|..]).claims["jti"].ClaimString?
            && Decimal.Atoi(verify(header[|BearerPrefix|..]).claims["jti"].s).None?
            ==> r == Failure(BadUserId)
    ensures r.Success? <==>
              && HasPrefix(header, BearerPrefix)
              && verify(header[|BearerPrefix|..]).MapClaims?
              && "jti" in verify(header[|BearerPrefix|..]).claims
              && verify(header[|BearerPrefix|..]).claims["jti"].ClaimString?
              && Decimal.Atoi(verify(header[|BearerPrefix|..]).claims["jti"].s).Some?
    ensures r.Success? ==> Decimal.Atoi(verify(header[|BearerPrefix|..]).claims["jti"].s) == Some(r.value)
  {
    match BearerToken(header)
    case None => Failure(NoToken)
    case Some(token) =>
      assert token == header[|BearerPrefix|..];
      match verify(token)
      case Invalid => Failure(BadToken)
      case OtherClaims => Failure(BadClaims)
      case MapClaims(claims) =>
        if "jti" !in claims || !claims["jti"].ClaimString? then Failure(NoUserId)
        else match Decimal.Atoi(claims["jti"].s)
          case None => Failure(BadUserId)
          case Some(id) => Success(id)
  }

  /**
   * `JwtAuthMiddleware`: 401 for every token problem; the user id is stored before the lookup,
   * so a failed lookup aborts with 500 but leaves the id behind; success adds the admin flag.
   */
  function JwtAuth(header: string, verify: string -> Verdict, db: Db, keys: map<string, CtxValue>): (r: Decision)
    ensures ClaimedUserId(header, verify).Failure? ==> r == Abort(401, ClaimedUserId(header, verify).error, keys)
    ensures r.Abort? ==> r.status == 401 || r.status == 500
    ensures r.Abort? && r.status == 500 <==>
              ClaimedUserId(header, verify).Success? && ClaimedUserId(header, verify).value !in db.users
    ensures r.Abort? && r.status == 500 ==> r.keys == keys[UserIdKey := CtxInt(ClaimedUserId(header, verify).value)]
    ensures r.Abort? && r.status == 500 ==> r.message == LookupFailed
    ensures r.Next? <==> ClaimedUserId(header, verify).Success? && ClaimedUserId(header, verify).value in db.users
    ensures r.Next? ==> r.keys == keys[UserIdKey := CtxInt(ClaimedUserId(header, verify).value)]
                                      [IsAdminKey := CtxBool(db.users[ClaimedUserId(header, verify).value].isAdmin)]
  {
    match ClaimedUserId(header, verify)
    case Failure(e) => Abort(401, e, keys)
    case Success(id) =>
      var keys1 := keys[UserIdKey := CtxInt(id)];
      match UserById(db, id)
      case None => Abort(500, LookupFailed, keys1)
      case Some(user) => Next(keys1[IsAdminKey := CtxBool(user.isAdmin)])
  }

  /** `AdminAuthMiddleware`: on only when the admin flag is present and is the boolean true. */
  function AdminAuth(keys: map<string, CtxValue>): (r: Decision)
    ensures r.Next? <==> IsAdminKey in keys && keys[IsAdminKey] == CtxBool(true)
    ensures r.Next? ==> r.keys == keys
    ensures r.Abort? ==> r == Abort(403, AdminRequired, keys)
  {
    if IsAdminKey !in keys || keys[IsAdminKey] != CtxBool(true) then Abort(403, AdminRequired, keys)
    else Next(keys)
  }

  /**
   * Issue then check: a token issued for an existing user, which the verifier accepts with the
   * claims it was signed with, passes the guard and identifies that user.
   */
  lemma IssuedTokenPasses(userId: int, sign: Claims -> Result<string, string>, verify: string -> Verdict,
                          db: Db, keys: map<string, CtxValue>)
    requires Decimal.MinInt64 <= userId <= Decimal.MaxInt64 && userId in db.users
    requires GenerateJWT(userId, sign).Success?
    requires verify(GenerateJWT(userId, sign).value) == MapClaims(ClaimMap(ClaimsFor(userId)))
    ensures JwtAuth(BearerPrefix + GenerateJWT(userId, sign).value, verify, db, keys)
            == Next(keys[UserIdKey := CtxInt(userId)][IsAdminKey := CtxBool(db.users[userId].isAdmin)])
  {
    var header := BearerPrefix + GenerateJWT(userId, sign).value;
    assert header[..|BearerPrefix|] == BearerPrefix;
    assert header[|BearerPrefix|..] == GenerateJWT(userId, sign).value;
  }

  /** Behind the token guard, the admin guard lets through exactly the users whose row says admin. */
  lemma AdminBehindJwt(header: string, verify: string -> Verdict, db: Db, keys: map<string, CtxValue>)
    requires JwtAuth(header, verify, db, keys).Next?
    ensures AdminAuth(JwtAuth(header, verify, db, keys).keys).Next?
            <==> db.users[ClaimedUserId(header, verify).value].isAdmin
  {
  }

  /** Without the token guard having run, the admin guard refuses. */
  lemma AdminWithoutJwt()
    ensures AdminAuth(map[]) == Abort(403, AdminRequired, map[])
    ensures AdminAuth(map[IsAdminKey := CtxInt(1)]).Abort?
  {
  }
}

=== FILE: local_storage.dfy ===
/** The browser's `localStorage`, as the client uses it: string keys to string values. */
module LocalStorage {
  import opened Wrappers

  type Storage = map<string, string>

  const TokenKey := "authToken"
  const UserKey := "user"

  /** `getItem`: `None` is `null`, a key that is not there. */
  function GetItem(st: Storage, k: string): (r: Option<string>)
    ensures r.Some? <==> k in st
    ensures r.Some? ==> r.value == st[k]
  {
    if k in st then Some(st[k]) else None
  }

  function SetItem(st: Storage, k: string, v: string): Storage {
    st[k := v]
  }

  function RemoveItem(st: Storage, k: string): Storage {
    st - {k}
  }

  /** JavaScript truthiness of a `getItem` result: `null` and `""` are falsy. */
  predicate Stored(v: Option<string>) {
    v.Some? && v.value != ""
  }

  /** The text `${v}` gives for a `getItem` result: `null` prints as "null". */
  function TemplateText(v: Option<string>): (s: string)
    ensures v.Some? ==> s == v.value
    ensures v.None? ==> s == "null"
  {
    match v
    case None => "null"
    case Some(x) => x
  }
}

=== FILE: login_service.dfy ===
/** The login service: the credential check that issues a token, and registration with a name. */
module LoginService {
  import opened Wrappers
  import opened Store
  import opened Domain
  import opened Passwords
  import Jwt
  import UserService

  const NameEmpty := "name cannot be empty"
  const InvalidPassword := "invalid password"

  /**
   * `Login`: an unknown username and a wrong password fail with different texts; a signing failure
   * fails too; a success copies the user's public fields and carries the issued token.
   */
  function Login(db: Db, username: string, password: string, sign: Jwt.Claims -> Result<string, string>): (r: Result<User, string>)
    ensures UserByUsername(db, username).None?
            ==> r == Failure("user not found with username " + username + ": " + RecordNotFound)
    ensures UserByUsername(db, username).Some? && !VerifyPassword(password, UserByUsername(db, username).value.passwordHash)
            ==> r == Failure(InvalidPassword)
    ensures r.Success? <==> UserByUsername(db, username).Some?
                            && VerifyPassword(password, UserByUsername(db, username).value.passwordHash)
                            && Jwt.GenerateJWT(UserByUsername(db, username).value.id, sign).Success?
    ensures r.Success? ==>
              var rec := UserByUsername(db, username).value;
              && r.value == User(rec.id, rec.name, username, "", rec.isAdmin, Jwt.GenerateJWT(rec.id, sign).value)
  {
    match UserByUsername(db, username)
    case None => Failure("user not found with username " + username + ": " + RecordNotFound)
    case Some(rec) =>
      if rec.passwordHash != HashPassword(password) then Failure(InvalidPassword)
      else match Jwt.GenerateJWT(rec.id, sign)
        case Failure(e) => Failure("failed to generate token: " + e)
        case Success(token) => Success(User(rec.id, rec.name, rec.username, "", rec.isAdmin, token))
  }

  /** The two login failures a caller can tell apart. */
  lemma LoginFailuresDistinct(username: string)
    ensures "user not found with username " + username + ": " + RecordNotFound != InvalidPassword
  {
    var unknown := "user not found with username " + username + ": " + RecordNotFound;
    assert unknown[0] == 'u' && InvalidPassword[0] == 'i';
  }

  /** `CreateUser` of the login service: name, then username, then password must be non-empty; the name is stored. */
  function CreateUser(db: Db, u: User, insertError: Option<string>): (r: Outcome<User>)
    ensures u.name == "" ==> r == Outcome(Failure(NameEmpty), db)
    ensures u.name != "" && u.username == "" ==> r == Outcome(Failure(UserService.UsernameEmpty), db)
    ensures u.name != "" && u.username != "" && u.password == "" ==> r == Outcome(Failure(UserService.PasswordEmpty), db)
    ensures r.result.Failure? ==> r.db == db
    ensures r.result.Success? ==> r.result.value.password == "" && r.result.value.name == u.name
                                  && r.result.value.username == u.username && r.result.value.token == ""
    ensures u.name != "" && u.username != "" && u.password != "" ==> r == UserService.Register(db, u.name, u, insertError)
  {
    if u.name == "" then Outcome(Failure(NameEmpty), db)
    else if u.username == "" then Outcome(Failure(UserService.UsernameEmpty), db)
    else if u.password == "" then Outcome(Failure(UserService.PasswordEmpty), db)
    else UserService.Register(db, u.name, u, insertError)
  }

  /**
   * Register then log in: with the schema kept and a signer that works, the new user logs in with
   * the password given at registration and gets back the registered fields and a token.
   */
  lemma CreateThenLogin(db: Db, u: User, insertError: Option<string>, sign: Jwt.Claims -> Result<string, string>)
    requires Wf(db)
    requires CreateUser(db, u, insertError).result.Success?
    requires Jwt.GenerateJWT(db.nextUserId, sign).Success?
    ensures var r := CreateUser(db, u, insertError);
            Login(r.db, u.username, u.password, sign)
            == Success(r.result.value.(token := Jwt.GenerateJWT(r.result.value.id, sign).value))
  {
    UserService.RegisterThenValidate(db, u.name, u, insertError);
  }

  /** Login and the credential check agree on who may enter; only login hands out a token. */
  lemma LoginAgreesWithValidate(db: Db, username: string, password: string, sign: Jwt.Claims -> Result<string, string>)
    requires Login(db, username, password, sign).Success?
    ensures UserService.ValidateUserCredentials(db, username, password).Success?
    ensures UserService.ValidateUserCredentials(db, username, password).value.token == ""
    ensures Login(db, username, password, sign).value.id == UserService.ValidateUserCredentials(db, username, password).value.id
  {
  }
}

=== FILE: login_view.dfy ===
/** The login form's submit handler: what it does with the server's answer. */
module LoginView {
  import opened Wrappers
  import opened Props
  import opened Json
  import opened LocalStorage
  import Decimal
  import AuthContext

  const BadCredentials := "Credenciales incorrectas"
  const AfterLogin := "/pagina-principal"

  /**
   * The outcome of the request: a non-ok status, a failure before a body was read (network,
   * body not JSON), or an ok body whose `user` property is given (`None` is `undefined`).
   */
  datatype LoginReply = NotOk | Threw | Ok(user: Option<Json>)

  datatype Effect = CallLogin(userData: Fields, token: Option<Prim>) | Navigate(path: string)

  /** The values written to the error message, in order, and the calls made. */
  datatype Attempt = Attempt(errorWrites: seq<string>, effects: seq<Effect>)

  /** The own properties a string spreads into: its characters under the keys "0", "1", …. */
  function CharFields(s: string, from: nat): (r: Fields)
    ensures |r| == |s|
    ensures forall k :: k in Keys(r) ==> Decimal.ParseDecimal(k).Some? && Decimal.ParseDecimal(k).value >= from
  {
    if s == [] then []
    else
      var rest := CharFields(s[1..], from + 1);
      Decimal.ParseDecimalOfIntToString(from);
      var r := [(Decimal.IntToString(from), Str([s[0]]))] + rest;
      assert r[1..] == rest;
      r
  }

  /** `const { token, ...userData } = data.user`: `None` when it throws (`undefined` or `null`). */
  function SplitToken(user: Option<Json>): (r: Option<(Fields, Option<Prim>)>)
    ensures r.None? <==> user.None? || user == Some(Scalar(Null))
    ensures user.Some? && user.value.Obj? ==>
              r == Some((Remove(user.value.fields, "token"), Get(user.value.fields, "token")))
  {
    match user
    case None => None
    case Some(Scalar(Null)) => None
    case Some(Obj(fs)) => Some((Remove(fs, "token"), Get(fs, "token")))
    case Some(Scalar(Str(s))) => Some((CharFields(s, 0), None))
    case Some(Scalar(_)) => Some(([], None))
  }

  /**
   * `handleLogin`: the error is cleared first; any failure sets the one message and calls nothing;
   * a success calls `login` with the user minus its token, then navigates.
   */
  function HandleLogin(reply: LoginReply): (r: Attempt)
    ensures |r.errorWrites| >= 1 && r.errorWrites[0] == ""
    ensures r.effects == [] <==> r.errorWrites == ["", BadCredentials]
    ensures r.effects != [] ==> r.errorWrites == [""]
    ensures r.effects != [] ==> |r.effects| == 2 && r.effects[0].CallLogin? && r.effects[1] == Navigate(AfterLogin)
    ensures r.effects != [] <==> reply.Ok? && SplitToken(reply.user).Some?
    ensures r.effects != [] ==> r.effects[0] == CallLogin(SplitToken(reply.user).value.0, SplitToken(reply.user).value.1)
  {
    match reply
    case NotOk => Attempt(["", BadCredentials], [])
    case Threw => Attempt(["", BadCredentials], [])
    case Ok(user) =>
      match SplitToken(user)
      case None => Attempt(["", BadCredentials], [])
      case Some((userData, token)) => Attempt([""], [CallLogin(userData, token), Navigate(AfterLogin)])
  }

  /** The session after the handler: the `login` call, if made, applied to the provider. */
  function Session(reply: LoginReply, st: AuthContext.AuthState, storage: Storage): (r: (AuthContext.AuthState, Storage))
    ensures HandleLogin(reply).effects == [] ==> r == (st, storage)
    ensures HandleLogin(reply).effects != [] ==>
              var call := HandleLogin(reply).effects[0];
              r == AuthContext.Login(st, storage, call.userData, call.token)
  {
    var attempt := HandleLogin(reply);
    if attempt.effects == [] then (st, storage)
    else AuthContext.Login(st, storage, attempt.effects[0].userData, attempt.effects[0].token)
  }

  /** The token never ends up inside the saved user: it is split off before `login`. */
  lemma TokenNotSavedWithUser(reply: LoginReply, st: AuthContext.AuthState, storage: Storage)
    requires HandleLogin(reply).effects != []
    ensures var (st1, _) := Session(reply, st, storage);
            st1.user.Obj? && Get(st1.user.fields, "token") == None
  {
    var call := HandleLogin(reply).effects[0];
    assert Get(call.userData, "token") == None by {
      var user := reply.user.value;
      if user.Scalar? && user.p.Str? {
        assert "token"[0] == 't';
        assert Decimal.ParseDecimal("token").None?;
      }
    }
    assert "token"[0] != "isAdmin"[0];
    assert Get(AuthContext.UserToSave(call.userData), "token") == None;
  }
}

=== FILE: main_page.dfy ===
/** The main page: which view each section shows, what it loads, and the enrollment messages. */
module MainPage {
  import opened Wrappers
  import opened Props
  import opened Json
  import opened Text
  import opened LocalStorage
  import AuthContext

  const Dashboard := "dashboard"
  const ActivitiesSection := "activities"
  const CreateActivitySection := "create-activity"
  const MyActivitiesSection := "mis-activities"
  const UsersSection := "users"

  const CreateDenied := "Acceso denegado. Solo administradores pueden crear actividades."
  const UsersDenied := "Acceso denegado. Solo administradores pueden ver usuarios."
  const SectionNotFound := "Sección no encontrada"

  /** The content area. The flags say whether the admin-only parts of a view are present. */
  datatype View =
    | Loading
    | DashboardView(showUserCount: bool)
    | ActivitiesView(showCreateButton: bool)
    | CreateForm
    | MyActivitiesView
    | UserListView
    | Denied(message: string)
    | Unknown(message: string)

  /** The viewer is an admin when `isAdmin()` is truthy. */
  predicate Admin(st: AuthContext.AuthState) {
    TruthyValue(AuthContext.IsAdmin(st))
  }

  /** `renderContent`: the page's own loading flag wins over every section; then the section switch. */
  function RenderContent(loading: bool, section: string, admin: bool): (v: View)
    ensures loading ==> v == Loading
    ensures v == CreateForm <==> !loading && section == CreateActivitySection && admin
    ensures v == UserListView <==> !loading && section == UsersSection && admin
    ensures v.Denied? <==> !loading && (section == CreateActivitySection || section == UsersSection) && !admin
    ensures v.Unknown? ==> v.message == SectionNotFound
    ensures v.DashboardView? ==> v.showUserCount == admin
    ensures v.ActivitiesView? ==> v.showCreateButton == admin
  {
    if loading then Loading
    else if section == Dashboard then DashboardView(admin)
    else if section == ActivitiesSection then ActivitiesView(admin)
    else if section == CreateActivitySection then (if !admin then Denied(CreateDenied) else CreateForm)
    else if section == MyActivitiesSection then MyActivitiesView
    else if section == UsersSection then (if !admin then Denied(UsersDenied) else UserListView)
    else Unknown(SectionNotFound)
  }

  datatype Load = NoLoad | LoadActivities | LoadUsers

  /** The effect that runs when the section (or the admin flag) changes. */
  function SectionLoad(section: string, admin: bool): (l: Load)
    ensures l == LoadUsers <==> section == UsersSection && admin
    ensures l == LoadActivities <==> section == ActivitiesSection
  {
    if section == ActivitiesSection then LoadActivities
    else if section == UsersSection && admin then LoadUsers
    else NoLoad
  }

  /** A viewer who is not an admin never sees the form or the user list, and never loads users. */
  lemma NonAdminGated(st: AuthContext.AuthState, loading: bool, section: string)
    requires !Admin(st)
    ensures RenderContent(loading, section, Admin(st)) != CreateForm
    ensures RenderContent(loading, section, Admin(st)) != UserListView
    ensures SectionLoad(section, Admin(st)) != LoadUsers
  {
  }

  /** With nobody signed in, `isAdmin()` is `false`, so every admin part is hidden. */
  lemma SignedOutIsNotAdmin(st: AuthContext.AuthState)
    requires st.user == AuthContext.NoUser
    ensures !Admin(st)
  {
  }

  /** Users are loaded exactly when the (non-loading) page would show them. */
  lemma UsersLoadedIffShown(section: string, admin: bool)
    ensures SectionLoad(section, admin) == LoadUsers <==> RenderContent(false, section, admin) == UserListView
  {
  }

  // ------------------------------------------------------------------ enrollment

  const InscribePrefix := "Error inscribiéndose a la actividad: "
  const AlreadyInscribedText := "Ya estás inscrito en esta actividad"
  const NoSlotsText := "No hay cupos disponibles para esta actividad"
  const NotFoundText := "Usuario o actividad no encontrada"
  const DefaultInscribeError := "Error al procesar la inscripción"
  /** The message of the `TypeError` raised by `.includes` on a missing `error` field. */
  const IncludesOnUndefined := "Cannot read properties of undefined (reading 'includes')"

  /**
   * The answer to the enrollment request: an ok response; a refusal with its status and the
   * body's `error` field (`None` when absent); or an exception with its message (network failure,
   * or a refusal whose body is not JSON).
   */
  datatype InscribeReply = Accepted | Refused(status: int, error: Option<string>) | Threw(message: string)

  /** `errorData.error || 'Error al procesar la inscripción'`. */
  function ServerOrDefault(error: Option<string>): (m: string)
    ensures m == DefaultInscribeError <==> error.None? || error.value == "" || error.value == DefaultInscribeError
    ensures m != DefaultInscribeError ==> Some(m) == error
  {
    if error.Some? && error.value != "" then error.value else DefaultInscribeError
  }

  /** The message thrown for a refusal. */
  function RefusalMessage(status: int, error: Option<string>): (m: string)
    ensures status == 404 ==> m == NotFoundText
    ensures status != 404 && status != 409 ==> m == ServerOrDefault(error)
    ensures status == 409 && error.Some? && Contains(error.value, "already inscribed") ==> m == AlreadyInscribedText
    ensures (status == 409 && error.Some? && !Contains(error.value, "already inscribed")
             && Contains(error.value, "no available slots")) ==> m == NoSlotsText
    ensures (status == 409 && error.Some? && !Contains(error.value, "already inscribed")
             && !Contains(error.value, "no available slots")) ==> m == ServerOrDefault(error)
    ensures status == 409 && error.None? ==> m == IncludesOnUndefined
  {
    if status == 409 then
      if error.None? then IncludesOnUndefined
      else if Contains(error.value, "already inscribed") then AlreadyInscribedText
      else if Contains(error.value, "no available slots") then NoSlotsText
      else ServerOrDefault(error)
    else if status == 404 then NotFoundText
    else ServerOrDefault(error)
  }

  /** The outcome of `InscribeToActivity`: its return value, the error it set, and whether it reloaded. */
  datatype InscribeOutcome = InscribeOutcome(ok: bool, error: Option<string>, reloaded: bool)

  function InscribeToActivity(reply: InscribeReply): (r: InscribeOutcome)
    ensures r.ok <==> reply.Accepted?
    ensures r.reloaded <==> r.ok
    ensures r.ok <==> r.error.None?
    ensures reply.Refused? ==> r.error == Some(InscribePrefix + RefusalMessage(reply.status, reply.error))
    ensures reply.Threw? ==> r.error == Some(InscribePrefix + reply.message)
  {
    match reply
    case Accepted => InscribeOutcome(true, None, true)
    case Refused(status, error) => InscribeOutcome(false, Some(InscribePrefix + RefusalMessage(status, error)), false)
    case Threw(message) => InscribeOutcome(false, Some(InscribePrefix + message), false)
  }

  /** Every failure message starts with the same prefix. */
  lemma FailuresArePrefixed(reply: InscribeReply)
    requires !InscribeToActivity(reply).ok
    ensures HasPrefix(InscribeToActivity(reply).error.value, InscribePrefix)
  {
    var e := InscribeToActivity(reply).error.value;
    assert e[..|InscribePrefix|] == InscribePrefix;
  }

  // ------------------------------------------------------------------ requests

  /**
   * `makeAuthenticatedRequest`'s headers: the JSON content type and the stored token as a bearer
   * credential, with the caller's headers spread over them.
   */
  function FallbackHeaders(storage: Storage, callerHeaders: Object<string>): (h: Object<string>)
    ensures Keys(h) == {"Content-Type", "Authorization"} + Keys(callerHeaders)
    ensures forall k :: k in Keys(callerHeaders) ==> Get(h, k) == Get(callerHeaders, k)
  {
    var pairs := [("Content-Type", "application/json"),
                  ("Authorization", "Bearer " + TemplateText(GetItem(storage, TokenKey)))];
    assert UniqueKeys(pairs) by {
      assert pairs[1..][1..] == [];
      assert Keys(pairs[1..]) == {"Authorization"};
      assert UniqueKeys(pairs[1..]);
    }
    var defaults: Object<string> := pairs;
    Spread(defaults, callerHeaders)
  }

  /** The page's fallback sends the same headers as the provider's `authenticatedFetch`. */
  lemma FallbackMatchesProvider(storage: Storage, callerHeaders: Object<string>)
    ensures FallbackHeaders(storage, callerHeaders) == AuthContext.RequestHeaders(storage, callerHeaders)
  {
    var bearer := "Bearer " + TemplateText(GetItem(storage, TokenKey));
    var e: Object<string> := [];
    assert Keys(e) == {};
    var one := Put(e, "Content-Type", "application/json");
    assert one == [("Content-Type", "application/json")];
    assert "Authorization" !in Keys(one);
    assert Put(one, "Authorization", bearer) == [("Content-Type", "application/json"), ("Authorization", bearer)];
  }

  /** The enrollment request names only the content type, so the stored token is always sent. */
  lemma InscribeRequestCarriesToken(storage: Storage)
    ensures var h := AuthContext.RequestHeaders(storage, [("Content-Type", "application/json")]);
            Get(h, "Content-Type") == Some("application/json")
            && Get(h, "Authorization") == Some("Bearer " + TemplateText(GetItem(storage, TokenKey)))
  {
    var caller: Object<string> := [("Content-Type", "application/json")];
    assert Keys(caller) == {"Content-Type"};
  }

  // ------------------------------------------------------------------ list normalisation

  /** A list response: a bare array, or an object whose `activities` field is truthy or not (`None`). */
  datatype Listing<T> = Items(items: seq<T>) | Envelope(activities: Option<Listing<T>>)

  /** `data.activities || data`. */
  function Normalise<T>(data: Listing<T>): (r: Listing<T>)
    ensures data.Items? ==> r == data
    ensures data.Envelope? && data.activities.Some? ==> r == data.activities.value
    ensures data.Envelope? && data.activities.None? ==> r == data
    ensures r.Envelope? ==> data.Envelope?
  {
    match data
    case Items(_) => data
    case Envelope(Some(inner)) => inner
    case Envelope(None) => data
  }

  /** A wrapped array and the bare array give the same list. */
  lemma NormaliseUnwraps<T>(items: seq<T>)
    ensures Normalise(Envelope(Some(Items(items)))) == Normalise(Items(items)) == Items(items)
  {
  }
}

=== FILE: my_activities.dfy ===
/** The day-of-week labels shown for an enrolled activity. */
module MyActivities {
  import opened Wrappers
  import opened Json
  import Decimal

  const WeekDays: seq<string> := ["Lunes", "Martes", "Miércoles", "Jueves", "Viernes", "Sábado", "Domingo"]
  const InvalidDay := "Día inválido"

  /**
   * The property names every plain object inherits from `Object.prototype`. Reading one of them
   * from the `days` object finds a function (or, for `__proto__`, the prototype itself).
   */
  const InheritedKeys: set<string> := {
    "constructor", "hasOwnProperty", "isPrototypeOf", "propertyIsEnumerable", "toLocaleString",
    "toString", "valueOf", "__proto__", "__defineGetter__", "__defineSetter__",
    "__lookupGetter__", "__lookupSetter__"}

  /** What `getDayName` returns: a text, or the inherited member a prototype key finds. */
  datatype DayLabel = Day(name: string) | Inherited(key: string)

  /** A label that is one of the seven day names. */
  predicate NamesWeekDay(l: DayLabel) {
    l.Day? && l.name in WeekDays
  }

  /**
   * `getDayName`: the lookup `days[dayNumber]` uses the argument's property-key text, so the
   * number 3 and the string "3" name the same day. An inherited member is truthy and is returned
   * as it is; anything else falls back to the default text.
   */
  function DayName(day: Option<Prim>): (r: DayLabel)
  {
    match ToJsString(day)
    case "1" => Day(WeekDays[0])
    case "2" => Day(WeekDays[1])
    case "3" => Day(WeekDays[2])
    case "4" => Day(WeekDays[3])
    case "5" => Day(WeekDays[4])
    case "6" => Day(WeekDays[5])
    case "7" => Day(WeekDays[6])
    case key => if key in InheritedKeys then Inherited(key) else Day(InvalidDay)
  }

  /** Days 1 to 7 map to Lunes to Domingo in order, whether sent as a number or as its text. */
  lemma DayNamesInOrder(n: int)
    requires 1 <= n <= 7
    ensures DayName(Some(Num(n))) == Day(WeekDays[n - 1])
    ensures DayName(Some(Str(Decimal.IntToString(n)))) == Day(WeekDays[n - 1])
  {
  }

  /**
   * Every input gets one of the seven names, the fallback text, or an inherited member; which
   * one is decided by its key text alone.
   */
  lemma DayNameTotal(day: Option<Prim>)
    ensures DayName(day).Day? ==> DayName(day).name in WeekDays || DayName(day).name == InvalidDay
    ensures NamesWeekDay(DayName(day)) <==> ToJsString(day) in ["1", "2", "3", "4", "5", "6", "7"]
    ensures DayName(day).Inherited? <==> ToJsString(day) in InheritedKeys
    ensures DayName(day).Inherited? ==> DayName(day).key == ToJsString(day)
  {
  }

  /** A number never reaches an inherited member: its text starts with a digit or a minus sign. */
  lemma NumbersGetText(n: int)
    ensures DayName(Some(Num(n))).Day?
  {
    var s := Decimal.IntToString(n);
    assert s[0] == '-' || Decimal.IsDigit(s[0]);
  }

  /** Numbers outside 1..7 are all invalid. */
  lemma OutOfRangeInvalid(n: int)
    requires n < 1 || n > 7
    ensures DayName(Some(Num(n))) == Day(InvalidDay)
  {
    NumbersGetText(n);
  }

  /** The seven names are distinct, so two days with the same name are the same day. */
  lemma DayNameInjective(a: int, b: int)
    requires 1 <= a <= 7 && 1 <= b <= 7
    requires DayName(Some(Num(a))) == DayName(Some(Num(b)))
    ensures a == b
  {
  }

  /** `getDayName("toString")` returns the inherited function, not a day text. */
  lemma PrototypeKeyFound()
    ensures DayName(Some(Str("toString"))) == Inherited("toString")
  {
  }
}

=== FILE: passwords.dfy ===
/**
 * `hashPassword` / `verifyPassword`, defined identically in two service files. SHA-256 and hex
 * encoding are not modelled: `HashPassword` is a stand-in whose only property used anywhere is
 * that it is injective.
 */
module Passwords {

  const DigestTag := "sha256-hex:"

  function HashPassword(password: string): string {
    DigestTag + password
  }

  predicate VerifyPassword(password: string, hash: string) {
    HashPassword(password) == hash
  }

  lemma HashInjective(p: string, q: string)
    requires HashPassword(p) == HashPassword(q)
    ensures p == q
  {
    assert p == HashPassword(p)[|DigestTag|..];
    assert q == HashPassword(q)[|DigestTag|..];
  }

  /** A password verifies against its own hash, and against another password's hash only if the two are equal. */
  lemma VerifyMeansSamePassword(p: string, q: string)
    ensures VerifyPassword(p, HashPassword(p))
    ensures VerifyPassword(p, HashPassword(q)) <==> p == q
  {
    if VerifyPassword(p, HashPassword(q)) {
      HashInjective(p, q);
    }
  }
}

=== FILE: props.dfy ===
/**
 * JavaScript objects as the client code uses them: own string-keyed properties kept in insertion
 * order, each key at most once. Property reads, writes, spreads (`{...a, ...b}`) and rest
 * destructuring (`const { k, ...rest } = o`) are the operations below. JavaScript lists
 * integer-like keys first, in ascending order; this model keeps every key in insertion order.
 */
module Props {
  import opened Wrappers

  function Keys<V>(o: seq<(string, V)>): set<string> {
    if o == [] then {} else {o[0].0} + Keys(o[1..])
  }

  predicate UniqueKeys<V>(o: seq<(string, V)>) {
    o == [] || (o[0].0 !in Keys(o[1..]) && UniqueKeys(o[1..]))
  }

  type Object<V> = o: seq<(string, V)> | UniqueKeys(o) witness []

  /** `o[k]`: `None` is `undefined`, a missing property. */
  function Get<V>(o: seq<(string, V)>, k: string): (r: Option<V>)
    ensures r.Some? <==> k in Keys(o)
    ensures r.Some? ==> (k, r.value) in o
  {
    if o == [] then None
    else if o[0].0 == k then Some(o[0].1)
    else Get(o[1..], k)
  }

  /** `{...o, [k]: v}`: an existing key keeps its place and takes the new value; a new key goes last. */
  function Put<V>(o: Object<V>, k: string, v: V): (r: Object<V>)
    ensures Get(r, k) == Some(v)
    ensures forall k' :: k' != k ==> Get(r, k') == Get(o, k')
    ensures Keys(r) == Keys(o) + {k}
    ensures k !in Keys(o) ==> r == o + [(k, v)]
  {
    if o == [] then
      var r := [(k, v)];
      assert r[1..] == [];
      r
    else if o[0].0 == k then
      var r := [(k, v)] + o[1..];
      assert r[1..] == o[1..];
      r
    else
      var rest := Put(o[1..], k, v);
      var r := [o[0]] + rest;
      assert r[1..] == rest;
      assert k !in Keys(o) ==> o + [(k, v)] == [o[0]] + (o[1..] + [(k, v)]);
      r
  }

  /** `const { [k]: _, ...rest } = o`: every other property, in the same order. */
  function Remove<V>(o: Object<V>, k: string): (r: Object<V>)
    ensures Get(r, k) == None
    ensures forall k' :: k' != k ==> Get(r, k') == Get(o, k')
    ensures Keys(r) == Keys(o) - {k}
    ensures k !in Keys(o) ==> r == o
  {
    if o == [] then []
    else if o[0].0 == k then Remove(o[1..], k)
    else
      var rest := Remove(o[1..], k);
      var r := [o[0]] + rest;
      assert r[1..] == rest;
      assert k !in Keys(o) ==> o == [o[0]] + o[1..];
      r
  }

  /** `{...base, ...over}`: the properties of `over` win, the others come from `base`. */
  function Spread<V>(base: Object<V>, over: Object<V>): (r: Object<V>)
    ensures forall k :: Get(r, k) == if k in Keys(over) then Get(over, k) else Get(base, k)
    ensures Keys(r) == Keys(base) + Keys(over)
    decreases |over|
  {
    if over == [] then base
    else Spread(Put(base, over[0].0, over[0].1), over[1..])
  }
}

=== FILE: session_flow.dfy ===
/**
 * Properties that cross the client/server boundary: what the login reply does to the client's
 * session, how the enrollment replies are worded on screen, and how stored days are labelled.
 */
module SessionFlow {
  import opened Wrappers
  import opened Props
  import opened Json
  import opened Text
  import opened LocalStorage
  import opened Store
  import opened Domain
  import Jwt
  import UserService
  import LoginService
  import LoginView
  import AuthContext
  import AuthUtils
  import InscriptionService
  import InscriptionController
  import MainPage
  import ActivityService
  import MyActivities

  // ------------------------------------------------------------------ the login reply

  /** The JSON object the Go encoder writes for a user, in field order, under its `json` tags. */
  function UserJson(u: User): (fs: Fields)
    ensures Get(fs, "token") == Some(Str(u.token))
    ensures Get(fs, "is_admin") == Some(Bool(u.isAdmin))
  {
    var e: Fields := [];
    var withAdmin := Put(Put(Put(Put(Put(e, "id", Num(u.id)), "name", Str(u.name)), "username", Str(u.username)),
                         "password", Str(u.password)), "is_admin", Bool(u.isAdmin));
    assert "is_admin"[0] != "token"[0];
    Put(withAdmin, "token", Str(u.token))
  }

  /** What `POST /login` answers as routed: the credential check, 401 on failure. */
  function LoginReplyAsWritten(db: Db, username: string, password: string): (r: LoginView.LoginReply)
    ensures r.NotOk? <==> UserService.ValidateUserCredentials(db, username, password).Failure?
    ensures r.Ok? ==> r.user == Some(Obj(UserJson(UserService.ValidateUserCredentials(db, username, password).value)))
  {
    match UserService.ValidateUserCredentials(db, username, password)
    case Failure(_) => LoginView.NotOk
    case Success(u) => LoginView.Ok(Some(Obj(UserJson(u))))
  }

  /** The same route answered by the login service, which issues a token. */
  function LoginReplyIntended(db: Db, username: string, password: string,
                              sign: Jwt.Claims -> Result<string, string>): (r: LoginView.LoginReply)
    ensures r.NotOk? <==> LoginService.Login(db, username, password, sign).Failure?
    ensures r.Ok? ==> r.user == Some(Obj(UserJson(LoginService.Login(db, username, password, sign).value)))
  {
    match LoginService.Login(db, username, password, sign)
    case Failure(_) => LoginView.NotOk
    case Success(u) => LoginView.Ok(Some(Obj(UserJson(u))))
  }

  /** A login reply carrying a user makes the client store that user's token text. */
  lemma SignedInWithToken(u: User, st: AuthContext.AuthState, storage: Storage)
    ensures var (st1, s1) := LoginView.Session(LoginView.Ok(Some(Obj(UserJson(u)))), st, storage);
            (st1, s1) == AuthContext.Login(st, storage, Remove(UserJson(u), "token"), Some(Str(u.token)))
  {
    var reply := LoginView.Ok(Some(Obj(UserJson(u))));
    var userData := Remove(UserJson(u), "token");
    assert LoginView.SplitToken(reply.user) == Some((userData, Some(Str(u.token))));
    assert LoginView.HandleLogin(reply).effects[0] == LoginView.CallLogin(userData, Some(Str(u.token)));
  }

  /**
   * As routed, a correct password signs the user in on screen, but the stored token is empty:
   * the next page load restores no session and the token helper says signed out.
   */
  lemma AsWrittenLoginForgottenOnReload(db: Db, username: string, password: string,
                                        st: AuthContext.AuthState, storage: Storage)
    requires UserService.ValidateUserCredentials(db, username, password).Success?
    ensures var (st1, s1) := LoginView.Session(LoginReplyAsWritten(db, username, password), st, storage);
            && st1.isAuthenticated
            && !AuthContext.Hydrate(s1).0.isAuthenticated
            && !AuthUtils.IsAuthenticated(s1)
  {
    var u := UserService.ValidateUserCredentials(db, username, password).value;
    assert LoginReplyAsWritten(db, username, password) == LoginView.Ok(Some(Obj(UserJson(u))));
    EmptyTokenForgotten(u, st, storage);
  }

  lemma LoginForgotten(st: AuthContext.AuthState, storage: Storage, userData: Fields)
    ensures var (st1, s1) := AuthContext.Login(st, storage, userData, Some(Str("")));
            && st1.isAuthenticated
            && !AuthContext.Hydrate(s1).0.isAuthenticated
            && !AuthUtils.IsAuthenticated(s1)
  {
    AuthContext.EmptyTokenLostOnReload(st, storage, userData, Some(Str("")));
  }

  /** A reply whose user carries an empty token signs in on screen and is lost on reload. */
  lemma EmptyTokenForgotten(u: User, st: AuthContext.AuthState, storage: Storage)
    requires u.token == ""
    ensures var (st1, s1) := LoginView.Session(LoginView.Ok(Some(Obj(UserJson(u)))), st, storage);
            && st1.isAuthenticated
            && !AuthContext.Hydrate(s1).0.isAuthenticated
            && !AuthUtils.IsAuthenticated(s1)
  {
    SignedInWithToken(u, st, storage);
    LoginForgotten(st, storage, Remove(UserJson(u), "token"));
  }

  lemma LoginRestored(st: AuthContext.AuthState, storage: Storage, userData: Fields, t: string)
    requires t != ""
    ensures var (st1, s1) := AuthContext.Login(st, storage, userData, Some(Str(t)));
            && st1.isAuthenticated
            && AuthContext.Hydrate(s1).0 == st1.(loading := false)
            && AuthUtils.IsAuthenticated(s1)
  {
    var token := Some(Str(t));
    assert ToJsString(token) == t;
    var r := AuthContext.Login(st, storage, userData, token);
    var saved := AuthContext.AuthState(Obj(AuthContext.UserToSave(userData)), true, false);
    assert r.0 == saved.(loading := st.loading);
    AuthContext.LoginThenHydrate(st, storage, userData, token);
    assert AuthContext.Hydrate(r.1).0 == saved;
    AuthUtils.HydrationImpliesAuthenticated(r.1);
  }

  /** A reply whose user carries a non-empty token leaves a session that a reload restores. */
  lemma TokenSurvivesReload(u: User, st: AuthContext.AuthState, storage: Storage)
    requires u.token != ""
    ensures var (st1, s1) := LoginView.Session(LoginView.Ok(Some(Obj(UserJson(u)))), st, storage);
            && st1.isAuthenticated
            && AuthContext.Hydrate(s1).0 == st1.(loading := false)
            && AuthUtils.IsAuthenticated(s1)
  {
    SignedInWithToken(u, st, storage);
    LoginRestored(st, storage, Remove(UserJson(u), "token"), u.token);
  }

  /**
   * With the token-issuing login, a signed-in user whose token is not empty survives a reload:
   * the restored state holds the same user, and the token helper agrees.
   */
  lemma IntendedLoginSurvivesReload(db: Db, username: string, password: string,
                                    sign: Jwt.Claims -> Result<string, string>,
                                    st: AuthContext.AuthState, storage: Storage)
    requires LoginService.Login(db, username, password, sign).Success?
    requires LoginService.Login(db, username, password, sign).value.token != ""
    ensures var (st1, s1) := LoginView.Session(LoginReplyIntended(db, username, password, sign), st, storage);
            && st1.isAuthenticated
            && AuthContext.Hydrate(s1).0 == st1.(loading := false)
            && AuthUtils.IsAuthenticated(s1)
  {
    var u := LoginService.Login(db, username, password, sign).value;
    assert LoginReplyIntended(db, username, password, sign) == LoginView.Ok(Some(Obj(UserJson(u))));
    TokenSurvivesReload(u, st, storage);
  }

  // ------------------------------------------------------------------ enrollment replies on screen

  /** The reply as the page reads it: a 2xx is a success, otherwise the body's `error` field. */
  function ReplyOf(resp: InscriptionController.Response): (r: MainPage.InscribeReply)
    ensures r.Accepted? <==> 200 <= resp.status < 300
    ensures r.Refused? ==> r.status == resp.status
    ensures r.Refused? && (resp.body.ErrorBody? || resp.body.ErrorDetails?) ==> r.error == Some(resp.body.error)
  {
    if 200 <= resp.status < 300 then MainPage.Accepted
    else match resp.body
      case ErrorBody(e) => MainPage.Refused(resp.status, Some(e))
      case ErrorDetails(e, _) => MainPage.Refused(resp.status, Some(e))
      case _ => MainPage.Refused(resp.status, None)
  }

  /** A character of `sub` that `s` lacks rules out every occurrence. */
  lemma MissingChar(s: string, sub: string, j: int)
    requires 0 <= j < |sub|
    requires forall i :: 0 <= i < |s| ==> s[i] != sub[j]
    ensures !Contains(s, sub)
  {
    forall i | 0 <= i <= |s| - |sub|
      ensures !OccursAt(s, sub, i)
    {
      assert s[i..i + |sub|][j] == s[i + j] != sub[j];
    }
  }

  lemma ContainsMiddle(a: string, b: string, c: string)
    ensures Contains(a + b + c, b)
  {
    assert (a + b + c)[|a|..|a| + |b|] == b;
    assert OccursAt(a + b + c, b, |a|);
  }

  lemma AlreadyInscribedRecognised()
    ensures Contains("User is already inscribed in this activity", "already inscribed")
  {
    assert "User is " + "already inscribed" == "User is already inscribed";
    assert "User is already inscribed" + " in this activity" == "User is already inscribed in this activity";
    ContainsMiddle("User is ", "already inscribed", " in this activity");
  }

  lemma NoSlotsRecognised()
    ensures Contains("Activity has no available slots", "no available slots")
  {
    assert "Activity has no available slots" == "Activity has " + "no available slots" + "";
    ContainsMiddle("Activity has ", "no available slots", "");
  }

  lemma NoSlotsNotMistaken()
    ensures !Contains("Activity has no available slots", "already inscribed")
  {
    MissingChar("Activity has no available slots", "already inscribed", 5);
  }

  /**
   * Each of the service's refusals reaches the screen with its own wording: the two conflict
   * texts the server sends contain the substrings the page looks for, and the 404s are one message.
   */
  lemma RefusalsWordedOnScreen(db: Db, usuarioId: int, actividadId: int,
                               insertError: Option<string>, slotError: Option<string>)
    requires InscriptionService.Rejection(db, usuarioId, actividadId).Some?
    ensures var resp := InscriptionController.CreateInscription(Success((usuarioId, actividadId)), db, insertError, slotError).0;
            var shown := MainPage.InscribeToActivity(ReplyOf(resp)).error;
            var why := InscriptionService.Rejection(db, usuarioId, actividadId).value;
            && (why == InscriptionService.AlreadyInscribed ==> shown == Some(MainPage.InscribePrefix + MainPage.AlreadyInscribedText))
            && (why == InscriptionService.NoSlots ==> shown == Some(MainPage.InscribePrefix + MainPage.NoSlotsText))
            && (why == InscriptionService.UserNotFound || why == InscriptionService.ActivityNotFound
                ==> shown == Some(MainPage.InscribePrefix + MainPage.NotFoundText))
  {
    AlreadyInscribedRecognised();
    NoSlotsRecognised();
    NoSlotsNotMistaken();
  }

  /** A 500 from the store reaches the screen as the controller's generic text, not the details. */
  lemma StoreFailureWordedOnScreen(e: string)
    requires InscriptionController.ErrorReply(e).status == 500
    ensures MainPage.InscribeToActivity(ReplyOf(InscriptionController.ErrorReply(e))).error
            == Some(MainPage.InscribePrefix + InscriptionController.CreateFailed)
  {
  }

  // ------------------------------------------------------------------ day labels

  /** With the intended day check, every stored activity's day has a name on screen. */
  lemma IntendedDaysHaveNames(db: Db, a: Activity, insertError: Option<string>)
    requires ActivityService.InsertActivityIntended(db, a, insertError).result.Success?
    ensures MyActivities.NamesWeekDay(
              MyActivities.DayName(Some(Num(ActivityService.InsertActivityIntended(db, a, insertError).result.value.dia))))
  {
    MyActivities.DayNamesInOrder(ActivityService.InsertActivityIntended(db, a, insertError).result.value.dia);
  }

  /** As written, an activity on day 0 is stored and then shown with the invalid-day label. */
  lemma AsWrittenDayZeroUnnamed(db: Db)
    ensures var a := Activity(0, "Yoga", "Ana", "Fitness", 10, "Stretching", 0, "08:00", "09:00");
            && ActivityService.InsertActivity(db, a, None).result.Success?
            && MyActivities.DayName(Some(Num(ActivityService.InsertActivity(db, a, None).result.value.dia)))
               == MyActivities.Day(MyActivities.InvalidDay)
  {
    ActivityService.DayZeroAccepted(db);
    MyActivities.OutOfRangeInvalid(0);
  }
}

=== FILE: sports_controller.dfy ===
/** `RegisterUser` over the controller's in-memory user list. */
module SportsController {
  import opened Passwords

  datatype Usuario = Usuario(
    id: int, idToken: int, nombre: string, apellido: string, dni: int,
    mail: string, contrasena: string, isAdmin: bool)

  /** The list the handler keeps: the user at index i has id i + 1. */
  ghost predicate IdsAreIndices(usuarios: seq<Usuario>) {
    forall i :: 0 <= i < |usuarios| ==> usuarios[i].id == i + 1
  }

  /**
   * `RegisterUser`: the password is replaced by its hash, the id is one more than the list length,
   * the user is appended, and the stored element is what is returned.
   */
  function RegisterUser(usuarios: seq<Usuario>, u: Usuario): (r: (seq<Usuario>, Usuario))
    ensures r.0 == usuarios + [r.1]
    ensures r.1.id == |usuarios| + 1 && r.1.contrasena == HashPassword(u.contrasena)
    ensures r.1.(id := u.id, contrasena := u.contrasena) == u
  {
    var stored := u.(contrasena := HashPassword(u.contrasena), id := |usuarios| + 1);
    (usuarios + [stored], stored)
  }

  lemma RegisterKeepsIds(usuarios: seq<Usuario>, u: Usuario)
    requires IdsAreIndices(usuarios)
    ensures IdsAreIndices(RegisterUser(usuarios, u).0)
  {
  }

  /** Registering a batch from an empty list: ids 1..n, in order, each with its own hashed password. */
  method RegisterAll(batch: seq<Usuario>) returns (usuarios: seq<Usuario>)
    ensures |usuarios| == |batch|
    ensures forall i :: 0 <= i < |batch| ==> usuarios[i].id == i + 1
    ensures forall i :: 0 <= i < |batch| ==>
              usuarios[i] == batch[i].(id := i + 1, contrasena := HashPassword(batch[i].contrasena))
    ensures forall i, j :: 0 <= i < j < |usuarios| ==> usuarios[i].id != usuarios[j].id
  {
    usuarios := [];
    for k := 0 to |batch|
      invariant |usuarios| == k
      invariant forall i :: 0 <= i < k ==>
                  usuarios[i] == batch[i].(id := i + 1, contrasena := HashPassword(batch[i].contrasena))
    {
      var (next, _) := RegisterUser(usuarios, batch[k]);
      usuarios := next;
    }
  }
}

=== FILE: store.dfy ===
/**
 * The database behind the services, as the services see it through their data-access calls:
 * users and activities keyed by id, a unique index on usernames, inscriptions in primary-key
 * order, and one auto-increment counter per table. A lookup of a missing row fails with GORM's
 * "record not found".
 */
module Store {
  import opened Wrappers

  const RecordNotFound := "record not found"

  datatype UserRec = UserRec(id: int, name: string, username: string, passwordHash: string, isAdmin: bool)

  datatype ActivityRec = ActivityRec(
    id: int, nombre: string, profesor: string, categoria: string, cupos: int,
    descripcion: string, dia: int, horaInicio: string, horaFin: string)

  datatype InscriptionRec = InscriptionRec(id: int, usuarioId: int, actividadId: int)

  datatype Db = Db(
    users: map<int, UserRec>, usernames: map<string, int>, nextUserId: int,
    activities: map<int, ActivityRec>, nextActivityId: int,
    inscriptions: seq<InscriptionRec>, nextInscriptionId: int)

  /** What a service call answers, together with the store it leaves behind. */
  datatype Outcome<T> = Outcome(result: Result<T, string>, db: Db)

  /** The text MySQL reports when the unique index on usernames rejects a write. */
  function DuplicateEntry(username: string): string {
    "Error 1062 (23000): Duplicate entry '" + username + "' for key 'users.username'"
  }

  /**
   * What the schema and auto-increment keep true: every row sits under its own id, ids are
   * positive and below the next id to hand out, the username index is exact, and inscription
   * ids grow along the table.
   */
  ghost predicate Wf(db: Db) {
    && 1 <= db.nextUserId && 1 <= db.nextActivityId && 1 <= db.nextInscriptionId
    && (forall id :: id in db.users ==> db.users[id].id == id && 1 <= id < db.nextUserId)
    && (forall name :: name in db.usernames ==>
          db.usernames[name] in db.users && db.users[db.usernames[name]].username == name)
    && (forall id :: id in db.users ==>
          db.users[id].username in db.usernames && db.usernames[db.users[id].username] == id)
    && (forall id :: id in db.activities ==> db.activities[id].id == id && 1 <= id < db.nextActivityId)
    && (forall i :: 0 <= i < |db.inscriptions| ==> 1 <= db.inscriptions[i].id < db.nextInscriptionId)
    && (forall i, j :: 0 <= i < j < |db.inscriptions| ==> db.inscriptions[i].id < db.inscriptions[j].id)
  }

  /** No activity has a negative number of free slots. */
  ghost predicate SlotsNonNegative(db: Db) {
    forall id :: id in db.activities ==> db.activities[id].cupos >= 0
  }

  // ---------------------------------------------------------------- reads

  function UserById(db: Db, id: int): Option<UserRec> {
    if id in db.users then Some(db.users[id]) else None
  }

  /** `WHERE username = ?`, answered through the unique index. */
  function UserByUsername(db: Db, username: string): (r: Option<UserRec>)
    ensures r.Some? ==> r.value.username == username
  {
    if username in db.usernames && db.usernames[username] in db.users
       && db.users[db.usernames[username]].username == username
    then Some(db.users[db.usernames[username]])
    else None
  }

  function ActivityById(db: Db, id: int): Option<ActivityRec> {
    if id in db.activities then Some(db.activities[id]) else None
  }

  /** The first inscription row with this id. */
  function FirstWithId(rows: seq<InscriptionRec>, id: int): (r: Option<InscriptionRec>)
    ensures r.Some? ==> r.value in rows && r.value.id == id
    ensures r.None? <==> forall i :: 0 <= i < |rows| ==> rows[i].id != id
  {
    if rows == [] then None
    else if rows[0].id == id then Some(rows[0])
    else FirstWithId(rows[1..], id)
  }

  /** The first inscription row for this (user, activity) pair, as GORM's `First` returns it. */
  function FirstWithPair(rows: seq<InscriptionRec>, usuarioId: int, actividadId: int): (r: Option<InscriptionRec>)
    ensures r.Some? ==> r.value in rows && r.value.usuarioId == usuarioId && r.value.actividadId == actividadId
    ensures r.None? <==> forall i :: 0 <= i < |rows| ==>
              !(rows[i].usuarioId == usuarioId && rows[i].actividadId == actividadId)
  {
    if rows == [] then None
    else if rows[0].usuarioId == usuarioId && rows[0].actividadId == actividadId then Some(rows[0])
    else FirstWithPair(rows[1..], usuarioId, actividadId)
  }

  // ---------------------------------------------------------------- writes

  /** `INSERT` into users: the row takes the next id. */
  function InsertUser(db: Db, name: string, username: string, hash: string, isAdmin: bool): (r: (UserRec, Db)) {
    var rec := UserRec(db.nextUserId, name, username, hash, isAdmin);
    (rec, db.(users := db.users[rec.id := rec], usernames := db.usernames[username := rec.id],
              nextUserId := db.nextUserId + 1))
  }

  /** `Save` of an existing user row; the unique username index can refuse it. */
  function SaveUser(db: Db, rec: UserRec): (r: Result<Db, string>) {
    if rec.username in db.usernames && db.usernames[rec.username] != rec.id then
      Failure(DuplicateEntry(rec.username))
    else
      var index :=
        if rec.id in db.users && db.users[rec.id].username in db.usernames
           && db.usernames[db.users[rec.id].username] == rec.id
        then db.usernames - {db.users[rec.id].username}
        else db.usernames;
      Success(db.(users := db.users[rec.id := rec], usernames := index[rec.username := rec.id]))
  }

  /** `INSERT` into activities: the row takes the next id. */
  function InsertActivity(db: Db, rec: ActivityRec): (r: (ActivityRec, Db)) {
    var stored := rec.(id := db.nextActivityId);
    (stored, db.(activities := db.activities[stored.id := stored], nextActivityId := db.nextActivityId + 1))
  }

  /** `Save` of an activity row under its id. */
  function SaveActivity(db: Db, rec: ActivityRec): Db {
    db.(activities := db.activities[rec.id := rec])
  }

  /** `UPDATE activities SET cupos = ? WHERE id_actividad = ?`: matching no row changes nothing. */
  function SetSlots(db: Db, id: int, slots: int): (r: Db)
    ensures r.(activities := db.activities) == db
    ensures r.activities.Keys == db.activities.Keys
    ensures forall k :: k in db.activities && k != id ==> r.activities[k] == db.activities[k]
    ensures id in db.activities ==> r.activities[id] == db.activities[id].(cupos := slots)
  {
    if id in db.activities then db.(activities := db.activities[id := db.activities[id].(cupos := slots)])
    else db
  }

  /** `INSERT` into inscriptions: the row takes the next id and goes last. */
  function InsertInscription(db: Db, usuarioId: int, actividadId: int): (r: (InscriptionRec, Db)) {
    var rec := InscriptionRec(db.nextInscriptionId, usuarioId, actividadId);
    (rec, db.(inscriptions := db.inscriptions + [rec], nextInscriptionId := db.nextInscriptionId + 1))
  }

  // ---------------------------------------------------------------- the writes keep the schema

  lemma InsertUserKeepsWf(db: Db, name: string, username: string, hash: string, isAdmin: bool)
    requires Wf(db) && username !in db.usernames
    ensures Wf(InsertUser(db, name, username, hash, isAdmin).1)
    ensures UserByUsername(InsertUser(db, name, username, hash, isAdmin).1, username)
            == Some(InsertUser(db, name, username, hash, isAdmin).0)
  {
    var (rec, db') := InsertUser(db, name, username, hash, isAdmin);
    assert rec.id !in db.users;
    forall n | n in db'.usernames
      ensures db'.usernames[n] in db'.users && db'.users[db'.usernames[n]].username == n
    {
      if n != username {
        assert db.usernames[n] in db.users && db.usernames[n] != rec.id;
      }
    }
  }

  lemma SaveUserKeepsWf(db: Db, rec: UserRec)
    requires Wf(db) && rec.id in db.users && SaveUser(db, rec).Success?
    ensures Wf(SaveUser(db, rec).value)
    ensures UserByUsername(SaveUser(db, rec).value, rec.username) == Some(rec)
  {
    var db' := SaveUser(db, rec).value;
    var oldName := db.users[rec.id].username;
    assert rec.id == db.users[rec.id].id;
    forall n | n in db'.usernames
      ensures db'.usernames[n] in db'.users && db'.users[db'.usernames[n]].username == n
    {
      if n != rec.username {
        assert n != oldName;
        assert db.usernames[n] != rec.id;
      }
    }
    forall id | id in db'.users
      ensures db'.users[id].username in db'.usernames && db'.usernames[db'.users[id].username] == id
    {
      if id != rec.id {
        var n := db.users[id].username;
        assert db.usernames[n] == id;
        assert n != oldName;
        assert n != rec.username;
      }
    }
  }

  lemma InsertActivityKeepsWf(db: Db, rec: ActivityRec)
    requires Wf(db)
    ensures Wf(InsertActivity(db, rec).1)
  {
  }

  lemma InsertInscriptionKeepsWf(db: Db, usuarioId: int, actividadId: int)
    requires Wf(db)
    ensures Wf(InsertInscription(db, usuarioId, actividadId).1)
  {
  }
}

=== FILE: text.dfy ===
/** String helpers shared by the backend (`strings.HasPrefix`/`TrimPrefix`) and the client (`includes`, `trim`). */
module Text {

  predicate HasPrefix(s: string, p: string) {
    |p| <= |s| && s[..|p|] == p
  }

  /** `strings.TrimPrefix`: drops `p` once when `s` starts with it, otherwise returns `s`. */
  function TrimPrefix(s: string, p: string): (r: string)
    ensures HasPrefix(s, p) ==> p + r == s
    ensures !HasPrefix(s, p) ==> r == s
  {
    if HasPrefix(s, p) then s[|p|..] else s
  }

  /** `sub` occurs in `s` starting at index `i`. */
  predicate OccursAt(s: string, sub: string, i: int) {
    0 <= i <= |s| - |sub| && s[i..i + |sub|] == sub
  }

  /** JavaScript's `s.includes(sub)`. */
  predicate Contains(s: string, sub: string) {
    exists i | 0 <= i <= |s| - |sub| :: OccursAt(s, sub, i)
  }

  /** The characters `String.prototype.trim` removes: ECMAScript WhiteSpace and LineTerminator. */
  predicate IsWhitespace(c: char) {
    c == '\t' || c == '\n' || c == '\U{000B}' || c == '\U{000C}' || c == '\r' || c == ' '
    || c == '\U{00A0}' || c == '\U{1680}' || ('\U{2000}' <= c <= '\U{200A}')
    || c == '\U{2028}' || c == '\U{2029}' || c == '\U{202F}' || c == '\U{205F}'
    || c == '\U{3000}' || c == '\U{FEFF}'
  }

  predicate Blank(s: string) {
    forall i :: 0 <= i < |s| ==> IsWhitespace(s[i])
  }

  function TrimStart(s: string): (r: string)
    ensures |r| <= |s| && r == s[|s| - |r|..]
    ensures Blank(s[..|s| - |r|])
    ensures r == [] || !IsWhitespace(r[0])
  {
    if s != [] && IsWhitespace(s[0]) then
      var r := TrimStart(s[1..]);
      assert s[1..][..|s| - 1 - |r|] == s[1..|s| - |r|];
      r
    else s
  }

  function TrimEnd(s: string): (r: string)
    ensures |r| <= |s| && r == s[..|r|]
    ensures Blank(s[|r|..])
    ensures r == [] || !IsWhitespace(r[|r| - 1])
  {
    if s != [] && IsWhitespace(s[|s| - 1]) then
      var r := TrimEnd(s[..|s| - 1]);
      assert s[..|s| - 1][|r|..] == s[|r|..|s| - 1];
      r
    else s
  }

  /** `String.prototype.trim`. */
  function Trim(s: string): string {
    TrimEnd(TrimStart(s))
  }

  /** `!s.trim()` holds exactly for strings made only of whitespace (including ""). */
  lemma TrimEmptyIffBlank(s: string)
    ensures Trim(s) == "" <==> Blank(s)
  {
    var t := TrimStart(s);
    if !Blank(s) {
      var i :| 0 <= i < |s| && !IsWhitespace(s[i]);
      assert t != [];
      assert TrimEnd(t) != [];
    }
  }
}

=== FILE: user_service.dfy ===
/**
 * The user service: reads that never expose the stored hash, registration, the credential check
 * and the partial update. Passwords are stored only through `HashPassword`.
 */
module UserService {
  import opened Wrappers
  import opened Store
  import opened Domain
  import opened Passwords
  import Decimal

  const UsernameEmpty := "username cannot be empty"
  const PasswordEmpty := "password cannot be empty"
  const UsernameTaken := "username already exists"
  const InvalidCredentials := "invalid credentials"

  // ---------------------------------------------------------------- reads

  function GetUserByID(db: Db, id: int): (r: Result<User, string>)
    ensures r.Success? <==> id in db.users
    ensures r.Success? ==> r.value.id == db.users[id].id && r.value.username == db.users[id].username
                           && r.value.isAdmin == db.users[id].isAdmin && r.value.password == ""
    ensures r.Failure? ==> r.error == "user not found with id " + Decimal.IntToString(id) + ": " + RecordNotFound
  {
    match UserById(db, id)
    case None => Failure("user not found with id " + Decimal.IntToString(id) + ": " + RecordNotFound)
    case Some(rec) => Success(PublicUserOf(rec))
  }

  function GetUserByUsername(db: Db, username: string): (r: Result<User, string>)
    ensures r.Success? ==> r.value.username == username && r.value.password == ""
    ensures r.Success? ==> UserByUsername(db, username).Some?
                           && r.value == PublicUserOf(UserByUsername(db, username).value)
    ensures Wf(db) ==> (r.Success? <==> username in db.usernames)
    ensures r.Failure? ==> r.error == "user not found with username " + username + ": " + RecordNotFound
  {
    match UserByUsername(db, username)
    case None => Failure("user not found with username " + username + ": " + RecordNotFound)
    case Some(rec) => Success(PublicUserOf(rec))
  }

  /** On a well-formed store, the read by username answers as the read by the id its index holds. */
  lemma UsernameReadMatchesIdRead(db: Db, username: string)
    requires Wf(db) && username in db.usernames
    ensures GetUserByUsername(db, username) == GetUserByID(db, db.usernames[username])
  {
    var rec := db.users[db.usernames[username]];
    assert UserByUsername(db, username) == Some(rec);
  }

  /** `GetAllUsers`: the scan's rows (or its error) come in as `scan`. */
  method GetAllUsers(scan: Result<seq<UserRec>, string>) returns (r: Result<seq<User>, string>)
    ensures scan.Failure? ==> r == Failure("failed to get users: " + scan.error)
    ensures scan.Success? ==> r.Success? && |r.value| == |scan.value|
    ensures scan.Success? ==> forall i :: 0 <= i < |scan.value| ==>
              && r.value[i].id == scan.value[i].id && r.value[i].username == scan.value[i].username
              && r.value[i].isAdmin == scan.value[i].isAdmin && r.value[i].password == ""
              && r.value[i].name == "" && r.value[i].token == ""
  {
    if scan.Failure? {
      return Failure("failed to get users: " + scan.error);
    }
    var rows := scan.value;
    var users: seq<User> := [];
    for i := 0 to |rows|
      invariant |users| == i
      invariant forall k :: 0 <= k < i ==> users[k] == PublicUserOf(rows[k])
    {
      users := users + [PublicUserOf(rows[i])];
    }
    return Success(users);
  }

  /**
   * The list agrees with the single read: when the scan returns rows of the users table, every
   * listed user is exactly what `GetUserByID` answers for its id.
   */
  lemma ListedUsersReadable(db: Db, rows: seq<UserRec>, users: seq<User>)
    requires Wf(db)
    requires forall i :: 0 <= i < |rows| ==> rows[i] in db.users.Values
    requires |users| == |rows|
    requires forall i :: 0 <= i < |rows| ==>
               && users[i].id == rows[i].id && users[i].username == rows[i].username
               && users[i].isAdmin == rows[i].isAdmin && users[i].password == ""
               && users[i].name == "" && users[i].token == ""
    ensures forall i :: 0 <= i < |users| ==> GetUserByID(db, users[i].id) == Success(users[i])
  {
    forall i | 0 <= i < |users|
      ensures GetUserByID(db, users[i].id) == Success(users[i])
    {
      var id := KeyOfValue(db.users, rows[i]);
    }
  }

  /** A value of a map is stored under some key. */
  lemma KeyOfValue<K, V>(m: map<K, V>, v: V) returns (k: K)
    requires v in m.Values
    ensures k in m && m[k] == v
  {
    k :| k in m && m[k] == v;
  }

  // ---------------------------------------------------------------- CreateUser

  /**
   * Registration after the emptiness checks, shared by both services that register users: a taken
   * username is refused; otherwise the row is inserted with the password's hash.
   */
  function Register(db: Db, name: string, u: User, insertError: Option<string>): (r: Outcome<User>)
    ensures r.result.Failure? ==> r.db == db
    ensures UserByUsername(db, u.username).Some? ==> r.result == Failure(UsernameTaken)
    ensures r.result.Success? <==> UserByUsername(db, u.username).None? && insertError.None?
    ensures r.result.Success? ==>
              && r.result.value == User(db.nextUserId, name, u.username, "", u.isAdmin, "")
              && r.db.users == db.users[db.nextUserId := UserRec(db.nextUserId, name, u.username, HashPassword(u.password), u.isAdmin)]
              && r.db.activities == db.activities && r.db.inscriptions == db.inscriptions
  {
    if UserByUsername(db, u.username).Some? then Outcome(Failure(UsernameTaken), db)
    else if insertError.Some? then Outcome(Failure("failed to create user: " + insertError.value), db)
    else
      var (rec, db1) := InsertUser(db, name, u.username, HashPassword(u.password), u.isAdmin);
      Outcome(Success(User(rec.id, rec.name, rec.username, "", rec.isAdmin, "")), db1)
  }

  /** `CreateUser` of the user service: no name is asked for, and none is stored. */
  function CreateUser(db: Db, u: User, insertError: Option<string>): (r: Outcome<User>)
    ensures u.username == "" ==> r == Outcome(Failure(UsernameEmpty), db)
    ensures u.username != "" && u.password == "" ==> r == Outcome(Failure(PasswordEmpty), db)
    ensures r.result.Failure? ==> r.db == db
    ensures r.result.Success? ==> r.result.value.password == "" && r.result.value.name == ""
                                  && r.result.value.username == u.username
    ensures u.username != "" && u.password != "" ==> r == Register(db, "", u, insertError)
  {
    if u.username == "" then Outcome(Failure(UsernameEmpty), db)
    else if u.password == "" then Outcome(Failure(PasswordEmpty), db)
    else Register(db, "", u, insertError)
  }

  /**
   * A user created through this service is stored under its username with the password's hash
   * and no name, and signs in with the password it was created with.
   */
  lemma CreateUserThenValidate(db: Db, u: User, insertError: Option<string>)
    requires Wf(db)
    requires CreateUser(db, u, insertError).result.Success?
    ensures var r := CreateUser(db, u, insertError);
            && UserByUsername(r.db, u.username)
               == Some(UserRec(r.result.value.id, "", u.username, HashPassword(u.password), u.isAdmin))
            && ValidateUserCredentials(r.db, u.username, u.password) == Success(r.result.value)
  {
    RegisterThenValidate(db, "", u, insertError);
    InsertUserKeepsWf(db, "", u.username, HashPassword(u.password), u.isAdmin);
  }

  /** A username that is already taken is refused once both fields are given, and nothing is written. */
  lemma CreateUserRefusesTaken(db: Db, u: User, insertError: Option<string>)
    requires u.username != "" && u.password != "" && UserByUsername(db, u.username).Some?
    ensures CreateUser(db, u, insertError) == Outcome(Failure(UsernameTaken), db)
  {
  }

  /** Registration keeps the schema, and the new user's credentials are accepted right away (the check reports no name). */
  lemma RegisterThenValidate(db: Db, name: string, u: User, insertError: Option<string>)
    requires Wf(db)
    requires Register(db, name, u, insertError).result.Success?
    ensures var r := Register(db, name, u, insertError);
            && Wf(r.db)
            && ValidateUserCredentials(r.db, u.username, u.password) == Success(r.result.value.(name := ""))
  {
    InsertUserKeepsWf(db, name, u.username, HashPassword(u.password), u.isAdmin);
  }

  /** The registered user can be read back by id (under the id the store assigned) and by username. */
  lemma RegisterThenGet(db: Db, name: string, u: User, insertError: Option<string>)
    requires Register(db, name, u, insertError).result.Success?
    ensures var r := Register(db, name, u, insertError);
            && r.result.value.id == db.nextUserId
            && GetUserByID(r.db, db.nextUserId) == Success(r.result.value.(name := ""))
            && GetUserByUsername(r.db, u.username) == Success(r.result.value.(name := ""))
  {
  }

  // ---------------------------------------------------------------- ValidateUserCredentials

  /** An unknown user and a wrong password fail with the same text; a success carries no token. */
  function ValidateUserCredentials(db: Db, username: string, password: string): (r: Result<User, string>)
    ensures r.Failure? ==> r.error == InvalidCredentials
    ensures r.Success? <==> UserByUsername(db, username).Some?
                            && VerifyPassword(password, UserByUsername(db, username).value.passwordHash)
    ensures r.Success? ==> r.value.username == username && r.value.password == "" && r.value.token == ""
    ensures r.Success? ==> r.value == PublicUserOf(UserByUsername(db, username).value)
  {
    match UserByUsername(db, username)
    case None => Failure(InvalidCredentials)
    case Some(rec) =>
      if !VerifyPassword(password, rec.passwordHash) then Failure(InvalidCredentials)
      else Success(PublicUserOf(rec))
  }

  /** Accepted credentials give the same user as the read by username. */
  lemma ValidatedUserIsStoredUser(db: Db, username: string, password: string)
    requires ValidateUserCredentials(db, username, password).Success?
    ensures ValidateUserCredentials(db, username, password) == GetUserByUsername(db, username)
  {
  }

  // ---------------------------------------------------------------- UpdateUser

  /** The update rule: a given username replaces, a given password is rehashed, the admin flag is always taken. */
  function PatchUser(cur: UserRec, u: User): (m: UserRec)
    ensures m.id == cur.id && m.name == cur.name && m.isAdmin == u.isAdmin
    ensures m.username == (if u.username != "" then u.username else cur.username)
    ensures m.passwordHash == (if u.password != "" then HashPassword(u.password) else cur.passwordHash)
  {
    var c1 := if u.username != "" then cur.(username := u.username) else cur;
    var c2 := if u.password != "" then c1.(passwordHash := HashPassword(u.password)) else c1;
    c2.(isAdmin := u.isAdmin)
  }

  /**
   * `UpdateUser`: an unknown id fails and writes nothing. The save's error is returned as it is:
   * either the username index refuses the row, or the store fails for another reason (`writeError`).
   */
  function UpdateUser(db: Db, u: User, writeError: Option<string>): (r: Outcome<()>)
    ensures u.id !in db.users ==> r == Outcome(Failure("user not found: " + RecordNotFound), db)
    ensures r.result.Failure? ==> r.db == db
    ensures r.result.Success? <==> u.id in db.users && writeError.None?
                                   && SaveUser(db, PatchUser(db.users[u.id], u)).Success?
    ensures u.id in db.users && writeError.Some? ==> r.result == Failure(writeError.value)
    ensures u.id in db.users && writeError.None? && SaveUser(db, PatchUser(db.users[u.id], u)).Failure?
            ==> r.result == Failure(SaveUser(db, PatchUser(db.users[u.id], u)).error)
    ensures r.result.Success? ==> SaveUser(db, PatchUser(db.users[u.id], u)) == Success(r.db)
  {
    match UserById(db, u.id)
    case None => Outcome(Failure("user not found: " + RecordNotFound), db)
    case Some(cur) =>
      if writeError.Some? then Outcome(Failure(writeError.value), db)
      else match SaveUser(db, PatchUser(cur, u))
      case Failure(e) => Outcome(Failure(e), db)
      case Success(db1) => Outcome(Success(()), db1)
  }

  /**
   * After a successful update the schema still holds, the row carries the patch, and the login
   * check accepts the new password (when one was given) and refuses any different one.
   */
  lemma UpdateUserThenValidate(db: Db, u: User, writeError: Option<string>, other: string)
    requires Wf(db)
    requires UpdateUser(db, u, writeError).result.Success?
    ensures var db' := UpdateUser(db, u, writeError).db;
            var name := PatchUser(db.users[u.id], u).username;
            && Wf(db')
            && UserByUsername(db', name) == Some(PatchUser(db.users[u.id], u))
            && (u.password != "" ==> ValidateUserCredentials(db', name, u.password).Success?)
            && (u.password != "" && other != u.password ==> ValidateUserCredentials(db', name, other).Failure?)
  {
    var cur := db.users[u.id];
    assert cur.id == u.id;
    SaveUserKeepsWf(db, PatchUser(cur, u));
    if u.password != "" && other != u.password {
      VerifyMeansSamePassword(other, u.password);
    }
  }

  /** Repeating a successful update writes nothing new. */
  lemma UpdateUserIdempotent(db: Db, u: User, writeError: Option<string>)
    requires Wf(db)
    requires UpdateUser(db, u, writeError).result.Success?
    ensures UpdateUser(UpdateUser(db, u, writeError).db, u, writeError)
            == Outcome(Success(()), UpdateUser(db, u, writeError).db)
  {
    var cur := db.users[u.id];
    assert cur.id == u.id;
    var m := PatchUser(cur, u);
    SaveUserKeepsWf(db, m);
    var db1 := UpdateUser(db, u, writeError).db;
    assert db1.users[u.id] == m;
    assert PatchUser(m, u) == m;
    assert db1.usernames[m.username] == m.id;
    assert db1.users[m.id := m] == db1.users;
    assert db1.usernames[m.username := m.id] == db1.usernames;
  }
}

=== FILE: wrappers.dfy ===
/** Option and Result, the two failure-carrying shapes every operation of the model returns. */
module Wrappers {

  /** An optional value: `None` plays the part of Go's nil / JavaScript's undefined. */
  datatype Option<+T> = None | Some(value: T) {
    function GetOr(default: T): T {
      match this
      case Some(v) => v
      case None => default
    }
  }

  /** A value or an error message, the shape of Go's `(T, error)` pair. */
  datatype Result<+T, +E> = Success(value: T) | Failure(error: E) {
    function ToOption(): Option<T> {
      match this
      case Success(v) => Some(v)
      case Failure(_) => None
    }
  }
}
